=== FILE: README.md ===
# TimeEngine game-state core in Dafny

This project models the game-state logic of the TimeEngine engine (a small
pygame engine driven by YAML content files). Each engine component becomes a
Dafny module of immutable datatypes and pure transition functions. A
transition returns the new state and whatever the Python method returns.

- `ValueSystem`: the value store. It holds clamped numeric slots with get, set, add and subtract, and does the `%N.v` substitution in menu text.
- `CacheManager` and `Cooldowns`: the slot cooldown table and the per-frame tick it shares with the menu buttons.
- `HealthSystem`: the player's health, with clamped damage and heal.
- `Inventory`: a fixed row of slots with a bounds-checked `give_item`.
- `ScriptRunner`: the line-command interpreter.
  - It splits a script into lines, strips each one and dispatches on its prefix.
  - It parses `$inventory.GiveItem(name, id, slot)` and `$log.<colour>("message")` with the engine's regular expressions.
  - It has no other commands.
- `QuestSystem`: the quest state machine.
  - It covers giving, cancelling, kill counting with capped progress, completion and rewards.
  - It also parses `!quest_kill(E, N)` tasks and the two kinds of reward text.
- `MenuSystem`: opening and closing menus, and the click handler. The handler covers the button cooldown gate, the first button hit, the close cross and comment-skipping menu scripts.
- `EntityManager`: the enemy life cycle (damage, death, timed respawn and attacks), spawning from templates and the player's area attack.
- `NpcSystem`: NPC dialogs.
  - It covers speed levels, the typewriter animation and the current text.
  - It covers dialog buttons with `@close` and `nextdialog`.
  - It covers interaction, and the system's single active NPC.
- `MapSystem`: building a map's objects with their defaults, and the stable sort by layer. It also covers collision filtering and moves that commit only when nothing collides.
- `ItemLoader`: the recursive `$`-value rewrite of an item file, and the item table keyed by id.

`Text` holds the Python string operations the engine relies on. These are
`strip`, `split`/`join` on a character, `int()`/`str()` on decimal text,
`upper`, `replace`, and the leftmost-match search of `re.search`. `Wrappers`
holds `Option`. `Geometry` holds positions and rectangles.

Three facts about the code shape the model:
- The interpreter has only the `GiveItem` and `$log` commands. There are no delay, conditional, value or call instructions.
- A cooldown entry is removed when its count reaches zero. An entry that is already zero or negative is left as it is.
- `load_item` discards the result of the `$`-value rewrite. The rewrite still matters, because it can raise.

Collaborators the code calls but does not define are modelled as data:
- `execute_command`, called by menu and dialog scripts, does not exist in `engine/script_runner.py`. Those scripts return the list of command lines they would send.
- The quest reward's `inventory.get_item` and two-argument `give_item` do not exist in `engine/inventory.py`. Rewards act on a map from occupied slot to item id.

## Model

| member | source | states |
|---|---|---|
| HealthSystem.New | engine/health_system.py:6-8 | Without a config, health and maximum health both start at 100 |
| HealthSystem.FromConfig | engine/health_system.py:13-19 | A configured health or maximum replaces its default of 100; a missing one keeps it |
| HealthSystem.Damage | engine/health_system.py:27-29 | Health becomes `max(0, health - amount)`, so it is never negative; the maximum is unchanged; the result is true exactly when the new health is at most 0 |
| HealthSystem.Heal | engine/health_system.py:31-32 | Health becomes `min(max, health + amount)`, so it never exceeds the maximum; the maximum is unchanged |
| HealthSystem.DamageHealMonotone | engine/health_system.py:27-32 | For a non-negative amount, damage never raises health and heal never lowers it; damage then heal stays within 0 and the maximum |
| Inventory.New | engine/inventory.py:4-5 | The slot row has the requested length (none for a count of 0 or less) and every slot is empty |
| Inventory.Default | engine/inventory.py:4-5 | By default there are 10 empty slots |
| Inventory.GiveItem | engine/inventory.py:8-16 | It succeeds exactly for 0 ≤ slot < length and then holds `{name, id, count 1}` in that slot, overwriting; otherwise nothing changes; no other slot changes and the length never does |
| CacheManager.New | engine/cache_manager.py:5-7 | A new manager has no slot cooldowns |
| CacheManager.SaveSlotCooldown | engine/cache_manager.py:9-11 | Afterwards the slot reads back the saved count, the slot set gains only that slot, and other slots keep their counts |
| CacheManager.GetSlotCooldown | engine/cache_manager.py:44-46 | The stored count, or 0 for a slot without one |
| CacheManager.ClearSlotCooldown | engine/cache_manager.py:48-51 | The slot is gone and reads 0; other slots keep their counts; clearing an absent slot changes nothing |
| CacheManager.UpdateCooldowns | engine/cache_manager.py:58-72 | Counts above 1 drop by one; counts of 1 are removed and read 0; counts at or below 0 stay; no slot is added |
| Cooldowns.Tick | engine/menu_system.py:44-50 | One frame: positive counts drop by one and are removed on reaching 0, non-positive counts stay, and no key is added |
| Cooldowns.TickInPlace | engine/menu_system.py:44-50 | The key-by-key loop that decrements and deletes in place computes exactly the one-frame tick; the cache manager's loop, which defers its deletions, leaves the same table |
| Cooldowns.CooldownExpires | engine/menu_system.py:44-50 | A count of c > 0 still shows c - n after n < c frames, and is gone after c frames or more |
| Cooldowns.AbsentStaysAbsent | engine/menu_system.py:44-50 | Ticking never brings back a key that is not in the table |
| ValueSystem.Clamp | engine/value_system.py:28 | `max(lo, min(hi, x))`: inside the bounds when they are ordered, `x` itself when `x` is already inside, and the lower bound when the bounds cross |
| ValueSystem.Get | engine/value_system.py:18-22 | The stored value of a known id, 0 for an unknown id |
| ValueSystem.Store | engine/value_system.py:26-28 | Only the given id's value field changes; its bounds and every other id stay |
| ValueSystem.Set | engine/value_system.py:24-31 | It succeeds exactly for a known id and stores the amount clamped into that slot's bounds; an unknown id leaves the table unchanged |
| ValueSystem.Add | engine/value_system.py:33-41 | It succeeds exactly for a known id and stores the old value plus the amount, clamped into the bounds; an unknown id leaves the table unchanged |
| ValueSystem.Subtract | engine/value_system.py:43-45 | It succeeds exactly for a known id and stores the old value minus the amount, clamped into the bounds, as `add` of the negated amount does; an unknown id leaves the table unchanged |
| ValueSystem.GetAfterSet | engine/value_system.py:24-31 | After a set with ordered bounds the value lies within them, and equals the amount when the amount already does |
| ValueSystem.SetIdempotent | engine/value_system.py:24-31 | Setting the same id to the same amount twice gives the same table and result as once |
| ValueSystem.SubtractionsStayInBounds | engine/value_system.py:43-45 | Any sequence of subtractions keeps the slot's bounds and leaves its value within them |
| ValueSystem.PlaceholderAt | engine/value_system.py:50 | A `%<digits>.v` match starts with `%` and is at least four characters long |
| ValueSystem.Format | engine/value_system.py:47-56 | Text without `%` comes back unchanged, and a first character other than `%` is copied to the front of the result; `FormatPlain` extends the first fact to every text in which no placeholder starts |
| ValueSystem.FormatPlainPrefix | engine/value_system.py:47-56 | Text before the first `%` is copied through unchanged |
| ValueSystem.FormatPlain | engine/value_system.py:47-56 | Text in which no `%<digits>.v` starts is returned unchanged, whatever stray `%` signs it holds |
| ValueSystem.FormatStrayPercent | engine/value_system.py:47-56 | `"50% off"` and `"100%"` come back unchanged: a `%` without digits and `.v` after it is plain text |
| ValueSystem.PercentFreeIsPlain | engine/value_system.py:50 | A text without `%` holds no placeholder |
| ValueSystem.FormatPlaceholder | engine/value_system.py:52-56 | `%<digits>.v` with any non-empty digit run, leading zeros included, becomes the decimal text of the value whose id `int()` reads from the digits (so "0" for an unknown id), and the scan continues after it |
| ValueSystem.FormatPlaceholderId | engine/value_system.py:52-56 | In particular `%N.v` written with N's own digits becomes the decimal text of value N |
| ScriptRunner.GiveItemAt | engine/script_runner.py:30 | A `GiveItem` match at an index starts with the call text and finds two commas and a closing parenthesis with non-empty comma-free fields between them |
| ScriptRunner.GiveItemAtIs | engine/script_runner.py:30 | Conversely, any such layout of commas and parenthesis is exactly the match found there |
| ScriptRunner.SearchGiveItem | engine/script_runner.py:30-31 | A match needs the call text somewhere in the line, plus a comma and a closing parenthesis, and all three groups it yields are non-empty |
| ScriptRunner.SearchGiveItemIs | engine/script_runner.py:30-32 | A line starting with the call, laid out that way, yields exactly those name, id and slot texts |
| ScriptRunner.SearchGiveItemNone | engine/script_runner.py:30-31 | The search finds nothing exactly when no index starts a match |
| ScriptRunner.ExecuteGiveItem | engine/script_runner.py:28-36 | No match does nothing; it raises exactly when a match's id or slot text is not an integer; otherwise at most one slot changes and the slot count stays |
| ScriptRunner.ExecuteGiveItemFound | engine/script_runner.py:31-36 | When the texts parse, the stripped name, id and slot go to the inventory's `give_item` |
| ScriptRunner.FewerThanTwoCommas | engine/script_runner.py:30-31 | A line with fewer than two commas, such as a two-argument call, changes nothing |
| ScriptRunner.NoDelimitersInNumber | engine/script_runner.py:33-34 | Decimal text has no comma or parenthesis and no surrounding blanks, so it survives the pattern and the strip |
| ScriptRunner.GiveItemTextMatches | engine/script_runner.py:30-32 | A call assembled from comma-free fields is parsed back into exactly those fields |
| ScriptRunner.GiveItemCommandRoundTrip | engine/script_runner.py:28-36 | Running `$inventory.GiveItem(name, id, slot)` gives exactly `give_item(name, id, slot)` |
| ScriptRunner.LogAt | engine/script_runner.py:40 | A `$log` match has a word colour, an opening parenthesis and quote, a closing quote and parenthesis |
| ScriptRunner.LogAtIs | engine/script_runner.py:40 | Conversely, any word colour followed by a quoted quote-free message is exactly the match found there |
| ScriptRunner.ExecuteLog | engine/script_runner.py:38-44 | A printed line needs `$log.` somewhere in the command, and starts with `[` followed by a non-empty colour and message |
| ScriptRunner.ExecuteLogNone | engine/script_runner.py:40-41 | A line prints nothing exactly when no index starts a `$log` match |
| ScriptRunner.ExecuteLogIs | engine/script_runner.py:38-44 | A line starting with a well-formed `$log` call prints `[COLOUR] message` |
| ScriptRunner.LogCommandRoundTrip | engine/script_runner.py:38-44 | `$log.<colour>("msg")`, with either quote at either end, prints `"[" + upper(colour) + "] " + msg` |
| ScriptRunner.RunEnd | engine/script_runner.py:30 | The end of a character run is past its start and holds a character outside the class |
| ScriptRunner.RunEndIs | engine/script_runner.py:30 | A run of class characters ended by a non-class character ends exactly there |
| ScriptRunner.ExecuteLines | engine/script_runner.py:21-26 | Running lines only appends printed output and never changes the number of inventory slots |
| ScriptRunner.ExecuteCommands | engine/script_runner.py:19-26 | The number of inventory slots never changes, and a script whose every line is inert does nothing and prints nothing |
| ScriptRunner.ExecuteLinesAppend | engine/script_runner.py:21-26 | Lines run in order: running `a + b` is running `b` from where `a` left off, unless `a` raised |
| ScriptRunner.InertLines | engine/script_runner.py:21-26 | Lines whose stripped text starts with neither command prefix have no effect |
| ScriptRunner.EmptyScript | engine/script_runner.py:19-26 | The empty script does nothing |
| ScriptRunner.RunScript | engine/script_runner.py:8-17 | The number of inventory slots never changes, and a file without a `script` entry does nothing |
| ScriptRunner.RunScriptLines | engine/script_runner.py:12-17 | A list script runs exactly its lines, joined with `\n` and split back |
| ScriptRunner.RunScriptMissing | engine/script_runner.py:12 | A file without a `script` entry runs the empty script |
| QuestSystem.DigitsEnd | engine/quest_system.py:44 | A digit run found after an index is non-empty and all digits |
| QuestSystem.KillAt | engine/quest_system.py:44 | A kill match has digits, a comma, optional blanks, digits and a closing parenthesis |
| QuestSystem.KillAtIs | engine/quest_system.py:44 | Conversely, any such layout is exactly the match found there |
| QuestSystem.ParseKill | engine/quest_system.py:43-50 | A kill requirement is found only in a task that starts with `!quest_kill(` and holds a comma and a closing parenthesis |
| QuestSystem.KillTextRoundTrip | engine/quest_system.py:43-50 | `!quest_kill(E,<blanks>N)` parses back to enemy E and requirement N |
| QuestSystem.NumberCallAt | engine/quest_system.py:134 | A reward match has a non-empty digit run and a closing parenthesis |
| QuestSystem.AddMaxHealthAt | engine/quest_system.py:134 | The `addmaxhealth` pattern's match has the same shape |
| QuestSystem.GiveItemAt | engine/quest_system.py:141 | The `giveitem` pattern's match has the same shape |
| QuestSystem.NumberCallAtIs | engine/quest_system.py:134 | A call followed by digits and `)` is exactly the match found there |
| QuestSystem.RewardTextMatches | engine/quest_system.py:133-141 | A reward text built from a number starts with its call and matches with that number's digits |
| QuestSystem.ParseReward | engine/quest_system.py:132-143 | Each reward kind needs its own prefix, and a text with neither prefix is no reward |
| QuestSystem.RewardRoundTrip | engine/quest_system.py:132-143 | `!quest_reward_addmaxhealth(N)` and `!quest_reward_giveitem(N)` parse back to their kind and N |
| QuestSystem.OtherRewardIgnored | engine/quest_system.py:132-148 | A reward with neither prefix changes nothing |
| QuestSystem.FreeSlotFrom | engine/quest_system.py:145-148 | The slot found is the lowest free one from the starting slot up to slot 8; none is found only when all of those are taken |
| QuestSystem.ApplyReward | engine/quest_system.py:132-148 | `addmaxhealth(N)` raises the maximum by N and then heals N, capped at the new maximum; `giveitem(N)` puts item N in the lowest free slot, or does nothing when all are full |
| QuestSystem.ProcessRewards | engine/quest_system.py:121-148 | Paying rewards never lowers the maximum health, never takes or replaces an item, and only fills slots 0 to 8 |
| QuestSystem.New | engine/quest_system.py:14-17 | A new quest system holds the loaded definitions with nothing active or completed and no kills, and satisfies the invariant |
| QuestSystem.Without | engine/quest_system.py:65 | Removing an id from the active order keeps the other ids, and keeps them free of duplicates |
| QuestSystem.Give | engine/quest_system.py:35-60 | It succeeds exactly when the id is defined, not active and not completed; then the quest becomes active with its kill records and comes last in order; otherwise nothing changes |
| QuestSystem.GiveStartsAtZero | engine/quest_system.py:39-57 | A given quest is not completed and has a record exactly for each task matching `!quest_kill(E, N)`, with enemy E, requirement N and count 0 |
| QuestSystem.Cancel | engine/quest_system.py:62-68 | It succeeds exactly for an active quest and removes it; otherwise nothing changes; the completed set and kill counts are never touched |
| QuestSystem.KillCount | engine/quest_system.py:86 | The kill count of an enemy, 0 when none was recorded |
| QuestSystem.Progress | engine/quest_system.py:84-87 | Every record for the enemy moves to `min(count, required)`; records for other enemies are unchanged |
| QuestSystem.UpdateQuestProgress | engine/quest_system.py:81-87 | Only that quest's records for the enemy change, each to `min(kills, required)`; every other quest and record stays |
| QuestSystem.RegisterKill | engine/quest_system.py:70-79 | The enemy's counter rises by exactly one (from 0 when new), other counters stay, and every active quest not yet marked complete brings its records for that enemy up to the new count; quests marked complete are untouched |
| QuestSystem.ProgressCapped | engine/quest_system.py:87 | After a progress update every record still has `0 ≤ current ≤ required` |
| QuestSystem.CheckQuestCompletion | engine/quest_system.py:103-113 | True exactly when every record has reached its requirement, vacuously with no records |
| QuestSystem.Complete | engine/quest_system.py:115-128 | A defined quest is paid out in reward order, added to the completed set and removed from the active ones; an undefined id changes nothing |
| QuestSystem.GivePreservesValid | engine/quest_system.py:35-57 | Giving keeps the invariant: active and completed disjoint, both defined, order matching active, records capped |
| QuestSystem.CancelPreservesValid | engine/quest_system.py:62-68 | Cancelling keeps the invariant |
| QuestSystem.CompletePreservesValid | engine/quest_system.py:115-128 | Completing keeps the invariant, in particular active and completed stay disjoint |
| QuestSystem.RegisterKillPreservesValid | engine/quest_system.py:70-87 | Registering a kill keeps the invariant, in particular the progress caps |
| QuestSystem.UpdateQuestsOver | engine/quest_system.py:97-101 | The loop keeps definitions and kill counts, only adds completed quests and only removes active ones, and leaves alone every active quest it does not visit |
| QuestSystem.UpdateQuests | engine/quest_system.py:97-101 | `update_quests` keeps definitions and kill counts, only adds completed quests and only removes active ones |
| QuestSystem.UpdateQuestsOverPreservesValid | engine/quest_system.py:97-101 | The completion loop keeps the invariant and only adds to the completed set |
| QuestSystem.UpdateQuestsOverCompletesDue | engine/quest_system.py:97-101 | Afterwards exactly the due quests are completed, every other active quest is still active and untouched, and none left active is due |
| QuestSystem.UpdateQuestsCompletesDue | engine/quest_system.py:97-101 | `update_quests` completes exactly the due quests and leaves none due |
| QuestSystem.ApplyPreservesValid | engine/quest_system.py:35-128 | Each public operation keeps the invariant and never un-completes a quest |
| QuestSystem.RunPreservesValid | engine/quest_system.py:35-128 | Over any sequence of operations the invariant holds, completed quests stay completed, and a completed quest can never be given again |
| MenuSystem.New | engine/menu_system.py:11-13 | No menu is open and no button is cooling down |
| MenuSystem.OpenMenu | engine/menu_system.py:33-38 | A known id opens its menu and succeeds; an unknown id fails and changes nothing |
| MenuSystem.CloseMenu | engine/menu_system.py:40-42 | Afterwards no menu is open; menus and cooldowns stay |
| MenuSystem.ButtonRect | engine/menu_system.py:64-67 | A button's rectangle, at (0, 0) and 100 by 30 unless given |
| MenuSystem.CrossRect | engine/menu_system.py:82-88 | The cross is 20 by 20, 30 left of the menu's right edge and 10 below its top, with width 600 and position (100, 100) unless given |
| MenuSystem.FirstHit | engine/menu_system.py:62-68 | The button found contains the click |
| MenuSystem.FirstHitLeftmost | engine/menu_system.py:62-68 | No earlier button contains the click, and none is found exactly when no button contains it |
| MenuSystem.HandleClick | engine/menu_system.py:52-93 | With no open menu nothing happens and cooldowns do not tick; menus never change; an unhandled click sends nothing and leaves the open menu |
| MenuSystem.ClickOnButton | engine/menu_system.py:58-78 | On the first button hit a cooling button returns True silently; otherwise its cooldown is set to 10 and its script runs; the menu stays open |
| MenuSystem.ClickOffButtons | engine/menu_system.py:80-93 | A click on no button closes the menu exactly when the cross is shown (by default) and contains the click; no script runs |
| MenuSystem.ButtonBeforeCross | engine/menu_system.py:62-91 | A click on any button is handled by a button, never by the cross |
| MenuSystem.CoolingClicks | engine/menu_system.py:44-78 | While its cooldown lasts, repeated clicks on a button send nothing and only count the cooldown down |
| MenuSystem.PressedButtonWaits | engine/menu_system.py:14-78 | A button that fires stays silent for the next nine clicks on it and fires again on the tenth |
| MenuSystem.MenuScript | engine/menu_system.py:95-99 | Every forwarded line is non-empty and does not start with `#` |
| MenuSystem.MenuScriptOne | engine/menu_system.py:97-99 | One line is forwarded as its stripped text exactly when that text is non-empty and does not start with `#` |
| MenuSystem.MenuScriptAppend | engine/menu_system.py:97-99 | Lines are forwarded in order, one at a time |
| MenuSystem.MenuScriptClean | engine/menu_system.py:97-99 | Lines that are already stripped, non-empty and not comments are all forwarded unchanged |
| MenuSystem.MenuScriptSkips | engine/menu_system.py:98 | A blank line or a comment is not forwarded |
| EntityManager.NewEntity | engine/entity_manager.py:8-31 | A new entity is named "Unknown" with id 0 unless given, and is alive at its spawn point with health 100 unless given, maximum equal to the starting health unless given, and respawn time 10 unless given |
| EntityManager.NewEntityConsistent | engine/entity_manager.py:26-31 | A new entity satisfies the life-cycle invariant |
| EntityManager.TakeDamage | engine/entity_manager.py:92-103 | A dead or respawning entity is unchanged and reports no kill; otherwise health becomes `max(0, health - amount)`, the bar shows, and it dies and reports a kill exactly when health reaches 0 or less |
| EntityManager.StartRespawn | engine/entity_manager.py:76-78 | The respawn timer is wound up to the full respawn time and the entity is marked respawning, with its life, health and position untouched |
| EntityManager.Respawn | engine/entity_manager.py:80-85 | Alive again, not respawning, at full health at the spawn point, bar hidden |
| EntityManager.Update | engine/entity_manager.py:45-74 | A dead entity starts respawning with the full respawn time; a respawning one counts down by the frame and comes back once the timer runs out; neither hurts the player that frame |
| EntityManager.UpdateLive | engine/entity_manager.py:56-74 | A live entity shows its bar exactly within aggro range (200), and attacks exactly within attack range (70) with its cooldown run out, resetting the cooldown (1 second) |
| EntityManager.UpdatePlayer | engine/entity_manager.py:67-72 | The player takes the entity's damage (5 unless given) exactly when the entity attacks, and is untouched otherwise |
| EntityManager.UpdateIgnoresPlayer | engine/entity_manager.py:45-74 | What a frame does to an entity does not depend on the player's health |
| EntityManager.UpdateAll | engine/entity_manager.py:171-173 | Every entity gets exactly one updated counterpart; what the frames are is stated by UpdateAllFrames |
| EntityManager.UpdateAllFrames | engine/entity_manager.py:171-173 | Every entity gets its own frame in list order; with no attacker the player is untouched; the player's maximum never changes |
| EntityManager.ConsistentPreserved | engine/entity_manager.py:45-103 | Damage, respawn and the frame update keep a respawning entity dead |
| EntityManager.RespawnCountdown | engine/entity_manager.py:50-54 | While the frames add up to less than the timer, the entity stays dead and its timer drops by exactly their total |
| EntityManager.KillThenUpdate | engine/entity_manager.py:47-54 | A killed entity starts respawning next frame, and is back at once, with full health at its spawn, when that frame outlasts the respawn time |
| EntityManager.SpawnEnemy | engine/entity_manager.py:157-169 | An unknown id gives nothing; without initialisation a placeholder comes back; otherwise exactly one new entity is appended |
| EntityManager.CheckAttackHit | engine/entity_manager.py:179-191 | Every live, non-respawning entity in range takes the damage; the hits are exactly the indices of those killed, in list order |
| NpcSystem.SpeedLevel | engine/npc_system.py:70 | The level is clamped into 1 to 4 |
| NpcSystem.CharDelay | engine/npc_system.py:68-79 | The delay is 0 exactly at level 4, and 0.05, 0.05/2 and 0.05/3.5 at levels 1 to 3 |
| NpcSystem.NewNpc | engine/npc_system.py:8-34 | A new NPC is called "Unknown NPC" with id 0 and range 100 unless given, and has no dialog open and the base delay |
| NpcSystem.StartDialog | engine/npc_system.py:51-66 | It succeeds exactly when the NPC has a dialog; both indices go to 0, buttons and prompt are hidden, and the delay follows the dialog's speed (1 by default) |
| NpcSystem.UpdateDialog | engine/npc_system.py:81-109 | No dialog, shown buttons or no current message mean nothing changes; at a non-zero delay a step whose delay has not elapsed changes nothing; the dialog and message index never change |
| NpcSystem.InstantDialog | engine/npc_system.py:87-95 | At delay 0 one update shows the whole message and the buttons |
| NpcSystem.Typewriter | engine/npc_system.py:97-107 | Each elapsed update reveals exactly one more character while the message is not complete, and the text shown is that prefix |
| NpcSystem.TypewriterDone | engine/npc_system.py:105-109 | Once the whole message is shown, the next elapsed update shows the buttons |
| NpcSystem.TypedWithinPreserved | engine/npc_system.py:51-161 | Starting, updating and button clicks keep the character index within the current message |
| NpcSystem.CurrentText | engine/npc_system.py:111-127 | The first `char_index` characters of the current message, list lines joined with `\n`, and "" without one |
| NpcSystem.FindButton | engine/npc_system.py:134-136 | The button under a key, found exactly when a button has that key |
| NpcSystem.BeforeClose | engine/npc_system.py:140-144 | The commands sent are the script's prefix up to the first `@close`, or all of it |
| NpcSystem.HandleButtonClick | engine/npc_system.py:129-161 | No dialog returns False and an unknown key returns True, both with no effect; otherwise the commands before `@close` are sent, and it continues exactly when there is no `@close` and `nextdialog` brings a dialog, which then restarts |
| NpcSystem.CloseEndsDialog | engine/npc_system.py:140-142 | A button whose script holds `@close` ends the dialog and sends only the commands before it |
| NpcSystem.NextDialogRestarts | engine/npc_system.py:146-158 | `nextdialog` with a dialog swaps it in with empty text, hidden buttons and its own speed, and the dialog continues |
| NpcSystem.SpawnNpc | engine/npc_system.py:211-222 | An unknown id gives nothing; without initialisation a placeholder comes back; otherwise exactly one NPC is appended |
| NpcSystem.StartFirst | engine/npc_system.py:236-250 | The first candidate that has a dialog starts it and is returned; earlier candidates without a dialog are reset but not started |
| NpcSystem.HandleInteraction | engine/npc_system.py:234-241 | Nothing happens while an NPC is active; otherwise it succeeds exactly when it makes an NPC active. The NPC made active has its dialog started, and every earlier NPC in range had `start_dialog` run on it (a reset, since it has no dialog). Out-of-range NPCs, later NPCs and the templates stay unchanged |
| NpcSystem.InteractionPicksFirst | engine/npc_system.py:234-241 | The NPC made active is the first in range with a dialog; none becomes active exactly when no NPC in range has one |
| NpcSystem.StartDialogById | engine/npc_system.py:243-250 | It succeeds exactly when some NPC with the id has a dialog; then the first such NPC has its dialog restarted and becomes active, and every earlier NPC with the id has no dialog and had `start_dialog` run on it. On failure every NPC with the id had it run, and the active NPC is unchanged. NPCs with other ids, later NPCs and the templates are untouched, and the invariant is kept |
| NpcSystem.UpdateNpcs | engine/npc_system.py:224-232 | Every NPC can interact, and shows its prompt, exactly when the player is within its range, and no other field changes. The active NPC stays active and then takes one `update_dialog` step. The templates are untouched |
| NpcSystem.DialogButtonRect | engine/npc_system.py:258-277 | Button i of n sits at x 510, y `450 - 40n + 40i`, and is 120 by 30 |
| NpcSystem.FirstButtonHit | engine/npc_system.py:271-279 | The button found contains the click, and none is found only when no button contains it |
| NpcSystem.ButtonHit | engine/npc_system.py:257-279 | A button hit is an index into the active dialog's buttons |
| NpcSystem.HandleDialogClick | engine/npc_system.py:252-285 | Without an active NPC showing buttons nothing happens; a hit clicks that button, and the NPC stops being active exactly when the click does not continue; a continuing click keeps the same NPC active; the templates are untouched |
| NpcSystem.Apply | engine/npc_system.py:211-285 | Every operation keeps a single active NPC, which is in the list and has a dialog open |
| NpcSystem.OneActiveNpc | engine/npc_system.py:211-285 | Over any sequence of operations the invariant holds: the one active NPC, if any, is in the list and has a dialog open |
| MapSystem.NewObject | engine/map_system.py:6-14 | Layer 0, no collision, 64 by 64 at (0, 0) unless given; the rectangle is built from that position and size |
| MapSystem.Insert | engine/map_system.py:87 | Inserting keeps the objects sorted by layer and adds one |
| MapSystem.InsertPermutes | engine/map_system.py:87 | Insertion adds exactly the new object, a permutation |
| MapSystem.SortByLayer | engine/map_system.py:87 | The result is sorted by layer and is a permutation of the input |
| MapSystem.OnLayerAppendOne | engine/map_system.py:87 | Appending an object adds it to its own layer only |
| MapSystem.AppendHigher | engine/map_system.py:87 | An object placed after `x` and on a higher layer leaves `x` last on its layer |
| MapSystem.InsertOnLayer | engine/map_system.py:87 | Insertion puts the object last on its own layer and leaves every other layer as it was |
| MapSystem.SortIsStable | engine/map_system.py:87 | The sort is stable: on each layer the objects keep their definition order |
| MapSystem.New | engine/map_system.py:51-54 | No map is current and there are no objects |
| MapSystem.SetMap | engine/map_system.py:73-93 | A known id makes its map current, with one object per entry, sorted by layer, as a permutation of the built objects, with every layer's objects in the order the map lists them; an unknown id changes nothing |
| MapSystem.CheckCollisions | engine/map_system.py:95-101 | Every object returned collides, and the result is empty exactly when nothing collides |
| MapSystem.CheckCollisionsOne | engine/map_system.py:97-100 | A single object is reported exactly when the player collides with it |
| MapSystem.CheckCollisionsAppend | engine/map_system.py:97-101 | Objects are checked in order: the result for `p + q` is the result for `p` followed by the result for `q`, so the result is exactly the colliding objects in map order |
| MapSystem.CollisionsComplete | engine/map_system.py:34-38 | Every object that collides with the player's rectangle is in the result |
| MapSystem.UpdatePlayerPosition | engine/map_system.py:103-117 | The move is made exactly when nothing collides at the new position; otherwise the rectangle is unchanged; width and height never change |
| ItemLoader.StatValue | engine/item_loader.py:31 | Looking up a stat fails when the item is not a table, and gives "" when the item has no `stats` |
| ItemLoader.ProcessValue | engine/item_loader.py:22-37 | `$function.nullstroke` becomes `"\n"`; other `$` strings of no known kind become the null value; non-`$` scalars are unchanged; lists keep their length, and tables keep their length and keys in order |
| ItemLoader.ProcessList | engine/item_loader.py:34-35 | A list is rewritten element by element, keeping its length |
| ItemLoader.ProcessEntries | engine/item_loader.py:32-33 | A table is rewritten value by value, keeping its keys in order |
| ItemLoader.ColorRoundTrip | engine/item_loader.py:27-28 | `$color.<name>` becomes the bare name |
| ItemLoader.StatsRoundTrip | engine/item_loader.py:29-31 | `$stats.<name>` becomes the item's stat of that name, or "" when there is none |
| ItemLoader.PlainUnchanged | engine/item_loader.py:32-37 | A value with no `$` string anywhere is rewritten to itself |
| ItemLoader.PlainListUnchanged | engine/item_loader.py:34-35 | A list of such values is rewritten to itself |
| ItemLoader.PlainEntriesUnchanged | engine/item_loader.py:32-33 | A table of such values is rewritten to itself |
| ItemLoader.ProcessFails | engine/item_loader.py:22-39 | The rewrite raises exactly when the value holds a `$stats.` reference and the item's `stats` cannot be looked up in |
| ItemLoader.ProcessListFails | engine/item_loader.py:34-35 | A list's rewrite raises exactly when one of its elements does |
| ItemLoader.ProcessEntriesFails | engine/item_loader.py:32-33 | A table's rewrite raises exactly when one of its values does |
| ItemLoader.ItemId | engine/item_loader.py:15 | An item's id is its `id` entry, or else the number of items loaded so far |
| ItemLoader.LoadItem | engine/item_loader.py:8-18 | Loading succeeds exactly when the file is a table whose rewrite does not raise and whose id is hashable (not a list or a table, which raise `TypeError`). The unrewritten data is stored under its id and returned, with `True`/`False` stored as `1`/`0` as a dict does. Other ids keep their items, and the stored keys stay in that form |
| ItemLoader.GetItem | engine/item_loader.py:41-42 | The stored item, found through the same `True`/`1` key identity; nothing for an unknown id; a failure for a list or table id, where the lookup raises `TypeError` |
| ItemLoader.LoadThenGet | engine/item_loader.py:13-42 | An item with no `$` strings and a hashable id always loads, and `get_item` then returns it, unrewritten, under its id |
| ItemLoader.BoolIdSharesIntKey | engine/item_loader.py:15-16 | An item whose id is `True` or `False` is found under `1` or `0`, and takes that key's place instead of adding one |
| ItemLoader.HashKey | engine/item_loader.py:15-16 | The dict key a hashable id is stored under: a boolean becomes the integer equal to it, and anything else stays |

## Left out

- Everything in `engine/engine.py`: the pygame window, input handling, the frame loop and directory scanning.
- Every `render*` and `load_texture` method, fonts, textures and `render_quest_log`, because they only draw.
- YAML parsing, file reading and every `load_*` directory scan. Loaded content arrives as datatypes.
- The cache manager's file writes, reads and deletes, and `load_slot_cooldowns`, because they are persistence only.
- `print` logging. Only returned or formatted values are modelled; a `$log` line's printed text is returned as output.
- Distances, computed with `math.sqrt`, become a predicate `near(position, range)` or `inRange(position)`.
- `Rect.collidepoint` and `Rect.colliderect`, which are pygame's, become predicates `inside(rect)` and `overlap(a, b)`.
- `time.time()` in the dialog animation becomes a boolean saying whether the character delay has elapsed.
- Delays and timers are Dafny reals. Floating-point rounding is not modelled.
- The health percentage in `get_health_variables` is left out, because it is a floating-point ratio.
- `cache_manager.load_values` and `save_values`, which `engine/value_system.py` calls, do not exist in `engine/cache_manager.py`. A value table is a plain map, and saving is not modelled.
- `script_runner.execute_command` does not exist in `engine/script_runner.py`. Menu and dialog scripts return the command lines they would send.
- The quest reward's `inventory.get_item` and two-argument `give_item` do not exist in `engine/inventory.py`. Rewards act on a map from occupied slot to item id.
- Only ASCII digits and word characters are modelled. Python's `\d`, `\w` and `int()` also accept other Unicode digits, and `int()` accepts underscores between digits; neither is modelled. A leading `+` or `-` is modelled.
- Script content that is neither text nor a list of strings is left out, because the source would raise on it.
- A dialog or template given as an empty table is modelled as absent, since Python treats both as false.
- The menu's `height`, the button `text` and all other display-only keys are left out.
- NpcSystem.CharDelay: dialog speeds are integers here. The source clamps a YAML number into 1 to 4 and sets the delay only for the levels 1, 2, 3 and 4. A fractional speed such as 2.5 matches none of them and keeps the previous delay, which is the base delay on a fresh NPC or the previous dialog's delay after `nextdialog`. The model cannot express that case.
- Numbers read from YAML are integers throughout: cooldown counts, value slots and their bounds, map layers and health. A fractional count, such as a cooldown of 0.5 that is removed after one tick, is not modelled.
- Item tables and dialog buttons are sequences of key and value pairs. A Python dict cannot hold a key twice: YAML keeps the last duplicate, and `True` and `1` are the same key. The model does not exclude duplicate keys, and `Lookup` and `FindButton` take the first one. The item table keyed by id does model the `True`/`1` identity (`ItemLoader.HashKey`).
- QuestSystem.UpdateQuestProgress: requires the quest to be active. The source raises `KeyError` otherwise, and its only caller passes active ids.
- QuestSystem.CheckQuestCompletion: requires the quest to be active, for the same reason.
- QuestSystem.Complete: a defined quest whose table is empty counts as defined here. The source's `if not quest` would skip it, but a loaded quest always has an `id` key.
- NpcSystem.UpdateNpcs: requires the system invariant, since the active NPC is an index into the list rather than a reference. NpcSystem.OneActiveNpc proves every operation keeps the invariant.
- NpcSystem.ButtonHit: requires the system invariant and an active NPC, for the same reason.
- NpcSystem.HandleDialogClick: requires the system invariant, for the same reason.
- NpcSystem.Apply: requires the system invariant, for the same reason.
- EntityManager.CheckAttackHit: returns the indices of the killed entities rather than the entity objects.

=== FILE: cache_manager.dfy ===
/**
 * The in-memory slot-cooldown table of the cache manager. Every change is
 * also written to (or deleted from) a per-slot file; that persistence is
 * not modelled.
 */
module CacheManager {
  import Cooldowns

  datatype Cache = Cache(slotCooldowns: map<int, int>)

  /** A fresh manager has no cooldowns. */
  function New(): (c: Cache)
    ensures c.slotCooldowns == map[]
  {
    Cache(map[])
  }

  /** `save_slot_cooldown`: the slot's entry becomes `cooldown`; other slots keep theirs. */
  function SaveSlotCooldown(c: Cache, slot: int, cooldown: int): (r: Cache)
    ensures r.slotCooldowns.Keys == c.slotCooldowns.Keys + {slot}
    ensures GetSlotCooldown(r, slot) == cooldown
    ensures forall s :: s in c.slotCooldowns && s != slot ==> s in r.slotCooldowns && r.slotCooldowns[s] == c.slotCooldowns[s]
  {
    Cache(c.slotCooldowns[slot := cooldown])
  }

  /** `get_slot_cooldown`: the stored count, or 0 for a slot without one. */
  function GetSlotCooldown(c: Cache, slot: int): (v: int)
    ensures slot in c.slotCooldowns ==> v == c.slotCooldowns[slot]
    ensures slot !in c.slotCooldowns ==> v == 0
  {
    if slot in c.slotCooldowns then c.slotCooldowns[slot] else 0
  }

  /** `clear_slot_cooldown`: the slot is gone afterwards; nothing else changes. */
  function ClearSlotCooldown(c: Cache, slot: int): (r: Cache)
    ensures r.slotCooldowns.Keys == c.slotCooldowns.Keys - {slot}
    ensures GetSlotCooldown(r, slot) == 0
    ensures forall s :: s in r.slotCooldowns ==> r.slotCooldowns[s] == c.slotCooldowns[s]
    ensures slot !in c.slotCooldowns ==> r == c
  {
    if slot in c.slotCooldowns then Cache(c.slotCooldowns - {slot}) else c
  }

  /**
   * `update_cooldowns`, with the loop the source runs: entries above 1 lose
   * one, entries at 1 are removed (their count reads 0 afterwards), entries at
   * or below 0 stay, and no slot is ever added.
   */
  method UpdateCooldowns(c: Cache) returns (r: Cache)
    ensures r.slotCooldowns.Keys <= c.slotCooldowns.Keys
    ensures forall s :: s in c.slotCooldowns && c.slotCooldowns[s] > 1 ==> GetSlotCooldown(r, s) == c.slotCooldowns[s] - 1
    ensures forall s :: s in c.slotCooldowns && c.slotCooldowns[s] == 1 ==> s !in r.slotCooldowns && GetSlotCooldown(r, s) == 0
    ensures forall s :: s in c.slotCooldowns && c.slotCooldowns[s] <= 0 ==> s in r.slotCooldowns && r.slotCooldowns[s] == c.slotCooldowns[s]
  {
    var m := Cooldowns.TickInPlace(c.slotCooldowns);
    r := Cache(m);
  }
}

=== FILE: cooldowns.dfy ===
/**
 * Countdown tables measured in frames. The slot cooldowns of the cache
 * manager and the button cooldowns of the menu system tick in exactly the
 * same way, so the tick is defined once here.
 */
module Cooldowns {

  /**
   * One frame: every positive entry loses one; an entry that reaches zero is
   * dropped; entries that are already zero or negative are left as they are.
   */
  function Tick<K>(m: map<K, int>): (r: map<K, int>)
    ensures r.Keys <= m.Keys
    ensures forall k :: k in m && m[k] > 1 ==> k in r && r[k] == m[k] - 1
    ensures forall k :: k in m && m[k] == 1 ==> k !in r
    ensures forall k :: k in m && m[k] <= 0 ==> k in r && r[k] == m[k]
  {
    map k | k in m && m[k] != 1 :: if m[k] > 0 then m[k] - 1 else m[k]
  }

  /**
   * The menu's per-frame update of its button cooldowns: visit every key
   * once, decrement a positive entry and delete it as soon as it is no longer
   * positive. The cache manager instead collects the expired slots and
   * deletes them after the loop, which leaves the same table.
   */
  method TickInPlace<K>(m: map<K, int>) returns (r: map<K, int>)
    ensures r == Tick(m)
  {
    r := m;
    var todo := m.Keys;
    while todo != {}
      invariant todo <= m.Keys
      invariant r.Keys <= m.Keys
      invariant forall k :: k in todo ==> k in r && r[k] == m[k]
      invariant forall k :: k in m && k !in todo ==> (k in r <==> k in Tick(m))
      invariant forall k :: k in r && k !in todo ==> r[k] == Tick(m)[k]
      decreases todo
    {
      var k :| k in todo;
      if r[k] > 0 {
        r := r[k := r[k] - 1];
        if r[k] <= 0 {
          r := r - {k};
        }
      }
      todo := todo - {k};
    }
  }

  /** `n` consecutive frames. */
  function TickN<K>(m: map<K, int>, n: nat): map<K, int>
    decreases n
  {
    if n == 0 then m else TickN(Tick(m), n - 1)
  }

  /**
   * A cooldown of `c > 0` frames is still pending, at `c - n`, after `n < c`
   * frames and has been removed after `c` frames or more.
   */
  lemma {:induction false} CooldownExpires<K>(m: map<K, int>, k: K, n: nat)
    requires k in m && m[k] > 0
    ensures n < m[k] ==> k in TickN(m, n) && TickN(m, n)[k] == m[k] - n
    ensures n >= m[k] ==> k !in TickN(m, n)
    decreases n
  {
    if n > 0 {
      var m' := Tick(m);
      if m[k] == 1 {
        AbsentStaysAbsent(m', k, n - 1);
      } else {
        CooldownExpires(m', k, n - 1);
      }
    }
  }

  /** A key that is not in the table never comes back. */
  lemma {:induction false} AbsentStaysAbsent<K>(m: map<K, int>, k: K, n: nat)
    requires k !in m
    ensures k !in TickN(m, n)
    decreases n
  {
    if n > 0 {
      AbsentStaysAbsent(Tick(m), k, n - 1);
    }
  }
}

=== FILE: entity_manager.dfy ===
/**
 * Enemies: each entity's life cycle (alive, dead, respawning, alive again
 * at its spawn point with full health) and the manager's list of entities
 * spawned from templates. Distances are not computed: whether a position is
 * within a range of the player, or of an attack, is given as a predicate.
 * Times (the respawn timer and the attack cooldown) are seconds, as reals.
 */
module EntityManager {
  import opened Wrappers
  import HealthSystem
  import opened Geometry

  /** The keys of an enemy template's `stats` and `behavior` tables; every one is optional. */
  datatype Stats = Stats(health: Option<int>, maxHealth: Option<int>, respawnTime: Option<real>, damage: Option<int>,
                         attackCooldown: Option<real>, attackRange: Option<int>, aggroRange: Option<int>)

  /** An enemy template as loaded: name, id and stats, each optional. */
  datatype Template = Template(name: Option<string>, id: Option<int>, stats: Stats)

  datatype Entity = Entity(
    name: string, id: int, stats: Stats,
    spawn: Pos, position: Pos,
    health: int, maxHealth: int, showHealthBar: bool, alive: bool,
    respawnTime: real, respawnTimer: real, respawning: bool,
    attackCooldown: real)

  /**
   * A new entity at its spawn point: health 100 unless given, maximum equal
   * to the starting health unless given, respawn time 10 seconds unless given,
   * alive and ready to attack.
   */
  function NewEntity(t: Template, x: int, y: int): (e: Entity)
    ensures e.name == t.name.GetOr("Unknown") && e.id == t.id.GetOr(0)
    ensures e.spawn == (x, y) && e.position == (x, y)
    ensures e.health == t.stats.health.GetOr(100)
    ensures e.maxHealth == t.stats.maxHealth.GetOr(e.health)
    ensures e.respawnTime == t.stats.respawnTime.GetOr(10.0)
    ensures e.alive && !e.respawning && !e.showHealthBar && e.attackCooldown == 0.0 && e.respawnTimer == 0.0
  {
    var health := t.stats.health.GetOr(100);
    Entity(t.name.GetOr("Unknown"), t.id.GetOr(0), t.stats, (x, y), (x, y),
           health, t.stats.maxHealth.GetOr(health), false, true,
           t.stats.respawnTime.GetOr(10.0), 0.0, false, 0.0)
  }

  /** The damage of one attack, 5 unless given. */
  function AttackDamage(e: Entity): int {
    e.stats.damage.GetOr(5)
  }

  /** `take_damage`: only a live entity that is not respawning can be hurt; the flag says it died of this hit. */
  function TakeDamage(e: Entity, amount: int): (r: (Entity, bool))
    ensures !e.alive || e.respawning ==> r == (e, false)
    ensures e.alive && !e.respawning ==>
      && r.0 == e.(health := r.0.health, showHealthBar := true, alive := r.0.alive)
      && r.0.health == (if e.health - amount > 0 then e.health - amount else 0)
      && (r.1 <==> r.0.health <= 0)
      && (r.0.alive <==> !r.1)
  {
    if !e.alive || e.respawning then (e, false)
    else
      var h := if 0 > e.health - amount then 0 else e.health - amount;
      var e' := e.(health := h, showHealthBar := true);
      if h <= 0 then (e'.(alive := false), true) else (e', false)
  }

  /** `start_respawn`: the timer is wound up to the respawn time. */
  function StartRespawn(e: Entity): (r: Entity)
    ensures r.respawning && r.respawnTimer == e.respawnTime
    ensures r.alive == e.alive && r.health == e.health && r.position == e.position && r.stats == e.stats
  {
    e.(respawning := true, respawnTimer := e.respawnTime)
  }

  /** `respawn`: alive again with full health at the spawn point, the health bar hidden. */
  function Respawn(e: Entity): (r: Entity)
    ensures r.alive && !r.respawning && !r.showHealthBar
    ensures r.health == e.maxHealth && r.position == e.spawn
    ensures r == e.(alive := true, respawning := false, health := e.maxHealth, position := e.spawn, showHealthBar := false)
  {
    e.(respawning := false, alive := true, health := e.maxHealth, position := e.spawn, showHealthBar := false)
  }

  /**
   * `Entity.update` for one frame of `delta` seconds. A dead entity starts
   * respawning; a respawning one counts down and comes back once the timer
   * is used up, and does nothing else that frame. A live one counts its
   * attack cooldown down, shows its health bar while the player is within
   * aggro range (200 unless given), and attacks when the player is also
   * within attack range (70 unless given) and the cooldown has run out.
   * `near(p, r)` says the player is within distance `r` of position `p`.
   */
  function Update(e: Entity, near: (Pos, int) -> bool, delta: real, player: HealthSystem.Health): (r: (Entity, HealthSystem.Health))
    ensures !e.alive || e.respawning ==> r.1 == player
    ensures !e.alive && !e.respawning && e.respawnTime - delta > 0.0 ==>
              r.0 == StartRespawn(e).(respawnTimer := e.respawnTime - delta)
    ensures e.respawning && e.respawnTimer - delta > 0.0 ==> r.0 == e.(respawnTimer := e.respawnTimer - delta)
    ensures (!e.alive || e.respawning) && (if e.respawning then e.respawnTimer else e.respawnTime) - delta <= 0.0 ==>
              r.0.alive && !r.0.respawning && r.0.health == e.maxHealth && r.0.position == e.spawn
  {
    var e1 := if !e.alive && !e.respawning then StartRespawn(e) else e;
    if e1.respawning then
      var e2 := e1.(respawnTimer := e1.respawnTimer - delta);
      (if e2.respawnTimer <= 0.0 then Respawn(e2) else e2, player)
    else if !e1.alive then (e1, player)
    else
      var e2 := if e1.attackCooldown > 0.0 then e1.(attackCooldown := e1.attackCooldown - delta) else e1;
      if near(e2.position, e2.stats.aggroRange.GetOr(200)) then
        var e3 := e2.(showHealthBar := true);
        if near(e3.position, e3.stats.attackRange.GetOr(70)) && e3.attackCooldown <= 0.0 then
          (e3.(attackCooldown := e3.stats.attackCooldown.GetOr(1.0)), HealthSystem.Damage(player, AttackDamage(e3)).0)
        else (e3, player)
      else (e2.(showHealthBar := false), player)
  }

  /**
   * The entity hits the player this frame: it is alive, not respawning, the
   * player is within both its ranges, and its cooldown, counted down by this
   * frame, has run out.
   */
  predicate Attacks(e: Entity, near: (Pos, int) -> bool, delta: real) {
    var cooldown := if e.attackCooldown > 0.0 then e.attackCooldown - delta else e.attackCooldown;
    && e.alive && !e.respawning
    && near(e.position, e.stats.aggroRange.GetOr(200))
    && near(e.position, e.stats.attackRange.GetOr(70))
    && cooldown <= 0.0
  }

  /** The life-cycle invariant: a respawning entity is dead. */
  predicate Consistent(e: Entity) {
    e.respawning ==> !e.alive
  }

  /**
   * A live entity's frame: it stays alive where it is with its health; its
   * health bar shows exactly while the player is within aggro range; and it
   * hits the player exactly when the player is also within attack range and
   * the cooldown, counted down by this frame, has run out, after which the
   * cooldown starts again (1 second unless given).
   */
  lemma UpdateLive(e: Entity, near: (Pos, int) -> bool, delta: real, player: HealthSystem.Health)
    requires e.alive && !e.respawning
    ensures var r := Update(e, near, delta, player);
      var cooldown := if e.attackCooldown > 0.0 then e.attackCooldown - delta else e.attackCooldown;
      var aggro := near(e.position, e.stats.aggroRange.GetOr(200));
      var attack := aggro && near(e.position, e.stats.attackRange.GetOr(70)) && cooldown <= 0.0;
      && r.0.alive && !r.0.respawning && r.0.health == e.health && r.0.position == e.position
      && (r.0.showHealthBar <==> aggro)
      && (attack ==> r.1 == HealthSystem.Damage(player, AttackDamage(e)).0 && r.0.attackCooldown == e.stats.attackCooldown.GetOr(1.0))
      && (!attack ==> r.1 == player && r.0.attackCooldown == cooldown)
  {
  }

  lemma NewEntityConsistent(t: Template, x: int, y: int)
    ensures Consistent(NewEntity(t, x, y))
  {
  }

  /** Damage, respawn and the frame update all keep a respawning entity dead. */
  lemma ConsistentPreserved(e: Entity, amount: int, near: (Pos, int) -> bool, delta: real, player: HealthSystem.Health)
    requires Consistent(e)
    ensures Consistent(TakeDamage(e, amount).0)
    ensures Consistent(Respawn(e))
    ensures Consistent(Update(e, near, delta, player).0)
  {
  }

  /** `n` frames, the `k`-th lasting `deltas[k]` seconds. */
  function UpdateFrames(e: Entity, near: (Pos, int) -> bool, deltas: seq<real>, player: HealthSystem.Health): (Entity, HealthSystem.Health)
    decreases |deltas|
  {
    if deltas == [] then (e, player)
    else
      var r := Update(e, near, deltas[0], player);
      UpdateFrames(r.0, near, deltas[1..], r.1)
  }

  function Sum(xs: seq<real>): real
    decreases |xs|
  {
    if xs == [] then 0.0 else xs[0] + Sum(xs[1..])
  }

  /**
   * While the time left on a respawn timer is more than the frames so far
   * add up to, the entity stays dead, its timer counts down by exactly that
   * time, and the player is never hurt by it.
   */
  lemma {:induction false} RespawnCountdown(e: Entity, near: (Pos, int) -> bool, deltas: seq<real>, player: HealthSystem.Health)
    requires e.respawning && !e.alive
    requires forall k :: 0 <= k <= |deltas| ==> Sum(deltas[..k]) < e.respawnTimer
    ensures UpdateFrames(e, near, deltas, player) == (e.(respawnTimer := e.respawnTimer - Sum(deltas)), player)
    decreases |deltas|
  {
    if deltas != [] {
      var d := deltas[0];
      assert deltas[..1] == [d];
      assert Sum([d]) == d;
      var e1 := e.(respawnTimer := e.respawnTimer - d);
      forall k | 0 <= k <= |deltas[1..]| ensures Sum(deltas[1..][..k]) < e1.respawnTimer {
        assert deltas[..k + 1] == [d] + deltas[1..][..k];
        assert Sum(deltas[..k + 1]) == d + Sum(deltas[1..][..k]);
      }
      RespawnCountdown(e1, near, deltas[1..], player);
      assert deltas[..|deltas|] == deltas;
    }
  }

  /**
   * A live entity killed by a hit starts respawning on the next frame; if
   * that frame outlasts the respawn time it is straight back, at its spawn
   * point with full health; otherwise it waits out the rest of the time.
   */
  lemma KillThenUpdate(e: Entity, amount: int, near: (Pos, int) -> bool, delta: real, player: HealthSystem.Health)
    requires e.alive && !e.respawning && e.health - amount <= 0
    ensures var dead := TakeDamage(e, amount);
      var r := Update(dead.0, near, delta, player);
      && dead.1 && !dead.0.alive
      && r.1 == player
      && (e.respawnTime - delta <= 0.0 ==> r.0.alive && r.0.health == e.maxHealth && r.0.position == e.spawn)
      && (e.respawnTime - delta > 0.0 ==> !r.0.alive && r.0.respawning && r.0.respawnTimer == e.respawnTime - delta)
  {
  }

  /** What a frame does to the player depends only on whether the entity attacks. */
  lemma UpdatePlayer(e: Entity, near: (Pos, int) -> bool, delta: real, player: HealthSystem.Health)
    ensures Attacks(e, near, delta) ==> Update(e, near, delta, player).1 == HealthSystem.Damage(player, AttackDamage(e)).0
    ensures !Attacks(e, near, delta) ==> Update(e, near, delta, player).1 == player
  {
  }

  /** The player's health never affects what a frame does to the entity. */
  lemma UpdateIgnoresPlayer(e: Entity, near: (Pos, int) -> bool, delta: real, p: HealthSystem.Health, q: HealthSystem.Health)
    ensures Update(e, near, delta, p).0 == Update(e, near, delta, q).0
  {
  }

  // ---------------------------------------------------------------------------
  // The manager
  // ---------------------------------------------------------------------------

  datatype Manager = Manager(entities: seq<Entity>, templates: map<int, Template>)

  /** What `spawn_enemy` returns: nothing, the placeholder record, or the new entity. */
  datatype Spawn = NotFound | Placeholder(id: int, x: int, y: int) | Spawned(entity: Entity)

  /**
   * `spawn_enemy`: an unknown template id gives nothing; with `initialize`
   * off only a placeholder comes back; otherwise a new entity built from the
   * template is appended to the list.
   */
  function SpawnEnemy(m: Manager, id: int, x: int, y: int, initialize: bool): (r: (Manager, Spawn))
    ensures id !in m.templates ==> r == (m, NotFound)
    ensures id in m.templates && !initialize ==> r == (m, Placeholder(id, x, y))
    ensures id in m.templates && initialize ==>
              r.1 == Spawned(NewEntity(m.templates[id], x, y)) && r.0 == m.(entities := m.entities + [r.1.entity])
  {
    if id !in m.templates then (m, NotFound)
    else if initialize then
      var e := NewEntity(m.templates[id], x, y);
      (m.(entities := m.entities + [e]), Spawned(e))
    else (m, Placeholder(id, x, y))
  }

  /**
   * `EntityManager.update`: every entity has its frame, in list order; each
   * attack lands on the player's health as the earlier ones left it.
   */
  function UpdateAll(es: seq<Entity>, near: (Pos, int) -> bool, delta: real, player: HealthSystem.Health): (r: (seq<Entity>, HealthSystem.Health))
    ensures |r.0| == |es|
    decreases |es|
  {
    if es == [] then ([], player)
    else
      var u := Update(es[0], near, delta, player);
      var rest := UpdateAll(es[1..], near, delta, u.1);
      ([u.0] + rest.0, rest.1)
  }

  /**
   * Each entity's frame in `EntityManager.update` is the one it would have
   * alone; the player's maximum never changes, and with no attacker the
   * player is untouched.
   */
  lemma {:induction false} UpdateAllFrames(es: seq<Entity>, near: (Pos, int) -> bool, delta: real, player: HealthSystem.Health)
    ensures forall i :: 0 <= i < |es| ==> UpdateAll(es, near, delta, player).0[i] == Update(es[i], near, delta, player).0
    ensures UpdateAll(es, near, delta, player).1.maxHealth == player.maxHealth
    ensures (forall i :: 0 <= i < |es| ==> !Attacks(es[i], near, delta)) ==> UpdateAll(es, near, delta, player).1 == player
    decreases |es|
  {
    if es != [] {
      var u := Update(es[0], near, delta, player);
      var rest := UpdateAll(es[1..], near, delta, u.1);
      UpdateAllFrames(es[1..], near, delta, u.1);
      UpdatePlayer(es[0], near, delta, player);
      forall i | 1 <= i < |es| ensures rest.0[i - 1] == Update(es[i], near, delta, player).0 {
        assert es[i] == es[1..][i - 1];
        UpdateIgnoresPlayer(es[i], near, delta, u.1, player);
      }
      if forall i :: 0 <= i < |es| ==> !Attacks(es[i], near, delta) {
        assert forall i :: 0 <= i < |es| - 1 ==> !Attacks(es[1..][i], near, delta) by {
          forall i | 0 <= i < |es| - 1 ensures !Attacks(es[1..][i], near, delta) {
            assert es[1..][i] == es[i + 1];
          }
        }
      }
    }
  }

  /** The entity can be struck by an attack covering `inRange`. */
  predicate Struck(e: Entity, inRange: Pos -> bool) {
    e.alive && !e.respawning && inRange(e.position)
  }

  /** An entity after the player's attack. */
  function AfterAttack(e: Entity, inRange: Pos -> bool, damage: int): Entity {
    if Struck(e, inRange) then TakeDamage(e, damage).0 else e
  }

  /** The attack kills the entity. */
  predicate Killed(e: Entity, inRange: Pos -> bool, damage: int) {
    Struck(e, inRange) && TakeDamage(e, damage).1
  }

  /**
   * `check_attack_hit`: every live, non-respawning entity in range takes the
   * damage, and the indices of those it killed come back in list order.
   */
  method CheckAttackHit(m: Manager, inRange: Pos -> bool, damage: int) returns (r: Manager, hits: seq<nat>)
    ensures r.templates == m.templates && |r.entities| == |m.entities|
    ensures forall i :: 0 <= i < |m.entities| ==> r.entities[i] == AfterAttack(m.entities[i], inRange, damage)
    ensures forall k :: 0 <= k < |hits| ==> hits[k] < |m.entities| && Killed(m.entities[hits[k]], inRange, damage)
    ensures forall i :: 0 <= i < |m.entities| && Killed(m.entities[i], inRange, damage) ==> i in hits
    ensures forall k, l :: 0 <= k < l < |hits| ==> hits[k] < hits[l]
  {
    var es := m.entities;
    hits := [];
    var i := 0;
    while i < |m.entities|
      invariant 0 <= i <= |m.entities| && |es| == |m.entities|
      invariant forall j :: 0 <= j < i ==> es[j] == AfterAttack(m.entities[j], inRange, damage)
      invariant forall j :: i <= j < |es| ==> es[j] == m.entities[j]
      invariant forall k :: 0 <= k < |hits| ==> hits[k] < i && Killed(m.entities[hits[k]], inRange, damage)
      invariant forall j :: 0 <= j < i && Killed(m.entities[j], inRange, damage) ==> j in hits
      invariant forall k, l :: 0 <= k < l < |hits| ==> hits[k] < hits[l]
    {
      var e := es[i];
      if e.alive && !e.respawning && inRange(e.position) {
        var (e', died) := TakeDamage(e, damage);
        es := es[i := e'];
        if died {
          hits := hits + [i];
        }
      }
      i := i + 1;
    }
    r := m.(entities := es);
  }
}

=== FILE: geometry.dfy ===
/** Screen geometry shared by the components: points and rectangles in pixels. */
module Geometry {
  /** A point `(x, y)`. */
  type Pos = (int, int)

  /** A rectangle: left, top, width, height. */
  datatype Rect = Rect(x: int, y: int, w: int, h: int)
}

=== FILE: health_system.dfy ===
/** The player's health: a current value and a maximum. */
module HealthSystem {
  import opened Wrappers

  datatype Health = Health(health: int, maxHealth: int)

  /** Health and maximum both start at 100 when there is no configuration file. */
  const DefaultHealth: int := 100
  const DefaultMaxHealth: int := 100

  /** The state without a configuration file. */
  function New(): (h: Health)
    ensures h.health == 100 && h.maxHealth == 100
  {
    Health(DefaultHealth, DefaultMaxHealth)
  }

  /**
   * The state after reading the configuration's `default_values`: each of the
   * two keys falls back to 100 on its own when absent.
   */
  function FromConfig(health: Option<int>, maxHealth: Option<int>): (h: Health)
    ensures health.None? ==> h.health == 100
    ensures health.Some? ==> h.health == health.value
    ensures maxHealth.None? ==> h.maxHealth == 100
    ensures maxHealth.Some? ==> h.maxHealth == maxHealth.value
  {
    Health(health.GetOr(DefaultHealth), maxHealth.GetOr(DefaultMaxHealth))
  }

  /** `damage`: health drops by the amount but not below 0; the flag says whether the player is dead. */
  function Damage(h: Health, amount: int): (r: (Health, bool))
    ensures r.0.maxHealth == h.maxHealth
    ensures r.0.health >= 0
    ensures h.health - amount >= 0 ==> r.0.health == h.health - amount
    ensures h.health - amount < 0 ==> r.0.health == 0
    ensures r.1 <==> r.0.health <= 0
    ensures amount >= 0 ==> r.0.health <= h.health || r.0.health == 0
  {
    var v := if h.health - amount > 0 then h.health - amount else 0;
    (h.(health := v), v <= 0)
  }

  /** `heal`: health rises by the amount but not above the maximum. */
  function Heal(h: Health, amount: int): (r: Health)
    ensures r.maxHealth == h.maxHealth
    ensures r.health <= h.maxHealth
    ensures h.health + amount <= h.maxHealth ==> r.health == h.health + amount
    ensures h.health + amount > h.maxHealth ==> r.health == h.maxHealth
  {
    h.(health := if h.health + amount < h.maxHealth then h.health + amount else h.maxHealth)
  }

  /** Damage never raises health and healing never lowers it, for non-negative amounts. */
  lemma DamageHealMonotone(h: Health, amount: int)
    requires amount >= 0 && 0 <= h.health <= h.maxHealth
    ensures Damage(h, amount).0.health <= h.health
    ensures h.health <= Heal(h, amount).health
    ensures 0 <= Heal(Damage(h, amount).0, amount).health <= h.maxHealth
  {
  }
}

=== FILE: inventory.dfy ===
/** The player's inventory: a fixed row of slots, each empty or holding one item. */
module Inventory {
  import opened Wrappers

  datatype Item = Item(name: string, id: int, count: int)

  datatype Inventory = Inventory(slots: seq<Option<Item>>)

  const DefaultSlots: int := 10

  /** `Inventory(slots)`: `[None] * slots`, which is empty for a count of 0 or less. */
  function New(count: int): (inv: Inventory)
    ensures count >= 0 ==> |inv.slots| == count
    ensures count < 0 ==> |inv.slots| == 0
    ensures forall i :: 0 <= i < |inv.slots| ==> inv.slots[i].None?
  {
    Inventory(seq(if count < 0 then 0 else count, _ => None))
  }

  /** The inventory the engine creates: ten empty slots. */
  function Default(): (inv: Inventory)
    ensures |inv.slots| == 10
    ensures forall i :: 0 <= i < 10 ==> inv.slots[i].None?
  {
    New(DefaultSlots)
  }

  /**
   * `give_item(name, id, slot)`: a slot inside the row receives a fresh item
   * with count 1, replacing whatever was there; a slot outside the row is
   * refused and nothing changes. Only the target slot ever changes and the row
   * keeps its length.
   */
  function GiveItem(inv: Inventory, name: string, id: int, slot: int): (r: (Inventory, bool))
    ensures |r.0.slots| == |inv.slots|
    ensures r.1 <==> 0 <= slot < |inv.slots|
    ensures r.1 ==> r.0.slots[slot] == Some(Item(name, id, 1))
    ensures !r.1 ==> r.0 == inv
    ensures forall i :: 0 <= i < |inv.slots| && i != slot ==> r.0.slots[i] == inv.slots[i]
  {
    if 0 <= slot < |inv.slots| then
      (Inventory(inv.slots[slot := Some(Item(name, id, 1))]), true)
    else (inv, false)
  }
}

=== FILE: item_loader.dfy ===
/**
 * Item files: the dynamic-value rewrite that `load_item` runs over a loaded
 * item, and the table of items by id. YAML parsing and file reading are not
 * modelled: an item arrives as an already loaded `Yaml` value.
 */
module ItemLoader {
  import opened Wrappers
  import opened Text

  /** The values YAML loading can produce, as far as the rewrite distinguishes them. */
  datatype Yaml =
    | Null
    | Bool(b: bool)
    | Int(i: int)
    | Str(s: string)
    | List(items: seq<Yaml>)
    | Dict(entries: seq<(Yaml, Yaml)>)

  const NullStroke := "$function.nullstroke"
  const ColorPrefix := "$color."
  const StatsPrefix := "$stats."

  /** `d.get(key)`: the value of the first entry with that key. */
  function Lookup(entries: seq<(Yaml, Yaml)>, key: Yaml): (r: Option<Yaml>)
    ensures r.None? <==> forall k :: 0 <= k < |entries| ==> entries[k].0 != key
    ensures r.Some? ==> exists k :: 0 <= k < |entries| && entries[k] == (key, r.value)
    decreases |entries|
  {
    if entries == [] then None
    else if entries[0].0 == key then Some(entries[0].1)
    else
      var r := Lookup(entries[1..], key);
      assert forall k :: 1 <= k < |entries| ==> entries[k] == entries[1..][k - 1];
      r
  }

  /**
   * `item_data.get('stats', {}).get(name, '')`: the call fails (None) when
   * the item itself or its `stats` entry is not a table.
   */
  function StatValue(item: Yaml, name: string): (r: Option<Yaml>)
    ensures !item.Dict? ==> r.None?
    ensures item.Dict? && Lookup(item.entries, Str("stats")).None? ==> r == Some(Str(""))
  {
    if !item.Dict? then None
    else match Lookup(item.entries, Str("stats"))
      case None => Some(Str(""))
      case Some(stats) =>
        if !stats.Dict? then None
        else Some(Lookup(stats.entries, Str(name)).GetOr(Str("")))
  }

  /** A `$stats.` reference: the only kind of dynamic value that can make the rewrite fail. */
  predicate IsStatsRef(s: string) {
    StartsWith(s, StatsPrefix)
  }

  /** Whether the item's `stats` entry is missing or a table, so every `$stats.` lookup succeeds. */
  predicate StatsTable(item: Yaml) {
    item.Dict? && (Lookup(item.entries, Str("stats")).None? || Lookup(item.entries, Str("stats")).value.Dict?)
  }

  /**
   * `process_value` inside `process_dynamic_values(item)`: the rewritten
   * value, or None where Python raises.
   */
  function ProcessValue(v: Yaml, item: Yaml): (r: Option<Yaml>)
    ensures v == Str(NullStroke) ==> r == Some(Str("\n"))
    ensures v.Str? && StartsWith(v.s, "$") && v.s != NullStroke && !StartsWith(v.s, ColorPrefix) && !IsStatsRef(v.s) ==> r == Some(Null)
    ensures !v.List? && !v.Dict? && !(v.Str? && StartsWith(v.s, "$")) ==> r == Some(v)
    ensures v.List? && r.Some? ==> r.value.List? && |r.value.items| == |v.items|
    ensures v.Dict? && r.Some? ==> r.value.Dict? && |r.value.entries| == |v.entries|
    ensures v.Dict? && r.Some? ==> forall k :: 0 <= k < |v.entries| ==> r.value.entries[k].0 == v.entries[k].0
    decreases v
  {
    match v
      case Str(s) =>
        if !StartsWith(s, "$") then Some(v)
        else if s == NullStroke then Some(Str("\n"))
        else if StartsWith(s, ColorPrefix) then Some(Str(ReplaceAll(s, ColorPrefix, "")))
        else if IsStatsRef(s) then StatValue(item, ReplaceAll(s, StatsPrefix, ""))
        else Some(Null)
      case List(xs) => ProcessList(xs, item)
      case Dict(es) => ProcessEntries(es, item)
      case _ => Some(v)
  }

  function ProcessList(xs: seq<Yaml>, item: Yaml): (r: Option<Yaml>)
    ensures r.Some? ==> r.value.List? && |r.value.items| == |xs|
    decreases xs
  {
    if xs == [] then Some(List([]))
    else
      match ProcessValue(xs[0], item)
        case None => None
        case Some(x) =>
          match ProcessList(xs[1..], item)
            case None => None
            case Some(rest) => Some(List([x] + rest.items))
  }

  function ProcessEntries(es: seq<(Yaml, Yaml)>, item: Yaml): (r: Option<Yaml>)
    ensures r.Some? ==> r.value.Dict? && |r.value.entries| == |es|
    ensures r.Some? ==> forall k :: 0 <= k < |es| ==> r.value.entries[k].0 == es[k].0
    decreases es
  {
    if es == [] then Some(Dict([]))
    else
      assert es[0].1 < es[0];
      match ProcessValue(es[0].1, item)
        case None => None
        case Some(x) =>
          match ProcessEntries(es[1..], item)
            case None => None
            case Some(rest) => Some(Dict([(es[0].0, x)] + rest.entries))
  }

  // ---------------------------------------------------------------------------
  // What the rewrite does
  // ---------------------------------------------------------------------------

  /** A colour name written as `$color.<name>` comes back as the bare name. */
  lemma ColorRoundTrip(name: string, item: Yaml)
    requires forall i :: 0 <= i < |name| ==> !At(name, i, ColorPrefix)
    ensures ProcessValue(Str(ColorPrefix + name), item) == Some(Str(name))
  {
    var s := ColorPrefix + name;
    assert s[..|ColorPrefix|] == ColorPrefix;
    assert s[..1] == "$" && s != NullStroke by {
      assert s[..1] == ColorPrefix[..1];
      assert s[1] == ColorPrefix[1];
    }
    assert s[|ColorPrefix|..] == name;
    ReplaceAbsent(name, ColorPrefix, "");
    assert ReplaceAll(s, ColorPrefix, "") == "" + ReplaceAll(name, ColorPrefix, "");
    assert ReplaceAll(s, ColorPrefix, "") == name;
  }

  /**
   * `$stats.<name>` comes back as the item's stat of that name, or as the
   * empty string when the item has no such stat.
   */
  lemma StatsRoundTrip(name: string, item: Yaml)
    requires forall i :: 0 <= i < |name| ==> !At(name, i, StatsPrefix)
    requires StatsTable(item)
    ensures ProcessValue(Str(StatsPrefix + name), item) == Some(
      match Lookup(item.entries, Str("stats"))
        case None => Str("")
        case Some(stats) => Lookup(stats.entries, Str(name)).GetOr(Str("")))
  {
    var s := StatsPrefix + name;
    assert s[..|StatsPrefix|] == StatsPrefix;
    assert s[..1] == "$" && s != NullStroke && !StartsWith(s, ColorPrefix) by {
      assert s[..1] == StatsPrefix[..1];
      assert s[1] == StatsPrefix[1];
    }
    assert s[|StatsPrefix|..] == name;
    ReplaceAbsent(name, StatsPrefix, "");
    assert ReplaceAll(s, StatsPrefix, "") == "" + ReplaceAll(name, StatsPrefix, "");
    assert ProcessValue(Str(s), item) == StatValue(item, name);
  }

  /** A value holding no string that starts with `$`. */
  predicate Plain(v: Yaml)
    decreases v
  {
    match v
      case Str(s) => !StartsWith(s, "$")
      case List(xs) => forall k :: 0 <= k < |xs| ==> Plain(xs[k])
      case Dict(es) => forall k :: 0 <= k < |es| ==> Plain(es[k].1)
      case _ => true
  }

  /** The rewrite leaves a value without dynamic strings exactly as it was. */
  lemma {:induction false} PlainUnchanged(v: Yaml, item: Yaml)
    requires Plain(v)
    ensures ProcessValue(v, item) == Some(v)
    decreases v, 1
  {
    match v
      case List(xs) => PlainListUnchanged(xs, item);
      case Dict(es) => PlainEntriesUnchanged(es, item);
      case _ =>
  }

  lemma {:induction false} PlainListUnchanged(xs: seq<Yaml>, item: Yaml)
    requires forall k :: 0 <= k < |xs| ==> Plain(xs[k])
    ensures ProcessList(xs, item) == Some(List(xs))
    decreases xs, 0
  {
    if xs != [] {
      PlainUnchanged(xs[0], item);
      PlainListUnchanged(xs[1..], item);
      assert [xs[0]] + xs[1..] == xs;
    }
  }

  lemma {:induction false} PlainEntriesUnchanged(es: seq<(Yaml, Yaml)>, item: Yaml)
    requires forall k :: 0 <= k < |es| ==> Plain(es[k].1)
    ensures ProcessEntries(es, item) == Some(Dict(es))
    decreases es, 0
  {
    if es != [] {
      assert es[0].1 < es[0];
      PlainUnchanged(es[0].1, item);
      PlainEntriesUnchanged(es[1..], item);
      assert [(es[0].0, es[0].1)] + es[1..] == es;
    }
  }

  /** Whether a value holds a `$stats.` reference anywhere. */
  predicate HasStatsRef(v: Yaml)
    decreases v
  {
    match v
      case Str(s) => IsStatsRef(s)
      case List(xs) => exists k :: 0 <= k < |xs| && HasStatsRef(xs[k])
      case Dict(es) => exists k :: 0 <= k < |es| && HasStatsRef(es[k].1)
      case _ => false
  }

  /**
   * The rewrite raises exactly when the value holds a `$stats.` reference
   * and the item's `stats` entry cannot be looked up in (or the item is not
   * a table at all).
   */
  lemma {:induction false} ProcessFails(v: Yaml, item: Yaml)
    ensures ProcessValue(v, item).None? <==> HasStatsRef(v) && !StatsTable(item)
    decreases v, 1
  {
    match v
      case Str(s) =>
        if IsStatsRef(s) {
          assert s[..1] == "$" && s != NullStroke && !StartsWith(s, ColorPrefix) by {
            assert s[..1] == StatsPrefix[..1];
            assert s[1] == StatsPrefix[1];
          }
        }
      case List(xs) => ProcessListFails(xs, item);
      case Dict(es) => ProcessEntriesFails(es, item);
      case _ =>
  }

  lemma {:induction false} ProcessListFails(xs: seq<Yaml>, item: Yaml)
    ensures ProcessList(xs, item).None? <==> (exists k :: 0 <= k < |xs| && HasStatsRef(xs[k])) && !StatsTable(item)
    decreases xs, 0
  {
    if xs != [] {
      ProcessFails(xs[0], item);
      ProcessListFails(xs[1..], item);
      assert forall k :: 1 <= k < |xs| ==> xs[k] == xs[1..][k - 1];
      if exists k :: 0 <= k < |xs| && HasStatsRef(xs[k]) {
        var k :| 0 <= k < |xs| && HasStatsRef(xs[k]);
        if k > 0 { assert HasStatsRef(xs[1..][k - 1]); }
      }
    }
  }

  lemma {:induction false} ProcessEntriesFails(es: seq<(Yaml, Yaml)>, item: Yaml)
    ensures ProcessEntries(es, item).None? <==> (exists k :: 0 <= k < |es| && HasStatsRef(es[k].1)) && !StatsTable(item)
    decreases es, 0
  {
    if es != [] {
      assert es[0].1 < es[0];
      ProcessFails(es[0].1, item);
      ProcessEntriesFails(es[1..], item);
      assert forall k :: 1 <= k < |es| ==> es[k] == es[1..][k - 1];
      if exists k :: 0 <= k < |es| && HasStatsRef(es[k].1) {
        var k :| 0 <= k < |es| && HasStatsRef(es[k].1);
        if k > 0 { assert HasStatsRef(es[1..][k - 1].1); }
      }
    }
  }

  // ---------------------------------------------------------------------------
  // The item table
  // ---------------------------------------------------------------------------

  /** Loaded items by id. */
  type Items = map<Yaml, Yaml>

  /** A dict key must be hashable: lists and tables are not. */
  predicate Hashable(key: Yaml) {
    !key.List? && !key.Dict?
  }

  /**
   * The key a hashable value is stored under: `True` and `1` (and `False`
   * and `0`) are equal and hash alike, so a dict holds them as one key.
   */
  function HashKey(key: Yaml): (k: Yaml)
    ensures !k.Bool? && (key.Bool? || k == key)
    ensures key.Bool? ==> k == Int(if key.b then 1 else 0)
  {
    if key.Bool? then Int(if key.b then 1 else 0) else key
  }

  /** Every key of the table is a hashable value in its stored form. */
  predicate KeysStored(items: Items) {
    forall k :: k in items ==> Hashable(k) && HashKey(k) == k
  }

  /** The id an item is stored under: its `id` entry, else the number of items loaded so far. */
  function ItemId(items: Items, data: Yaml): (id: Yaml)
    requires data.Dict?
    ensures Lookup(data.entries, Str("id")).Some? ==> id == Lookup(data.entries, Str("id")).value
    ensures Lookup(data.entries, Str("id")).None? ==> id == Int(|items|)
  {
    Lookup(data.entries, Str("id")).GetOr(Int(|items|))
  }

  /**
   * `load_item` on a loaded file: the rewrite runs but its result is
   * discarded, so the item is stored and returned as loaded. None where
   * Python raises: the rewrite fails, the file's top level is not a table,
   * or the id is a list or a table and cannot be a dict key. An id equal to
   * a stored one (`True` to `1`) replaces that item.
   */
  function LoadItem(items: Items, data: Yaml): (r: Option<(Items, Yaml)>)
    ensures r.Some? <==> data.Dict? && !(HasStatsRef(data) && !StatsTable(data)) && Hashable(ItemId(items, data))
    ensures r.Some? ==> r.value.1 == data
    ensures r.Some? ==> r.value.0.Keys == items.Keys + {HashKey(ItemId(items, data))}
    ensures r.Some? ==> r.value.0[HashKey(ItemId(items, data))] == data
    ensures r.Some? ==> forall id :: id in items && id != HashKey(ItemId(items, data)) ==> r.value.0[id] == items[id]
    ensures r.Some? && KeysStored(items) ==> KeysStored(r.value.0)
  {
    ProcessFails(data, data);
    if ProcessValue(data, data).None? || !data.Dict? || !Hashable(ItemId(items, data)) then None
    else Some((items[HashKey(ItemId(items, data)) := data], data))
  }

  /**
   * `get_item`: the stored item (`Some(Some(item))`), `Some(None)` for an
   * unknown id, and None where Python raises: an id that is a list or a table.
   */
  function GetItem(items: Items, id: Yaml): (r: Option<Option<Yaml>>)
    ensures r.None? <==> !Hashable(id)
    ensures r == Some(None) <==> Hashable(id) && HashKey(id) !in items
    ensures r.Some? && r.value.Some? ==> HashKey(id) in items && r.value.value == items[HashKey(id)]
  {
    if !Hashable(id) then None
    else if HashKey(id) in items then Some(Some(items[HashKey(id)]))
    else Some(None)
  }

  /** An item loaded under an id is what `get_item` returns for it, unrewritten. */
  lemma LoadThenGet(items: Items, data: Yaml)
    requires data.Dict? && Plain(data) && Hashable(ItemId(items, data))
    ensures LoadItem(items, data).Some?
    ensures GetItem(LoadItem(items, data).value.0, ItemId(items, data)) == Some(Some(data))
  {
    PlainUnchanged(data, data);
  }

  /**
   * An item whose id is `True` or `False` is found under `1` or `0` too, and
   * replaces an item already stored there.
   */
  lemma BoolIdSharesIntKey(items: Items, data: Yaml, b: bool)
    requires data.Dict? && Plain(data) && ItemId(items, data) == Bool(b)
    ensures LoadItem(items, data).Some?
    ensures GetItem(LoadItem(items, data).value.0, Int(if b then 1 else 0)) == Some(Some(data))
    ensures |LoadItem(items, data).value.0| == |items| + (if Int(if b then 1 else 0) in items then 0 else 1)
  {
    PlainUnchanged(data, data);
  }
}

=== FILE: map_system.dfy ===
/**
 * Maps: loaded map definitions, the current map, and its objects ordered
 * for drawing by layer. Textures are not modelled, and neither is the
 * rectangle-overlap test: it is given as a predicate `overlap(a, b)`.
 */
module MapSystem {
  import opened Wrappers
  import opened Geometry

  /** One entry of a map's `map` table; every key is optional. */
  datatype ObjectData = ObjectData(layer: Option<int>, collision: Option<bool>, worldSize: Option<(int, int)>, worldPos: Option<(int, int)>)

  datatype MapObject = MapObject(layer: int, collision: bool, rect: Rect)

  /** A loaded map: its object entries in table order. */
  datatype MapData = MapData(objects: seq<ObjectData>)

  datatype State = State(maps: map<int, MapData>, current: Option<MapData>, objects: seq<MapObject>)

  /** A map object: layer 0, no collision, 64 by 64 at `(0, 0)` unless given. */
  function NewObject(d: ObjectData): (o: MapObject)
    ensures o.layer == d.layer.GetOr(0) && o.collision == d.collision.GetOr(false)
    ensures (o.rect.x, o.rect.y) == d.worldPos.GetOr((0, 0))
    ensures (o.rect.w, o.rect.h) == d.worldSize.GetOr((64, 64))
  {
    var pos := d.worldPos.GetOr((0, 0));
    var size := d.worldSize.GetOr((64, 64));
    MapObject(d.layer.GetOr(0), d.collision.GetOr(false), Rect(pos.0, pos.1, size.0, size.1))
  }

  // ---------------------------------------------------------------------------
  // Stable sort by layer
  // ---------------------------------------------------------------------------

  predicate SortedByLayer(s: seq<MapObject>) {
    forall i, j :: 0 <= i < j < |s| ==> s[i].layer <= s[j].layer
  }

  /** The objects of one layer, in order. */
  function OnLayer(s: seq<MapObject>, layer: int): seq<MapObject>
    decreases |s|
  {
    if s == [] then []
    else OnLayer(s[..|s| - 1], layer) + (if s[|s| - 1].layer == layer then [s[|s| - 1]] else [])
  }

  /** `x` placed after every object of a layer no higher than its own. */
  function Insert(t: seq<MapObject>, x: MapObject): (r: seq<MapObject>)
    requires SortedByLayer(t)
    ensures SortedByLayer(r) && |r| == |t| + 1
    ensures forall k :: 0 <= k < |r| ==> r[k].layer <= x.layer || (t != [] && r[k].layer <= t[|t| - 1].layer)
    decreases |t|
  {
    if t == [] || t[|t| - 1].layer <= x.layer then t + [x]
    else Insert(t[..|t| - 1], x) + [t[|t| - 1]]
  }

  /** Inserting adds exactly `x`: the result is a permutation of `t` with `x`. */
  lemma {:induction false} InsertPermutes(t: seq<MapObject>, x: MapObject)
    requires SortedByLayer(t)
    ensures multiset(Insert(t, x)) == multiset(t) + multiset{x}
    decreases |t|
  {
    if t != [] && t[|t| - 1].layer > x.layer {
      var front := t[..|t| - 1];
      assert t == front + [t[|t| - 1]];
      InsertPermutes(front, x);
    }
  }

  /**
   * `list.sort(key=layer)`: Python's sort is stable, so objects of one layer
   * keep their order; modelled as an insertion sort from the left.
   */
  function SortByLayer(s: seq<MapObject>): (r: seq<MapObject>)
    ensures SortedByLayer(r)
    ensures multiset(r) == multiset(s)
    decreases |s|
  {
    if s == [] then []
    else
      var front := s[..|s| - 1];
      assert s == front + [s[|s| - 1]];
      InsertPermutes(SortByLayer(front), s[|s| - 1]);
      Insert(SortByLayer(front), s[|s| - 1])
  }

  lemma {:induction false} OnLayerAppendOne(s: seq<MapObject>, x: MapObject, layer: int)
    ensures OnLayer(s + [x], layer) == OnLayer(s, layer) + (if x.layer == layer then [x] else [])
  {
    assert (s + [x])[..|s|] == s;
  }

  /** Appending an object of another layer than `x` keeps `x` at the end of its layer. */
  lemma {:induction false} AppendHigher(ins: seq<MapObject>, front: seq<MapObject>, last: MapObject, x: MapObject, layer: int)
    requires last.layer > x.layer
    requires OnLayer(ins, layer) == OnLayer(front, layer) + (if x.layer == layer then [x] else [])
    ensures OnLayer(ins + [last], layer) == OnLayer(front + [last], layer) + (if x.layer == layer then [x] else [])
  {
    OnLayerAppendOne(ins, last, layer);
    OnLayerAppendOne(front, last, layer);
    var a := OnLayer(front, layer);
    if x.layer == layer {
      assert OnLayer(ins + [last], layer) == a + [x] + [];
      assert OnLayer(front + [last], layer) == a + [];
    } else {
      assert OnLayer(ins, layer) == a + [];
    }
  }

  /** Inserting adds `x` at the end of its own layer and leaves every other layer alone. */
  lemma {:induction false} InsertOnLayer(t: seq<MapObject>, x: MapObject, layer: int)
    requires SortedByLayer(t)
    ensures OnLayer(Insert(t, x), layer) == OnLayer(t, layer) + (if x.layer == layer then [x] else [])
    decreases |t|
  {
    if t == [] || t[|t| - 1].layer <= x.layer {
      OnLayerAppendOne(t, x, layer);
    } else {
      var front := t[..|t| - 1];
      var last := t[|t| - 1];
      assert t == front + [last];
      assert Insert(t, x) == Insert(front, x) + [last];
      InsertOnLayer(front, x, layer);
      AppendHigher(Insert(front, x), front, last, x, layer);
    }
  }

  /**
   * The sort is stable: on every layer the objects come in the order the
   * map defines them.
   */
  lemma {:induction false} SortIsStable(s: seq<MapObject>, layer: int)
    ensures OnLayer(SortByLayer(s), layer) == OnLayer(s, layer)
    decreases |s|
  {
    if s != [] {
      var front := s[..|s| - 1];
      SortIsStable(front, layer);
      InsertOnLayer(SortByLayer(front), s[|s| - 1], layer);
    }
  }

  // ---------------------------------------------------------------------------
  // The map system
  // ---------------------------------------------------------------------------

  /** The state after loading: no current map, no objects. */
  function New(maps: map<int, MapData>): (st: State)
    ensures st.current.None? && st.objects == [] && st.maps == maps
  {
    State(maps, None, [])
  }

  /**
   * `set_map`: a known map becomes current, with one object per entry
   * ordered by layer; an unknown id changes nothing.
   */
  function SetMap(st: State, id: int): (r: (State, bool))
    ensures r.1 <==> id in st.maps
    ensures !r.1 ==> r.0 == st
    ensures r.1 ==> r.0.maps == st.maps && r.0.current == Some(st.maps[id])
    ensures r.1 ==> |r.0.objects| == |st.maps[id].objects| && SortedByLayer(r.0.objects)
    ensures r.1 ==> multiset(r.0.objects) == multiset(seq(|st.maps[id].objects|, k requires 0 <= k < |st.maps[id].objects| => NewObject(st.maps[id].objects[k])))
    ensures r.1 ==> forall layer :: OnLayer(r.0.objects, layer) == OnLayer(seq(|st.maps[id].objects|, k requires 0 <= k < |st.maps[id].objects| => NewObject(st.maps[id].objects[k])), layer)
  {
    if id in st.maps then
      var data := st.maps[id];
      var built := seq(|data.objects|, k requires 0 <= k < |data.objects| => NewObject(data.objects[k]));
      assert |multiset(SortByLayer(built))| == |SortByLayer(built)|;
      assert forall layer :: OnLayer(SortByLayer(built), layer) == OnLayer(built, layer) by {
        forall layer ensures OnLayer(SortByLayer(built), layer) == OnLayer(built, layer) {
          SortIsStable(built, layer);
        }
      }
      (st.(current := Some(data), objects := SortByLayer(built)), true)
    else (st, false)
  }

  /** `MapObject.check_collision`: only an object with collision on can block the player. */
  predicate Collides(o: MapObject, player: Rect, overlap: (Rect, Rect) -> bool) {
    o.collision && overlap(o.rect, player)
  }

  /** `check_collisions`: the objects the player's rectangle collides with, in order. */
  function CheckCollisions(objs: seq<MapObject>, player: Rect, overlap: (Rect, Rect) -> bool): (r: seq<MapObject>)
    ensures |r| <= |objs|
    ensures forall k :: 0 <= k < |r| ==> Collides(r[k], player, overlap)
    ensures r == [] <==> forall k :: 0 <= k < |objs| ==> !Collides(objs[k], player, overlap)
    decreases |objs|
  {
    if objs == [] then []
    else
      var rest := CheckCollisions(objs[1..], player, overlap);
      if Collides(objs[0], player, overlap) then [objs[0]] + rest
      else
        assert forall k :: 1 <= k < |objs| ==> objs[k] == objs[1..][k - 1];
        rest
  }

  /** Every object the player collides with is reported. */
  lemma {:induction false} CollisionsComplete(objs: seq<MapObject>, player: Rect, overlap: (Rect, Rect) -> bool, k: nat)
    requires k < |objs| && Collides(objs[k], player, overlap)
    ensures objs[k] in CheckCollisions(objs, player, overlap)
    decreases k
  {
    if k > 0 {
      assert objs[k] == objs[1..][k - 1];
      CollisionsComplete(objs[1..], player, overlap, k - 1);
    }
  }

  /** One object is reported exactly when the player collides with it. */
  lemma CheckCollisionsOne(o: MapObject, player: Rect, overlap: (Rect, Rect) -> bool)
    ensures CheckCollisions([o], player, overlap) == if Collides(o, player, overlap) then [o] else []
  {
    assert [o][1..] == [];
  }

  /**
   * The objects are visited in order: the collisions of `p + q` are those of
   * `p` followed by those of `q`. With `CheckCollisionsOne` this pins the
   * result down as the colliding objects of the map, in map order.
   */
  lemma {:induction false} CheckCollisionsAppend(p: seq<MapObject>, q: seq<MapObject>, player: Rect, overlap: (Rect, Rect) -> bool)
    ensures CheckCollisions(p + q, player, overlap) == CheckCollisions(p, player, overlap) + CheckCollisions(q, player, overlap)
    decreases |p|
  {
    if p == [] {
      assert p + q == q;
    } else {
      assert (p + q)[0] == p[0];
      assert (p + q)[1..] == p[1..] + q;
      CheckCollisionsAppend(p[1..], q, player, overlap);
    }
  }

  /**
   * `update_player_position`: the move to `(x, y)` is made only when the
   * moved rectangle collides with nothing; the size never changes.
   */
  function UpdatePlayerPosition(st: State, player: Rect, x: int, y: int, overlap: (Rect, Rect) -> bool): (r: (Rect, bool))
    ensures r.0.w == player.w && r.0.h == player.h
    ensures r.1 <==> forall k :: 0 <= k < |st.objects| ==> !Collides(st.objects[k], player.(x := x, y := y), overlap)
    ensures r.1 ==> r.0.x == x && r.0.y == y
    ensures !r.1 ==> r.0 == player
  {
    var moved := player.(x := x, y := y);
    if CheckCollisions(st.objects, moved, overlap) != [] then (player, false) else (moved, true)
  }
}

=== FILE: menu_system.dfy ===
/**
 * Menus: loaded menu definitions, the one open menu, and a cooldown table
 * that keeps a clicked button from firing again for ten clicks. Drawing is
 * not modelled, and neither is the point-in-rectangle test: a click is given
 * as the predicate "this rectangle contains the mouse position".
 */
module MenuSystem {
  import opened Wrappers
  import opened Text
  import Cooldowns
  import opened Geometry

  /** Frames (here: clicks, the only place the table ticks) a pressed button stays blocked. */
  const ButtonCooldown: int := 10

  /**
   * One entry of a menu's `ui` table: its name (the table key), whether its
   * `type` is `button`, the optional `pos` and `size`, and its script lines.
   */
  datatype Element = Element(name: string, isButton: bool, pos: Option<(int, int)>, size: Option<(int, int)>, script: seq<string>)

  /** A menu's `config` table; every key is optional. */
  datatype Config = Config(showCross: Option<bool>, width: Option<int>, pos: Option<(int, int)>)

  /** A menu: its configuration and its `ui` entries in table order. */
  datatype Menu = Menu(config: Config, ui: seq<Element>)

  datatype State = State(menus: map<int, Menu>, active: Option<Menu>, cooldowns: map<string, int>)

  /** The state after loading: nothing open, no cooldowns. */
  function New(menus: map<int, Menu>): (st: State)
    ensures st.active.None? && st.cooldowns == map[] && st.menus == menus
  {
    State(menus, None, map[])
  }

  /** A button's rectangle, at `[0, 0]` with size `[100, 30]` unless given. */
  function ButtonRect(e: Element): (r: Rect)
    ensures e.pos.None? ==> r.x == 0 && r.y == 0
    ensures e.size.None? ==> r.w == 100 && r.h == 30
    ensures e.pos.Some? ==> (r.x, r.y) == e.pos.value
    ensures e.size.Some? ==> (r.w, r.h) == e.size.value
  {
    var p := e.pos.GetOr((0, 0));
    var s := e.size.GetOr((100, 30));
    Rect(p.0, p.1, s.0, s.1)
  }

  /**
   * The close cross: 20 by 20, 30 left of the menu's right edge and 10 below
   * its top; the menu is 600 wide at `[100, 100]` unless configured.
   */
  function CrossRect(c: Config): (r: Rect)
    ensures r.w == 20 && r.h == 20
    ensures r.x == c.pos.GetOr((100, 100)).0 + c.width.GetOr(600) - 30
    ensures r.y == c.pos.GetOr((100, 100)).1 + 10
  {
    var p := c.pos.GetOr((100, 100));
    Rect(p.0 + c.width.GetOr(600) - 30, p.1 + 10, 20, 20)
  }

  /** `show_cross`, which defaults to true. */
  predicate ShowCross(c: Config) {
    c.showCross.GetOr(true)
  }

  /** `open_menu`: a known id becomes the open menu; an unknown one changes nothing. */
  function OpenMenu(st: State, id: int): (r: (State, bool))
    ensures r.1 <==> id in st.menus
    ensures r.1 ==> r.0 == st.(active := Some(st.menus[id]))
    ensures !r.1 ==> r.0 == st
  {
    if id in st.menus then (st.(active := Some(st.menus[id])), true) else (st, false)
  }

  /** `close_menu`: no menu is open afterwards, whatever was open before. */
  function CloseMenu(st: State): (r: State)
    ensures r.active.None? && r.menus == st.menus && r.cooldowns == st.cooldowns
  {
    st.(active := None)
  }

  /** A button element whose rectangle contains the click. */
  predicate Hit(e: Element, inside: Rect -> bool) {
    e.isButton && inside(ButtonRect(e))
  }

  /** The first button from index `from` on that the click hits. */
  function FirstHit(ui: seq<Element>, inside: Rect -> bool, from: nat): (r: Option<nat>)
    ensures r.Some? ==> from <= r.value < |ui| && Hit(ui[r.value], inside)
    decreases |ui| - from
  {
    if from >= |ui| then None
    else if Hit(ui[from], inside) then Some(from)
    else FirstHit(ui, inside, from + 1)
  }

  /**
   * `execute_menu_script`: the stripped lines, in order, leaving out the
   * blank ones and the comments that start with `#`.
   */
  function MenuScript(lines: seq<string>): (r: seq<string>)
    ensures |r| <= |lines|
    ensures forall k :: 0 <= k < |r| ==> r[k] != [] && r[k][0] != '#'
    decreases |lines|
  {
    if lines == [] then []
    else
      var t := Strip(lines[0]);
      if t != [] && !StartsWith(t, "#") then [t] + MenuScript(lines[1..]) else MenuScript(lines[1..])
  }

  /**
   * One line is forwarded as its stripped text, unless that text is empty
   * or a comment; with `MenuScriptAppend` this fixes every script's output.
   */
  lemma MenuScriptOne(line: string)
    ensures MenuScript([line]) == if Strip(line) != [] && Strip(line)[0] != '#' then [Strip(line)] else []
  {
    assert [line][1..] == [];
  }

  /** What a click does: the new state, the result of `handle_click`, and the commands sent to the script runner. */
  datatype Click = Click(state: State, handled: bool, commands: seq<string>)

  /**
   * `handle_click`. With no open menu nothing happens. Otherwise the
   * cooldowns tick, then the first button hit decides: one still cooling
   * down only swallows the click; any other starts its cooldown and runs its
   * script. Only when no button is hit does the close cross count.
   */
  function HandleClick(st: State, inside: Rect -> bool): (r: Click)
    ensures st.active.None? ==> r == Click(st, false, [])
    ensures r.state.menus == st.menus
    ensures !r.handled ==> r.commands == [] && r.state.active == st.active
  {
    if st.active.None? then Click(st, false, [])
    else
      var menu := st.active.value;
      var cd := Cooldowns.Tick(st.cooldowns);
      match FirstHit(menu.ui, inside, 0)
      case Some(i) =>
        var name := menu.ui[i].name;
        if name in cd then Click(st.(cooldowns := cd), true, [])
        else Click(st.(cooldowns := cd[name := ButtonCooldown]), true, MenuScript(menu.ui[i].script))
      case None =>
        if ShowCross(menu.config) && inside(CrossRect(menu.config)) then
          Click(st.(active := None, cooldowns := cd), true, [])
        else Click(st.(cooldowns := cd), false, [])
  }

  // ---------------------------------------------------------------------------
  // Properties
  // ---------------------------------------------------------------------------

  /** The button found is the first one hit: no earlier button contains the click. */
  lemma {:induction false} FirstHitLeftmost(ui: seq<Element>, inside: Rect -> bool, from: nat)
    ensures FirstHit(ui, inside, from).Some? ==> forall k :: from <= k < FirstHit(ui, inside, from).value ==> !Hit(ui[k], inside)
    ensures FirstHit(ui, inside, from).None? <==> forall k :: from <= k < |ui| ==> !Hit(ui[k], inside)
    decreases |ui| - from
  {
    if from < |ui| && !Hit(ui[from], inside) {
      FirstHitLeftmost(ui, inside, from + 1);
    }
  }

  /**
   * A click on the `i`-th element when it is the first button hit: a button
   * still cooling down after the tick swallows the click; otherwise its
   * cooldown is set to 10 and its script runs. The open menu stays open.
   */
  lemma ClickOnButton(st: State, inside: Rect -> bool, i: nat)
    requires st.active.Some? && i < |st.active.value.ui| && Hit(st.active.value.ui[i], inside)
    requires forall k :: 0 <= k < i ==> !Hit(st.active.value.ui[k], inside)
    ensures var e := st.active.value.ui[i];
      var cd := Cooldowns.Tick(st.cooldowns);
      var r := HandleClick(st, inside);
      && r.handled && r.state.active == st.active
      && (e.name in cd ==> r.state.cooldowns == cd && r.commands == [])
      && (e.name !in cd ==> r.state.cooldowns == cd[e.name := ButtonCooldown] && r.commands == MenuScript(e.script))
  {
    FirstHitLeftmost(st.active.value.ui, inside, 0);
  }

  /**
   * A click that hits no button closes the menu exactly when the cross is
   * shown and contains the click; it never runs a script.
   */
  lemma ClickOffButtons(st: State, inside: Rect -> bool)
    requires st.active.Some?
    requires forall k :: 0 <= k < |st.active.value.ui| ==> !Hit(st.active.value.ui[k], inside)
    ensures var c := st.active.value.config;
      var r := HandleClick(st, inside);
      && r.commands == []
      && r.state.cooldowns == Cooldowns.Tick(st.cooldowns)
      && (r.handled <==> ShowCross(c) && inside(CrossRect(c)))
      && (r.handled ==> r.state.active.None?)
      && (!r.handled ==> r.state.active == st.active)
  {
    FirstHitLeftmost(st.active.value.ui, inside, 0);
  }

  /** A click that hits a button never reaches the cross: the menu stays open. */
  lemma ButtonBeforeCross(st: State, inside: Rect -> bool, i: nat)
    requires st.active.Some? && i < |st.active.value.ui| && Hit(st.active.value.ui[i], inside)
    ensures HandleClick(st, inside).handled && HandleClick(st, inside).state.active == st.active
  {
    FirstHitLeftmost(st.active.value.ui, inside, 0);
  }

  /** `n` clicks at the same place: the final state and every command they send, in order. */
  function Clicks(st: State, inside: Rect -> bool, n: nat): (State, seq<string>)
    decreases n
  {
    if n == 0 then (st, [])
    else
      var c := HandleClick(st, inside);
      var r := Clicks(c.state, inside, n - 1);
      (r.0, c.commands + r.1)
  }

  /**
   * While the first button hit has more than `n` frames of cooldown left,
   * `n` clicks on it send nothing and only count its cooldown down.
   */
  lemma {:induction false} CoolingClicks(st: State, inside: Rect -> bool, n: nat)
    requires st.active.Some? && FirstHit(st.active.value.ui, inside, 0).Some?
    requires var name := st.active.value.ui[FirstHit(st.active.value.ui, inside, 0).value].name;
      name in st.cooldowns && st.cooldowns[name] > n
    ensures Clicks(st, inside, n) == (st.(cooldowns := Cooldowns.TickN(st.cooldowns, n)), [])
    decreases n
  {
    if n > 0 {
      var name := st.active.value.ui[FirstHit(st.active.value.ui, inside, 0).value].name;
      var c := HandleClick(st, inside);
      assert c == Click(st.(cooldowns := Cooldowns.Tick(st.cooldowns)), true, []);
      CoolingClicks(c.state, inside, n - 1);
      var r := Clicks(c.state, inside, n - 1);
      assert r == (c.state.(cooldowns := Cooldowns.TickN(Cooldowns.Tick(st.cooldowns), n - 1)), []);
      assert Clicks(st, inside, n) == (r.0, c.commands + r.1);
      assert Cooldowns.TickN(st.cooldowns, n) == Cooldowns.TickN(Cooldowns.Tick(st.cooldowns), n - 1);
      assert r.0 == st.(cooldowns := Cooldowns.TickN(st.cooldowns, n));
      assert c.commands + r.1 == [];
    }
  }

  /**
   * A button that fires is silent for the next nine clicks on it and fires
   * again, with the same commands, on the tenth.
   */
  lemma PressedButtonWaits(st: State, inside: Rect -> bool)
    requires st.active.Some? && FirstHit(st.active.value.ui, inside, 0).Some?
    requires st.active.value.ui[FirstHit(st.active.value.ui, inside, 0).value].name !in Cooldowns.Tick(st.cooldowns)
    ensures var e := st.active.value.ui[FirstHit(st.active.value.ui, inside, 0).value];
      var first := HandleClick(st, inside);
      var wait := Clicks(first.state, inside, ButtonCooldown as nat - 1);
      && first.commands == MenuScript(e.script)
      && wait.1 == []
      && HandleClick(wait.0, inside).commands == MenuScript(e.script)
  {
    var e := st.active.value.ui[FirstHit(st.active.value.ui, inside, 0).value];
    var first := HandleClick(st, inside);
    var c := first.state.cooldowns;
    assert e.name in c && c[e.name] == ButtonCooldown;
    CoolingClicks(first.state, inside, ButtonCooldown as nat - 1);
    Cooldowns.CooldownExpires(c, e.name, ButtonCooldown as nat - 1);
    var wait := Clicks(first.state, inside, ButtonCooldown as nat - 1);
    assert wait.0.cooldowns[e.name] == 1;
  }

  /** `execute_menu_script` on two blocks of lines sends the first block's commands, then the second's. */
  lemma {:induction false} MenuScriptAppend(a: seq<string>, b: seq<string>)
    ensures MenuScript(a + b) == MenuScript(a) + MenuScript(b)
    decreases |a|
  {
    if a != [] {
      assert (a + b)[1..] == a[1..] + b;
      MenuScriptAppend(a[1..], b);
    } else {
      assert a + b == b;
    }
  }

  /** Lines that are already stripped, non-blank and not comments are sent exactly as written. */
  lemma {:induction false} MenuScriptClean(lines: seq<string>)
    requires forall k :: 0 <= k < |lines| ==> lines[k] != [] && lines[k][0] != '#'
    requires forall k :: 0 <= k < |lines| ==> !IsSpace(lines[k][0]) && !IsSpace(lines[k][|lines[k]| - 1])
    ensures MenuScript(lines) == lines
    decreases |lines|
  {
    if lines != [] {
      StripUnpadded(lines[0]);
      MenuScriptClean(lines[1..]);
    }
  }

  /** A blank line or a comment line sends nothing. */
  lemma MenuScriptSkips(line: string)
    requires AllSpace(line) || StartsWith(Strip(line), "#")
    ensures MenuScript([line]) == []
  {
    assert [line][1..] == [];
  }
}

=== FILE: npc_system.dfy ===
/**
 * NPCs and their dialogs: a dialog is a list of messages typed out one
 * character per step, then a set of buttons whose scripts are forwarded to
 * the script runner and which may close the dialog or swap in a follow-up
 * dialog. At most one NPC is in a dialog at a time. Wall-clock time is not
 * modelled: whether the character delay has passed is an input, and the
 * player's distance to an NPC is given as a predicate.
 */
module NpcSystem {
  import opened Wrappers
  import opened Text
  import opened Geometry

  /** One message: a single string, or a list of lines shown joined by newlines. */
  datatype Message = Line(text: string) | Lines(lines: seq<string>)

  /**
   * A dialog table: its optional `speed`, its `message` list and its
   * `button` table in order. A button's `nextdialog` flag and its optional
   * follow-up `dialog` decide what happens after its script. A dialog table
   * without any keys is falsy in the source and is modelled as no dialog.
   */
  datatype Dialog = Dialog(speed: Option<int>, messages: seq<Message>, buttons: seq<(string, Button)>)
  datatype Button = Button(script: seq<string>, nextDialog: bool, dialog: Option<Dialog>)

  function MessageText(m: Message): string {
    match m
    case Line(t) => t
    case Lines(ls) => Join(ls, '\n')
  }

  /** The delay between two characters at the slowest speed, in seconds. */
  const BaseCharDelay: real := 0.05

  /** `max(1, min(4, speed))`. */
  function SpeedLevel(speed: int): (level: int)
    ensures 1 <= level <= 4
    ensures 1 <= speed <= 4 ==> level == speed
    ensures speed < 1 ==> level == 1
    ensures speed > 4 ==> level == 4
  {
    if speed < 1 then 1 else if speed > 4 then 4 else speed
  }

  /** `set_dialog_speed`: the delay per character for a speed; level 4 shows the text at once. */
  function CharDelay(speed: int): (d: real)
    ensures d == 0.0 <==> SpeedLevel(speed) == 4
    ensures d >= 0.0 && d <= BaseCharDelay
    ensures SpeedLevel(speed) == 1 ==> d == BaseCharDelay
    ensures SpeedLevel(speed) == 2 ==> d == BaseCharDelay / 2.0
    ensures SpeedLevel(speed) == 3 ==> d == BaseCharDelay / 3.5
  {
    var level := SpeedLevel(speed);
    if level == 1 then BaseCharDelay
    else if level == 2 then BaseCharDelay / 2.0
    else if level == 3 then BaseCharDelay / 3.5
    else 0.0
  }

  /** The speed a dialog asks for, 1 unless given. */
  function DialogSpeed(d: Dialog): int {
    d.speed.GetOr(1)
  }

  /** An NPC template as loaded; every key is optional. */
  datatype Template = Template(name: Option<string>, id: Option<int>, dialog: Option<Dialog>, interactionRange: Option<int>)

  datatype Npc = Npc(
    name: string, id: int, dialogData: Option<Dialog>, position: Pos, interactionRange: int,
    canInteract: bool, showPrompt: bool,
    current: Option<Dialog>, dialogIndex: nat, charIndex: nat, charDelay: real, showButtons: bool)

  /** A new NPC: no dialog open, interaction range 100 unless given, the slowest typing speed. */
  function NewNpc(t: Template, x: int, y: int): (n: Npc)
    ensures n.name == t.name.GetOr("Unknown NPC") && n.id == t.id.GetOr(0) && n.position == (x, y)
    ensures n.interactionRange == t.interactionRange.GetOr(100) && n.dialogData == t.dialog
    ensures n.current.None? && n.charIndex == 0 && n.dialogIndex == 0 && !n.showButtons && !n.canInteract
    ensures n.charDelay == BaseCharDelay
  {
    Npc(t.name.GetOr("Unknown NPC"), t.id.GetOr(0), t.dialog, (x, y), t.interactionRange.GetOr(100),
        false, false, None, 0, 0, BaseCharDelay, false)
  }

  /**
   * `NPC.start_dialog`: the NPC's own dialog becomes current from its first
   * message and first character, with its speed (1 when there is none);
   * the result says whether there is a dialog.
   */
  function StartDialog(n: Npc): (r: (Npc, bool))
    ensures r.1 <==> n.dialogData.Some?
    ensures r.0.current == n.dialogData && r.0.dialogIndex == 0 && r.0.charIndex == 0
    ensures !r.0.showButtons && !r.0.showPrompt
    ensures r.0.charDelay == CharDelay(if n.dialogData.Some? then DialogSpeed(n.dialogData.value) else 1)
    ensures r.0 == n.(current := r.0.current, dialogIndex := 0, charIndex := 0, showButtons := false,
                      showPrompt := false, charDelay := r.0.charDelay)
  {
    var speed := if n.dialogData.Some? then DialogSpeed(n.dialogData.value) else 1;
    (n.(current := n.dialogData, dialogIndex := 0, charIndex := 0, showButtons := false, showPrompt := false,
        charDelay := CharDelay(speed)), n.dialogData.Some?)
  }

  /** The text of the message being shown, when there is one. */
  function CurrentMessage(n: Npc): Option<string> {
    if n.current.Some? && n.dialogIndex < |n.current.value.messages| then
      Some(MessageText(n.current.value.messages[n.dialogIndex]))
    else None
  }

  /**
   * `update_dialog`, one call. Nothing happens without a dialog or once the
   * buttons show. At the instant speed the whole message appears with its
   * buttons. Otherwise, once the delay has `elapsed`, one more character
   * appears, or the buttons do when the message is complete.
   */
  function UpdateDialog(n: Npc, elapsed: bool): (r: Npc)
    ensures n.current.None? || n.showButtons || CurrentMessage(n).None? ==> r == n
    ensures r.current == n.current && r.dialogIndex == n.dialogIndex && r.dialogData == n.dialogData
    ensures n.charDelay != 0.0 && !elapsed ==> r == n
  {
    if n.current.None? || n.showButtons then n
    else if n.charDelay == 0.0 then
      match CurrentMessage(n)
      case Some(text) => n.(charIndex := |text|, showButtons := true)
      case None => n
    else if elapsed then
      match CurrentMessage(n)
      case Some(text) =>
        if n.charIndex < |text| then n.(charIndex := n.charIndex + 1) else n.(showButtons := true)
      case None => n
    else n
  }

  /**
   * `get_current_text`: as much of the current message as has been typed, or
   * nothing when no message is being shown.
   */
  function CurrentText(n: Npc): (r: string)
    ensures CurrentMessage(n).None? ==> r == []
    ensures CurrentMessage(n).Some? ==> |r| == (if n.charIndex < |CurrentMessage(n).value| then n.charIndex else |CurrentMessage(n).value|)
    ensures CurrentMessage(n).Some? ==> StartsWith(CurrentMessage(n).value, r)
  {
    match CurrentMessage(n)
    case None => []
    case Some(text) => text[..if n.charIndex < |text| then n.charIndex else |text|]
  }

  /** The first button with the given key. */
  function FindButton(buttons: seq<(string, Button)>, key: string): (r: Option<Button>)
    ensures r.Some? ==> exists k :: 0 <= k < |buttons| && buttons[k] == (key, r.value)
    ensures r.None? <==> forall k :: 0 <= k < |buttons| ==> buttons[k].0 != key
    decreases |buttons|
  {
    if buttons == [] then None
    else if buttons[0].0 == key then Some(buttons[0].1)
    else
      FindButton(buttons[1..], key)
  }

  /** The command that ends a dialog from a button script. */
  const CloseCommand: string := "@close"

  /** The script's commands up to the first `@close`. */
  function BeforeClose(script: seq<string>): (r: seq<string>)
    ensures |r| <= |script| && r == script[..|r|]
    ensures CloseCommand !in r
    ensures CloseCommand in script ==> |r| < |script| && script[|r|] == CloseCommand
    ensures CloseCommand !in script ==> r == script
    decreases |script|
  {
    if script == [] then []
    else if script[0] == CloseCommand then []
    else [script[0]] + BeforeClose(script[1..])
  }

  /** What a dialog button click does: the NPC afterwards, whether the dialog goes on, and the commands sent. */
  datatype ButtonClick = ButtonClick(npc: Npc, continues: bool, commands: seq<string>)

  /**
   * `handle_button_click`. Without a dialog the click ends it; an unknown key
   * keeps it. A known button's commands are sent in order until `@close`,
   * which ends the dialog. A button with `nextdialog` and a follow-up dialog
   * swaps that dialog in from its start and keeps it going; any other
   * button ends the dialog.
   */
  function HandleButtonClick(n: Npc, key: string): (r: ButtonClick)
    ensures n.current.None? ==> r == ButtonClick(n, false, [])
    ensures n.current.Some? && FindButton(n.current.value.buttons, key).None? ==> r == ButtonClick(n, true, [])
    ensures n.current.Some? && FindButton(n.current.value.buttons, key).Some? ==>
      var b := FindButton(n.current.value.buttons, key).value;
      && r.commands == BeforeClose(b.script)
      && (r.continues <==> CloseCommand !in b.script && b.nextDialog && b.dialog.Some?)
      && (r.continues ==> r.npc == n.(current := b.dialog, dialogIndex := 0, charIndex := 0, showButtons := false,
                                      charDelay := CharDelay(DialogSpeed(b.dialog.value))))
      && (!r.continues ==> r.npc == n)
  {
    if n.current.None? then ButtonClick(n, false, [])
    else
      match FindButton(n.current.value.buttons, key)
      case None => ButtonClick(n, true, [])
      case Some(b) =>
        var sent := BeforeClose(b.script);
        if CloseCommand in b.script then ButtonClick(n, false, sent)
        else if b.nextDialog && b.dialog.Some? then
          var d := b.dialog.value;
          ButtonClick(n.(current := Some(d), dialogIndex := 0, charIndex := 0, showButtons := false,
                         charDelay := CharDelay(DialogSpeed(d))), true, sent)
        else ButtonClick(n, false, sent)
  }

  // ---------------------------------------------------------------------------
  // The NPC system
  // ---------------------------------------------------------------------------

  /** The NPC list, the templates, and the index of the NPC in a dialog, if any. */
  datatype Npcs = Npcs(npcs: seq<Npc>, templates: map<int, Template>, active: Option<nat>)

  /** The active NPC is in the list, and it has a dialog open (it started one). */
  predicate Valid(s: Npcs) {
    s.active.Some? ==>
      s.active.value < |s.npcs| && s.npcs[s.active.value].current.Some? && s.npcs[s.active.value].dialogData.Some?
  }

  datatype Spawn = NotFound | Placeholder(id: int, x: int, y: int) | Spawned(npc: Npc)

  /**
   * `spawn_npc`: an unknown template id gives nothing; with `initialize` off
   * only a placeholder comes back; otherwise the new NPC is appended.
   */
  function SpawnNpc(s: Npcs, id: int, x: int, y: int, initialize: bool): (r: (Npcs, Spawn))
    ensures id !in s.templates ==> r == (s, NotFound)
    ensures id in s.templates && !initialize ==> r == (s, Placeholder(id, x, y))
    ensures id in s.templates && initialize ==>
              r.1 == Spawned(NewNpc(s.templates[id], x, y)) && r.0 == s.(npcs := s.npcs + [r.1.npc])
    ensures Valid(s) ==> Valid(r.0)
  {
    if id !in s.templates then (s, NotFound)
    else if initialize then
      var n := NewNpc(s.templates[id], x, y);
      (s.(npcs := s.npcs + [n]), Spawned(n))
    else (s, Placeholder(id, x, y))
  }

  /**
   * The loop shared by `handle_interaction` and `start_dialog`: every NPC the
   * `pick` predicate selects, from index `i` on, has its dialog started,
   * until one has a dialog; that one's index comes back.
   */
  function StartFirst(npcs: seq<Npc>, i: nat, pick: Npc -> bool): (r: (seq<Npc>, Option<nat>))
    requires i <= |npcs|
    ensures |r.0| == |npcs|
    ensures r.1.Some? ==> i <= r.1.value < |npcs| && pick(npcs[r.1.value]) && npcs[r.1.value].dialogData.Some?
    ensures r.1.Some? ==> r.0[r.1.value] == StartDialog(npcs[r.1.value]).0
    ensures forall j :: 0 <= j < |npcs| && (j < i || (r.1.Some? && r.1.value < j)) ==> r.0[j] == npcs[j]
    ensures forall j :: i <= j < |npcs| && (r.1.None? || j < r.1.value) ==>
              (pick(npcs[j]) ==> npcs[j].dialogData.None? && r.0[j] == StartDialog(npcs[j]).0) &&
              (!pick(npcs[j]) ==> r.0[j] == npcs[j])
    decreases |npcs| - i
  {
    if i == |npcs| then (npcs, None)
    else if pick(npcs[i]) then
      var started := StartDialog(npcs[i]);
      if started.1 then (npcs[i := started.0], Some(i))
      else
        var rest := StartFirst(npcs[i := started.0], i + 1, pick);
        assert forall j :: 0 <= j < |npcs| && j != i ==> npcs[i := started.0][j] == npcs[j];
        rest
    else StartFirst(npcs, i + 1, pick)
  }

  /** The NPC is within interaction range (as last checked). */
  predicate Interactable(n: Npc) {
    n.canInteract
  }

  /**
   * `handle_interaction`: only when no NPC is in a dialog, the first NPC in
   * range that has a dialog starts it and becomes the active one.
   */
  function HandleInteraction(s: Npcs): (r: (Npcs, bool))
    ensures s.active.Some? ==> r == (s, false)
    ensures r.1 <==> r.0.active.Some? && s.active.None?
    ensures r.0.templates == s.templates && |r.0.npcs| == |s.npcs|
    ensures r.1 ==> r.0.active.value < |s.npcs| && r.0.npcs[r.0.active.value] == StartDialog(s.npcs[r.0.active.value]).0
    ensures s.active.None? ==> forall j :: 0 <= j < |s.npcs| && (r.0.active.None? || j < r.0.active.value) ==>
              r.0.npcs[j] == if s.npcs[j].canInteract then StartDialog(s.npcs[j]).0 else s.npcs[j]
    ensures r.1 ==> forall j :: r.0.active.value < j < |s.npcs| ==> r.0.npcs[j] == s.npcs[j]
    ensures Valid(s) ==> Valid(r.0)
  {
    if s.active.Some? then (s, false)
    else
      var started := StartFirst(s.npcs, 0, Interactable);
      (s.(npcs := started.0, active := started.1), started.1.Some?)
  }

  /**
   * `NPCSystem.start_dialog`: the first NPC with the id that has a dialog
   * starts it and becomes the active one, whether or not another NPC was in
   * a dialog; when none does, the active NPC stays as it was.
   */
  function StartDialogById(s: Npcs, id: int): (r: (Npcs, bool))
    ensures |r.0.npcs| == |s.npcs|
    ensures r.1 ==> r.0.active.Some? && r.0.active.value < |r.0.npcs| && r.0.npcs[r.0.active.value].id == id
    ensures r.1 <==> exists j :: 0 <= j < |s.npcs| && s.npcs[j].id == id && s.npcs[j].dialogData.Some?
    ensures r.1 ==> var a := r.0.active.value;
              s.npcs[a].dialogData.Some? && r.0.npcs[a] == StartDialog(s.npcs[a]).0 &&
              forall j :: 0 <= j < a && s.npcs[j].id == id ==> s.npcs[j].dialogData.None?
    ensures !r.1 ==> r.0.active == s.active
    ensures forall j :: 0 <= j < |s.npcs| && s.npcs[j].id != id ==> r.0.npcs[j] == s.npcs[j]
    ensures forall j :: 0 <= j < |s.npcs| && s.npcs[j].id == id && (!r.1 || j < r.0.active.value) ==>
              r.0.npcs[j] == StartDialog(s.npcs[j]).0
    ensures r.1 ==> forall j :: r.0.active.value < j < |s.npcs| ==> r.0.npcs[j] == s.npcs[j]
    ensures r.0.templates == s.templates
    ensures Valid(s) ==> Valid(r.0)
  {
    var started := StartFirst(s.npcs, 0, (n: Npc) => n.id == id);
    if started.1.Some? then (s.(npcs := started.0, active := started.1), true)
    else (s.(npcs := started.0), false)
  }

  /** An NPC after its range check: only the interaction flag and the prompt change. */
  function Checked(n: Npc, near: (Pos, int) -> bool): Npc {
    var inRange := near(n.position, n.interactionRange);
    n.(canInteract := inRange, showPrompt := inRange)
  }

  /**
   * `NPCSystem.update`: every NPC records whether the player is within its
   * interaction range, and shows its prompt accordingly; then the active
   * NPC's dialog advances one step. `near(p, r)` says the player is within
   * distance `r` of `p`.
   */
  function UpdateNpcs(s: Npcs, near: (Pos, int) -> bool, elapsed: bool): (r: Npcs)
    requires Valid(s)
    ensures Valid(r) && |r.npcs| == |s.npcs| && r.active == s.active
    ensures forall j :: 0 <= j < |s.npcs| ==>
              r.npcs[j].canInteract == near(s.npcs[j].position, s.npcs[j].interactionRange) &&
              r.npcs[j].showPrompt == r.npcs[j].canInteract
    ensures r.templates == s.templates
    ensures forall j :: 0 <= j < |s.npcs| && s.active != Some(j) ==>
              r.npcs[j] == Checked(s.npcs[j], near)
    ensures s.active.Some? ==> r.npcs[s.active.value] == UpdateDialog(Checked(s.npcs[s.active.value], near), elapsed)
  {
    var checked := seq(|s.npcs|, j requires 0 <= j < |s.npcs| => Checked(s.npcs[j], near));
    match s.active
    case None => s.(npcs := checked)
    case Some(a) => s.(npcs := checked[a := UpdateDialog(checked[a], elapsed)])
  }

  /** Where the `i`-th of `count` dialog buttons sits: stacked upwards from the dialog box's lower right corner. */
  function DialogButtonRect(count: nat, i: nat): (r: Rect)
    ensures r.x == 510 && r.w == 120 && r.h == 30
    ensures r.y == 450 - 40 * count + 40 * i
  {
    var buttonsX := 150 + 500 - 120 - 20;
    var buttonsY := 280 + 180 - count * (30 + 10) - 10;
    Rect(buttonsX, buttonsY + i * (30 + 10), 120, 30)
  }

  /** The first of the buttons, from index `from` on, whose rectangle contains the click. */
  function FirstButtonHit(count: nat, inside: Rect -> bool, from: nat): (r: Option<nat>)
    ensures r.Some? ==> from <= r.value < count && inside(DialogButtonRect(count, r.value))
    ensures r.None? ==> forall k :: from <= k < count ==> !inside(DialogButtonRect(count, k))
    decreases count - from
  {
    if from >= count then None
    else if inside(DialogButtonRect(count, from)) then Some(from)
    else FirstButtonHit(count, inside, from + 1)
  }

  /** The index of the active NPC's button that the click hits first. */
  function ButtonHit(s: Npcs, inside: Rect -> bool): (r: Option<nat>)
    requires Valid(s) && s.active.Some?
    ensures r.Some? ==> r.value < |s.npcs[s.active.value].current.value.buttons|
  {
    FirstButtonHit(|s.npcs[s.active.value].current.value.buttons|, inside, 0)
  }

  /** What a dialog click does: the NPC system afterwards, the result, and the commands sent. */
  datatype DialogClick = DialogClick(npcs: Npcs, handled: bool, commands: seq<string>)

  /**
   * `handle_dialog_click`: only while the active NPC shows its buttons. The
   * first button hit is clicked; when its click ends the dialog, no NPC is
   * active afterwards.
   */
  function HandleDialogClick(s: Npcs, inside: Rect -> bool): (r: DialogClick)
    requires Valid(s)
    ensures Valid(r.npcs) && |r.npcs.npcs| == |s.npcs|
    ensures s.active.None? || !s.npcs[s.active.value].showButtons ==> r == DialogClick(s, false, [])
    ensures !r.handled ==> r == DialogClick(s, false, [])
    ensures r.handled ==> s.active.Some? && ButtonHit(s, inside).Some?
    ensures r.handled ==>
      var a := s.active.value;
      var click := HandleButtonClick(s.npcs[a], s.npcs[a].current.value.buttons[ButtonHit(s, inside).value].0);
      && r.npcs.npcs == s.npcs[a := click.npc]
      && r.commands == click.commands
      && (r.npcs.active.None? <==> !click.continues)
      && r.npcs.templates == s.templates
      && (click.continues ==> r.npcs.active == s.active)
  {
    if s.active.None? || !s.npcs[s.active.value].showButtons then DialogClick(s, false, [])
    else
      var a := s.active.value;
      var buttons := s.npcs[a].current.value.buttons;
      match ButtonHit(s, inside)
      case None => DialogClick(s, false, [])
      case Some(i) =>
        var click := HandleButtonClick(s.npcs[a], buttons[i].0);
        DialogClick(s.(npcs := s.npcs[a := click.npc], active := if click.continues then s.active else None),
                    true, click.commands)
  }

  // ---------------------------------------------------------------------------
  // Properties
  // ---------------------------------------------------------------------------

  /** The characters typed so far never run past the end of the message. */
  predicate TypedWithin(n: Npc) {
    CurrentMessage(n).Some? ==> n.charIndex <= |CurrentMessage(n).value|
  }

  /** Starting a dialog and every later step keep the typed count within the message. */
  lemma TypedWithinPreserved(n: Npc, elapsed: bool, key: string)
    ensures TypedWithin(StartDialog(n).0)
    ensures TypedWithin(n) ==> TypedWithin(UpdateDialog(n, elapsed))
    ensures TypedWithin(n) ==> TypedWithin(HandleButtonClick(n, key).npc)
  {
  }

  /** At the instant speed one step shows the whole message and the buttons. */
  lemma InstantDialog(n: Npc, elapsed: bool)
    requires n.charDelay == 0.0 && !n.showButtons && CurrentMessage(n).Some?
    ensures UpdateDialog(n, elapsed).showButtons
    ensures CurrentText(UpdateDialog(n, elapsed)) == CurrentMessage(n).value
  {
    var text := CurrentMessage(n).value;
    assert text[..|text|] == text;
  }

  /** `k` steps in which the delay has passed each time. */
  function TypeSteps(n: Npc, k: nat): Npc
    decreases k
  {
    if k == 0 then n else TypeSteps(UpdateDialog(n, true), k - 1)
  }

  /**
   * The typewriter: at a timed speed, each step in which the delay has passed
   * adds exactly one character, so after `k` steps from `c` typed characters
   * the first `c + k` are shown, and the buttons appear on the step after
   * the last character.
   */
  lemma {:induction false} Typewriter(n: Npc, k: nat)
    requires n.charDelay != 0.0 && !n.showButtons && CurrentMessage(n).Some?
    requires n.charIndex + k <= |CurrentMessage(n).value|
    ensures TypeSteps(n, k) == n.(charIndex := n.charIndex + k)
    ensures CurrentText(TypeSteps(n, k)) == CurrentMessage(n).value[..n.charIndex + k]
    decreases k
  {
    if k > 0 {
      var n1 := UpdateDialog(n, true);
      assert n1 == n.(charIndex := n.charIndex + 1);
      Typewriter(n1, k - 1);
    }
  }

  /** Once the whole message is typed, the next step in which the delay has passed shows the buttons. */
  lemma TypewriterDone(n: Npc)
    requires n.charDelay != 0.0 && !n.showButtons && CurrentMessage(n) == Some(CurrentText(n))
    requires n.charIndex == |CurrentText(n)|
    ensures UpdateDialog(n, true) == n.(showButtons := true)
  {
  }

  /** A script with `@close` sends only the commands before it and ends the dialog. */
  lemma CloseEndsDialog(n: Npc, key: string, b: Button, k: nat)
    requires n.current.Some? && FindButton(n.current.value.buttons, key) == Some(b)
    requires k < |b.script| && b.script[k] == CloseCommand
    ensures !HandleButtonClick(n, key).continues
    ensures |HandleButtonClick(n, key).commands| <= k
    ensures HandleButtonClick(n, key).npc == n
  {
    assert CloseCommand in b.script;
  }

  /** A follow-up dialog starts from its first message with nothing typed, at its own speed. */
  lemma NextDialogRestarts(n: Npc, key: string, b: Button)
    requires n.current.Some? && FindButton(n.current.value.buttons, key) == Some(b)
    requires CloseCommand !in b.script && b.nextDialog && b.dialog.Some?
    ensures var r := HandleButtonClick(n, key);
      && r.continues && r.commands == b.script
      && r.npc.current == b.dialog && CurrentText(r.npc) == []
      && !r.npc.showButtons
      && (r.npc.charDelay == 0.0 <==> SpeedLevel(DialogSpeed(b.dialog.value)) == 4)
  {
  }

  /**
   * `handle_interaction` makes active the first NPC in range that has a
   * dialog: every NPC in range before it has none.
   */
  lemma InteractionPicksFirst(s: Npcs)
    requires s.active.None?
    ensures var r := HandleInteraction(s).0;
      r.active.Some? ==>
        var a := r.active.value;
        && a < |s.npcs| && s.npcs[a].canInteract && s.npcs[a].dialogData.Some?
        && (forall j :: 0 <= j < a && s.npcs[j].canInteract ==> s.npcs[j].dialogData.None?)
    ensures HandleInteraction(s).0.active.None? <==>
              forall j :: 0 <= j < |s.npcs| && s.npcs[j].canInteract ==> s.npcs[j].dialogData.None?
  {
  }

  /** The operations that change the NPC system. */
  datatype Op = SpawnOp(id: int, x: int, y: int, initialize: bool) | InteractOp | StartOp(id: int)
              | UpdateOp(near: (Pos, int) -> bool, elapsed: bool) | ClickOp(inside: Rect -> bool)

  function Apply(s: Npcs, op: Op): (r: Npcs)
    requires Valid(s)
    ensures Valid(r)
  {
    match op
    case SpawnOp(id, x, y, init) => SpawnNpc(s, id, x, y, init).0
    case InteractOp => HandleInteraction(s).0
    case StartOp(id) => StartDialogById(s, id).0
    case UpdateOp(near, elapsed) => UpdateNpcs(s, near, elapsed)
    case ClickOp(inside) => HandleDialogClick(s, inside).npcs
  }

  /** The operations in order, from a valid state. */
  function Run(s: Npcs, ops: seq<Op>): Npcs
    requires Valid(s)
    decreases |ops|
  {
    if ops == [] then s else Run(Apply(s, ops[0]), ops[1..])
  }

  /**
   * Whatever happens, at most one NPC is in a dialog, and it is one that
   * has a dialog open.
   */
  lemma {:induction false} OneActiveNpc(s: Npcs, ops: seq<Op>)
    requires Valid(s)
    ensures Valid(Run(s, ops))
    decreases |ops|
  {
    if ops != [] {
      OneActiveNpc(Apply(s, ops[0]), ops[1..]);
    }
  }
}

=== FILE: quest_system.dfy ===
/**
 * Quests: definitions loaded once, the quests in progress with one kill
 * record per kill task, the set of finished quests, and a kill counter per
 * enemy id. A quest moves from defined to active (`give_quest`), and from
 * active either back to defined (`cancel_quest`) or on to completed
 * (`complete_quest`), which pays out its rewards.
 */
module QuestSystem {
  import opened Wrappers
  import opened Text
  import HealthSystem

  // ---------------------------------------------------------------------------
  // Task and reward texts
  // ---------------------------------------------------------------------------

  const KillCall: string := "!quest_kill("
  const AddMaxHealthCall: string := "!quest_reward_addmaxhealth("
  const GiveItemCall: string := "!quest_reward_giveitem("

  /** The end of the `\d+` run that starts at `k`, when the run is not empty. */
  function DigitsEnd(s: string, k: nat): (r: Option<nat>)
    requires k <= |s|
    ensures r.Some? ==> k < r.value <= |s| && AllDigits(s[k..r.value])
  {
    var e := Scan(s, k, Digit);
    ScanDigits(s, k);
    if e == k then None else Some(e)
  }

  /**
   * Where a kill-task match sits: the enemy id is `s[enemy..comma]` and the
   * required count `s[count..close]`, both runs of digits.
   */
  datatype KillMatch = KillMatch(enemy: nat, comma: nat, count: nat, close: nat)
  {
    predicate Fits(s: string) {
      enemy < comma < count < close < |s| && AllDigits(s[enemy..comma]) && AllDigits(s[count..close])
    }
  }

  /** The pattern `!quest_kill\((\d+),\s*(\d+)\)` at index `i`. */
  function KillAt(s: string, i: nat): (r: Option<KillMatch>)
    ensures r.Some? ==> r.value.Fits(s)
  {
    if !At(s, i, KillCall) then None
    else
      match DigitsEnd(s, i + |KillCall|)
      case None => None
      case Some(e1) =>
        if e1 >= |s| || s[e1] != ',' then None
        else
          var k := Scan(s, e1 + 1, Space);
          match DigitsEnd(s, k)
          case None => None
          case Some(e2) =>
            if e2 >= |s| || s[e2] != ')' then None
            else Some(KillMatch(i + |KillCall|, e1, k, e2))
  }

  /**
   * A task text's kill requirement, `(enemy id, required count)`: the text
   * must start with `!quest_kill(` and the pattern must occur in it.
   */
  function ParseKill(task: string): (r: Option<(nat, nat)>)
    ensures r.Some? ==> StartsWith(task, KillCall)
    ensures r.Some? ==> ',' in task && ')' in task
  {
    if !StartsWith(task, KillCall) then None
    else
      match FirstMatch(task, 0, KillAt)
      case None => None
      case Some((_, m)) => Some((DigitsValue(task[m.enemy..m.comma]), DigitsValue(task[m.count..m.close])))
  }

  /** Where a one-number reward match sits: the number is `s[digits..close]`. */
  datatype NumberMatch = NumberMatch(digits: nat, close: nat)
  {
    predicate Fits(s: string) {
      digits < close < |s| && AllDigits(s[digits..close])
    }
  }

  /** The pattern `<call>(\d+)\)` at index `i`, where `call` ends with the opening parenthesis. */
  function NumberCallAt(s: string, i: nat, call: string): (r: Option<NumberMatch>)
    ensures r.Some? ==> r.value.Fits(s)
  {
    if !At(s, i, call) then None
    else
      match DigitsEnd(s, i + |call|)
      case None => None
      case Some(e) =>
        if e >= |s| || s[e] != ')' then None
        else Some(NumberMatch(i + |call|, e))
  }

  function AddMaxHealthAt(s: string, i: nat): (r: Option<NumberMatch>)
    ensures r.Some? ==> r.value.Fits(s)
  {
    NumberCallAt(s, i, AddMaxHealthCall)
  }

  function GiveItemAt(s: string, i: nat): (r: Option<NumberMatch>)
    ensures r.Some? ==> r.value.Fits(s)
  {
    NumberCallAt(s, i, GiveItemCall)
  }

  /** What a reward text asks for. */
  datatype Reward = AddMaxHealth(amount: nat) | GiveItem(item: nat) | NoReward

  /**
   * A reward text: the prefix picks the kind, and the leftmost match of that
   * kind's pattern gives the number. Anything else is no reward.
   */
  function ParseReward(reward: string): (r: Reward)
    ensures r.AddMaxHealth? ==> StartsWith(reward, AddMaxHealthCall)
    ensures r.GiveItem? ==> StartsWith(reward, GiveItemCall)
    ensures !StartsWith(reward, AddMaxHealthCall) && !StartsWith(reward, GiveItemCall) ==> r.NoReward?
  {
    if StartsWith(reward, AddMaxHealthCall) then
      match FirstMatch(reward, 0, AddMaxHealthAt)
      case None => NoReward
      case Some((_, m)) => AddMaxHealth(DigitsValue(reward[m.digits..m.close]))
    else if StartsWith(reward, GiveItemCall) then
      match FirstMatch(reward, 0, GiveItemAt)
      case None => NoReward
      case Some((_, m)) => GiveItem(DigitsValue(reward[m.digits..m.close]))
    else NoReward
  }

  // ---------------------------------------------------------------------------
  // Rewards
  // ---------------------------------------------------------------------------

  /** The reward slots searched for a free place: 0 to 8. */
  const RewardSlots: nat := 9

  /**
   * What rewards act on: the player's health and the inventory as the quest
   * code sees it, a map from occupied slot to item id.
   */
  datatype Player = Player(health: HealthSystem.Health, items: map<int, nat>)

  /** The lowest free slot from `from` up to slot 8. */
  function FreeSlotFrom(items: map<int, nat>, from: nat): (r: Option<nat>)
    ensures r.Some? ==> from <= r.value < RewardSlots && r.value !in items
    ensures r.Some? ==> forall k :: from <= k < r.value ==> k in items
    ensures r.None? ==> forall k :: from <= k < RewardSlots ==> k in items
    decreases RewardSlots - from
  {
    if from >= RewardSlots then None
    else if from !in items then Some(from)
    else FreeSlotFrom(items, from + 1)
  }

  function FreeSlot(items: map<int, nat>): Option<nat> {
    FreeSlotFrom(items, 0)
  }

  /**
   * `process_reward` on a parsed reward: more maximum health followed by a
   * heal of the same amount, or the item in the lowest free slot.
   */
  function ApplyReward(p: Player, r: Reward): (p': Player)
    ensures r.AddMaxHealth? ==> p'.items == p.items && p'.health.maxHealth == p.health.maxHealth + r.amount
    ensures r.AddMaxHealth? ==> p'.health.health == if p.health.health + r.amount < p.health.maxHealth + r.amount
                                                   then p.health.health + r.amount else p.health.maxHealth + r.amount
    ensures r.GiveItem? && FreeSlot(p.items).Some? ==>
              p'.health == p.health && p'.items == p.items[FreeSlot(p.items).value := r.item]
    ensures (r.GiveItem? && FreeSlot(p.items).None?) || r.NoReward? ==> p' == p
  {
    match r
    case AddMaxHealth(n) =>
      var raised := p.health.(maxHealth := p.health.maxHealth + n);
      p.(health := HealthSystem.Heal(raised, n))
    case GiveItem(id) =>
      (match FreeSlot(p.items)
       case Some(slot) => p.(items := p.items[slot := id])
       case None => p)
    case NoReward => p
  }

  /** `process_reward` on each reward text, in order. */
  function ProcessRewards(p: Player, rewards: seq<string>): (r: Player)
    ensures r.health.maxHealth >= p.health.maxHealth
    ensures forall k :: k in p.items ==> k in r.items && r.items[k] == p.items[k]
    ensures forall k :: k in r.items && k !in p.items ==> 0 <= k < RewardSlots
    decreases |rewards|
  {
    if rewards == [] then p else ProcessRewards(ApplyReward(p, ParseReward(rewards[0])), rewards[1..])
  }

  // ---------------------------------------------------------------------------
  // Quest state
  // ---------------------------------------------------------------------------

  /** A loaded quest: its task texts and its reward texts (each list empty when the key is missing). */
  datatype QuestDef = QuestDef(tasks: seq<string>, rewards: seq<string>)

  /** A kill task's progress record. */
  datatype KillTask = KillTask(enemy: int, required: int, current: int)

  /** A quest in progress: a kill record per kill task, keyed by task index, and the `completed` flag. */
  datatype ActiveQuest = ActiveQuest(progress: map<nat, KillTask>, completed: bool)

  /**
   * The quest system. `order` is the insertion order of `active`, which
   * `update_quests` follows; `kills` counts kills per enemy id.
   */
  datatype Quests = Quests(defs: map<int, QuestDef>, active: map<int, ActiveQuest>, order: seq<int>,
                           completed: set<int>, kills: map<int, int>)

  predicate NoDuplicates(s: seq<int>) {
    forall i, j :: 0 <= i < j < |s| ==> s[i] != s[j]
  }

  /** Every kill record counts from 0 up to its requirement. */
  predicate Capped(a: ActiveQuest) {
    forall t :: t in a.progress ==> 0 <= a.progress[t].current <= a.progress[t].required
  }

  /**
   * The invariant of the quest system: `order` lists the active quests once
   * each, active and completed quests are disjoint, both are defined quests,
   * no kill record exceeds its requirement and no kill counter is negative.
   */
  ghost predicate Valid(q: Quests) {
    && NoDuplicates(q.order)
    && (forall id :: id in q.order <==> id in q.active)
    && (forall id :: id in q.active ==> id !in q.completed)
    && (forall id :: id in q.active ==> id in q.defs)
    && (forall id :: id in q.completed ==> id in q.defs)
    && (forall id :: id in q.active ==> Capped(q.active[id]))
    && (forall e :: e in q.kills ==> q.kills[e] >= 0)
  }

  /** The state after loading: nothing active, nothing completed, no kills. */
  function New(defs: map<int, QuestDef>): (q: Quests)
    ensures Valid(q) && q.defs == defs
    ensures q.active == map[] && q.order == [] && q.completed == {} && q.kills == map[]
  {
    Quests(defs, map[], [], {}, map[])
  }

  /** `s` without `x`, in order. */
  function Without(s: seq<int>, x: int): (r: seq<int>)
    ensures forall y :: y in r <==> y in s && y != x
    ensures NoDuplicates(s) ==> NoDuplicates(r)
    decreases |s|
  {
    if s == [] then []
    else if s[0] == x then Without(s[1..], x)
    else
      var rest := Without(s[1..], x);
      assert NoDuplicates(s) ==> s[0] !in s[1..];
      [s[0]] + rest
  }

  /** One kill record per task that names a kill requirement, keyed by the task's index. */
  function TaskProgress(tasks: seq<string>): map<nat, KillTask> {
    map i | 0 <= i < |tasks| && ParseKill(tasks[i]).Some? ::
      KillTask(ParseKill(tasks[i]).value.0, ParseKill(tasks[i]).value.1, 0)
  }

  /**
   * `give_quest`: a defined quest that is neither active nor completed becomes
   * active with fresh progress; otherwise nothing happens.
   */
  function Give(q: Quests, id: int): (r: (Quests, bool))
    ensures r.1 <==> id in q.defs && id !in q.active && id !in q.completed
    ensures !r.1 ==> r.0 == q
    ensures r.1 ==> r.0.active == q.active[id := ActiveQuest(TaskProgress(q.defs[id].tasks), false)]
    ensures r.1 ==> r.0.order == q.order + [id]
    ensures r.0.defs == q.defs && r.0.completed == q.completed && r.0.kills == q.kills
  {
    if id in q.defs && id !in q.active && id !in q.completed then
      (q.(active := q.active[id := ActiveQuest(TaskProgress(q.defs[id].tasks), false)], order := q.order + [id]), true)
    else (q, false)
  }

  /** `cancel_quest`: an active quest stops being active; it is not marked completed. */
  function Cancel(q: Quests, id: int): (r: (Quests, bool))
    ensures r.1 <==> id in q.active
    ensures !r.1 ==> r.0 == q
    ensures r.1 ==> r.0.active == q.active - {id} && r.0.order == Without(q.order, id)
    ensures r.0.defs == q.defs && r.0.completed == q.completed && r.0.kills == q.kills
  {
    if id in q.active then (q.(active := q.active - {id}, order := Without(q.order, id)), true)
    else (q, false)
  }

  /** How many kills of `enemy` have been counted. */
  function KillCount(q: Quests, enemy: int): (n: int)
    ensures enemy !in q.kills ==> n == 0
    ensures enemy in q.kills ==> n == q.kills[enemy]
  {
    if enemy in q.kills then q.kills[enemy] else 0
  }

  /** Each kill record for `enemy` moves to `count`, capped at its requirement. */
  function Progress(a: ActiveQuest, enemy: int, count: int): (r: ActiveQuest)
    ensures r.completed == a.completed && r.progress.Keys == a.progress.Keys
    ensures forall t :: t in a.progress && a.progress[t].enemy == enemy ==>
              r.progress[t] == a.progress[t].(current := if count < a.progress[t].required then count else a.progress[t].required)
    ensures forall t :: t in a.progress && a.progress[t].enemy != enemy ==> r.progress[t] == a.progress[t]
  {
    a.(progress := map t | t in a.progress ::
         var task := a.progress[t];
         if task.enemy == enemy then task.(current := if count < task.required then count else task.required) else task)
  }

  /** `update_quest_progress`: the quest's kill records for `enemy` catch up with the counter. */
  function UpdateQuestProgress(q: Quests, id: int, enemy: int): (r: Quests)
    requires id in q.active
    ensures r.defs == q.defs && r.order == q.order && r.completed == q.completed && r.kills == q.kills
    ensures r.active.Keys == q.active.Keys && r.active[id].completed == q.active[id].completed
    ensures forall other :: other in q.active && other != id ==> r.active[other] == q.active[other]
    ensures r.active[id].progress.Keys == q.active[id].progress.Keys
    ensures forall t :: t in q.active[id].progress && q.active[id].progress[t].enemy == enemy ==>
              var task := q.active[id].progress[t];
              r.active[id].progress[t] == task.(current := if KillCount(q, enemy) < task.required then KillCount(q, enemy) else task.required)
    ensures forall t :: t in q.active[id].progress && q.active[id].progress[t].enemy != enemy ==>
              r.active[id].progress[t] == q.active[id].progress[t]
  {
    q.(active := q.active[id := Progress(q.active[id], enemy, KillCount(q, enemy))])
  }

  /**
   * `register_kill`: the enemy's counter goes up by one (from 0 when new), and
   * every active quest not flagged completed updates its progress.
   */
  function RegisterKill(q: Quests, enemy: int): (r: Quests)
    ensures r.kills == q.kills[enemy := KillCount(q, enemy) + 1]
    ensures r.defs == q.defs && r.order == q.order && r.completed == q.completed
    ensures r.active.Keys == q.active.Keys
    ensures forall id :: id in q.active && !q.active[id].completed ==>
              r.active[id] == Progress(q.active[id], enemy, KillCount(q, enemy) + 1)
    ensures forall id :: id in q.active && q.active[id].completed ==> r.active[id] == q.active[id]
  {
    var count := KillCount(q, enemy) + 1;
    q.(kills := q.kills[enemy := count],
       active := map id | id in q.active ::
                   if q.active[id].completed then q.active[id] else Progress(q.active[id], enemy, count))
  }

  /** Every kill record has reached its requirement (true when there are none). */
  predicate AllTasksDone(progress: map<nat, KillTask>) {
    forall t :: t in progress ==> progress[t].current >= progress[t].required
  }

  /**
   * `check_quest_completion`: a scan over the kill records that stops at the
   * first one still short of its requirement.
   */
  method CheckQuestCompletion(q: Quests, id: int) returns (done: bool)
    requires id in q.active
    ensures done <==> AllTasksDone(q.active[id].progress)
  {
    var progress := q.active[id].progress;
    var todo := progress.Keys;
    done := true;
    while todo != {}
      invariant todo <= progress.Keys
      invariant done <==> forall t :: t in progress && t !in todo ==> progress[t].current >= progress[t].required
      decreases |todo|
    {
      var t :| t in todo;
      if progress[t].current < progress[t].required {
        done := false;
        return;
      }
      todo := todo - {t};
    }
  }

  /**
   * `complete_quest`: for a defined quest, the rewards are paid out in order,
   * the quest is marked completed and it stops being active. An undefined id
   * changes nothing.
   */
  function Complete(q: Quests, p: Player, id: int): (r: (Quests, Player))
    ensures id !in q.defs ==> r == (q, p)
    ensures id in q.defs ==> r.0.completed == q.completed + {id} && r.0.active == q.active - {id}
    ensures id in q.defs ==> r.0.order == Without(q.order, id) && r.1 == ProcessRewards(p, q.defs[id].rewards)
    ensures r.0.defs == q.defs && r.0.kills == q.kills
  {
    if id !in q.defs then (q, p)
    else
      (q.(completed := q.completed + {id}, active := q.active - {id}, order := Without(q.order, id)),
       ProcessRewards(p, q.defs[id].rewards))
  }

  /** The active quest `id` is due: not flagged completed and every kill record is full. */
  predicate Due(q: Quests, id: int) {
    id in q.active && !q.active[id].completed && AllTasksDone(q.active[id].progress)
  }

  /** The loop of `update_quests` over a snapshot of the active ids. */
  function UpdateQuestsOver(q: Quests, p: Player, ids: seq<int>): (r: (Quests, Player))
    ensures r.0.defs == q.defs && r.0.kills == q.kills
    ensures q.completed <= r.0.completed && r.0.active.Keys <= q.active.Keys
    ensures forall id :: id in q.active && id !in ids ==> id in r.0.active && r.0.active[id] == q.active[id]
    decreases |ids|
  {
    if ids == [] then (q, p)
    else if Due(q, ids[0]) then
      var r := Complete(q, p, ids[0]);
      UpdateQuestsOver(r.0, r.1, ids[1..])
    else UpdateQuestsOver(q, p, ids[1..])
  }

  /** `update_quests`: every due quest is completed, in the order the quests were given. */
  function UpdateQuests(q: Quests, p: Player): (r: (Quests, Player))
    ensures r.0.defs == q.defs && r.0.kills == q.kills
    ensures q.completed <= r.0.completed && r.0.active.Keys <= q.active.Keys
  {
    UpdateQuestsOver(q, p, q.order)
  }

  // ---------------------------------------------------------------------------
  // Properties
  // ---------------------------------------------------------------------------

  lemma GivePreservesValid(q: Quests, id: int)
    requires Valid(q)
    ensures Valid(Give(q, id).0)
  {
    if Give(q, id).1 {
      var order := q.order + [id];
      forall i, j | 0 <= i < j < |order| ensures order[i] != order[j] {
        if j == |order| - 1 {
          assert order[i] in q.order;
        }
      }
    }
  }

  lemma CancelPreservesValid(q: Quests, id: int)
    requires Valid(q)
    ensures Valid(Cancel(q, id).0)
  {
  }

  lemma CompletePreservesValid(q: Quests, p: Player, id: int)
    requires Valid(q)
    ensures Valid(Complete(q, p, id).0)
  {
  }

  /** A capped record stays capped when it catches up with a non-negative counter. */
  lemma ProgressCapped(a: ActiveQuest, enemy: int, count: int)
    requires Capped(a) && count >= 0
    ensures Capped(Progress(a, enemy, count))
  {
    var r := Progress(a, enemy, count);
    forall t | t in r.progress ensures 0 <= r.progress[t].current <= r.progress[t].required {
      assert t in a.progress;
    }
  }

  lemma RegisterKillPreservesValid(q: Quests, enemy: int)
    requires Valid(q)
    ensures Valid(RegisterKill(q, enemy))
  {
    var r := RegisterKill(q, enemy);
    forall id | id in r.active ensures Capped(r.active[id]) {
      if !q.active[id].completed {
        ProgressCapped(q.active[id], enemy, KillCount(q, enemy) + 1);
      }
    }
  }

  lemma {:induction false} UpdateQuestsOverPreservesValid(q: Quests, p: Player, ids: seq<int>)
    requires Valid(q)
    ensures Valid(UpdateQuestsOver(q, p, ids).0)
    ensures q.completed <= UpdateQuestsOver(q, p, ids).0.completed
    decreases |ids|
  {
    if ids != [] {
      if Due(q, ids[0]) {
        var r := Complete(q, p, ids[0]);
        CompletePreservesValid(q, p, ids[0]);
        UpdateQuestsOverPreservesValid(r.0, r.1, ids[1..]);
      } else {
        UpdateQuestsOverPreservesValid(q, p, ids[1..]);
      }
    }
  }

  /**
   * `update_quests` completes exactly the quests that are due when it starts:
   * afterwards they are completed and no longer active, every other active
   * quest is still active and untouched, and no active quest is due.
   */
  lemma {:induction false} UpdateQuestsOverCompletesDue(q: Quests, p: Player, ids: seq<int>)
    requires forall id :: id in q.active ==> id in q.defs
    requires forall id :: Due(q, id) ==> id in ids
    ensures var r := UpdateQuestsOver(q, p, ids).0;
      && (forall id :: id in r.active <==> id in q.active && !Due(q, id))
      && (forall id :: id in r.active ==> r.active[id] == q.active[id] && !Due(r, id))
      && (forall id :: id in r.completed <==> id in q.completed || Due(q, id))
    decreases |ids|
  {
    if ids != [] {
      var x := ids[0];
      if Due(q, x) {
        var c := Complete(q, p, x);
        forall id | Due(c.0, id) ensures id in ids[1..] {
          assert Due(q, id) && id != x;
        }
        UpdateQuestsOverCompletesDue(c.0, c.1, ids[1..]);
      } else {
        forall id | Due(q, id) ensures id in ids[1..] {
          assert id != x;
        }
        UpdateQuestsOverCompletesDue(q, p, ids[1..]);
      }
    }
  }

  lemma UpdateQuestsCompletesDue(q: Quests, p: Player)
    requires Valid(q)
    ensures var r := UpdateQuests(q, p).0;
      && Valid(r)
      && (forall id :: id in r.active <==> id in q.active && !Due(q, id))
      && (forall id :: id in r.active ==> !Due(r, id))
      && (forall id :: id in r.completed <==> id in q.completed || Due(q, id))
  {
    UpdateQuestsOverPreservesValid(q, p, q.order);
    UpdateQuestsOverCompletesDue(q, p, q.order);
  }

  /** The public operations of the quest system. */
  datatype Op = GiveOp(id: int) | CancelOp(id: int) | KillOp(enemy: int) | CompleteOp(id: int) | UpdateOp

  function Apply(q: Quests, p: Player, op: Op): (Quests, Player) {
    match op
    case GiveOp(id) => (Give(q, id).0, p)
    case CancelOp(id) => (Cancel(q, id).0, p)
    case KillOp(enemy) => (RegisterKill(q, enemy), p)
    case CompleteOp(id) => Complete(q, p, id)
    case UpdateOp => UpdateQuests(q, p)
  }

  function Run(q: Quests, p: Player, ops: seq<Op>): (Quests, Player)
    decreases |ops|
  {
    if ops == [] then (q, p) else var r := Apply(q, p, ops[0]); Run(r.0, r.1, ops[1..])
  }

  /**
   * Whatever the operations, the invariant holds throughout, a completed quest
   * stays completed and so can never be given again, and active and completed
   * quests stay disjoint.
   */
  lemma {:induction false} RunPreservesValid(q: Quests, p: Player, ops: seq<Op>)
    requires Valid(q)
    ensures Valid(Run(q, p, ops).0)
    ensures q.completed <= Run(q, p, ops).0.completed
    ensures forall id :: id in q.completed ==> !Give(Run(q, p, ops).0, id).1
    decreases |ops|
  {
    if ops != [] {
      var r := Apply(q, p, ops[0]);
      ApplyPreservesValid(q, p, ops[0]);
      RunPreservesValid(r.0, r.1, ops[1..]);
    }
  }

  lemma ApplyPreservesValid(q: Quests, p: Player, op: Op)
    requires Valid(q)
    ensures Valid(Apply(q, p, op).0) && q.completed <= Apply(q, p, op).0.completed
  {
    match op {
      case GiveOp(id) => GivePreservesValid(q, id);
      case CancelOp(id) => CancelPreservesValid(q, id);
      case KillOp(enemy) => RegisterKillPreservesValid(q, enemy);
      case CompleteOp(id) => CompletePreservesValid(q, p, id);
      case UpdateOp => UpdateQuestsOverPreservesValid(q, p, q.order);
    }
  }

  /** A fresh quest's progress holds one record per kill task, each at 0 of its requirement. */
  lemma GiveStartsAtZero(q: Quests, id: int, t: nat)
    requires Give(q, id).1 && t < |q.defs[id].tasks|
    ensures var a := Give(q, id).0.active[id];
      && !a.completed
      && (t in a.progress <==> ParseKill(q.defs[id].tasks[t]).Some?)
      && (t in a.progress ==> a.progress[t] == KillTask(ParseKill(q.defs[id].tasks[t]).value.0, ParseKill(q.defs[id].tasks[t]).value.1, 0))
  {
  }

  // Kill and reward texts

  /** `KillAt` finds exactly the digit runs and the separator the pattern forces. */
  lemma KillAtIs(s: string, i: nat, e1: nat, k: nat, e2: nat)
    requires At(s, i, KillCall)
    requires i + |KillCall| < e1 < k < e2 < |s|
    requires AllDigits(s[i + |KillCall|..e1]) && s[e1] == ','
    requires AllSpace(s[e1 + 1..k]) && AllDigits(s[k..e2]) && s[e2] == ')'
    ensures KillAt(s, i) == Some(KillMatch(i + |KillCall|, e1, k, e2))
  {
    var j := i + |KillCall|;
    ScanDigitsIs(s, j, e1);
    assert s[k] == s[k..e2][0];
    ScanSpaceIs(s, e1 + 1, k);
    ScanDigitsIs(s, k, e2);
  }

  /** The kill task text with the enemy id, the separator's white space and the required count. */
  function KillText(enemy: nat, space: string, required: nat): string {
    KillCall + NatToString(enemy) + "," + space + NatToString(required) + ")"
  }

  /** A kill task written out with any white space after the comma reads back as its enemy id and count. */
  lemma KillTextRoundTrip(enemy: nat, space: string, required: nat)
    requires AllSpace(space)
    ensures ParseKill(KillText(enemy, space, required)) == Some((enemy, required))
  {
    var s := KillText(enemy, space, required);
    var a := NatToString(enemy);
    var b := NatToString(required);
    var j := |KillCall|;
    var e1 := j + |a|;
    var k := e1 + 1 + |space|;
    var e2 := k + |b|;
    assert s[..j] == KillCall;
    assert s[j..e1] == a;
    assert s[e1] == ',';
    assert s[e1 + 1..k] == space;
    assert s[k..e2] == b;
    assert s[e2] == ')';
    KillAtIs(s, 0, e1, k, e2);
    FirstMatchHere(s, 0, KillAt);
    DigitsOfNatToString(enemy);
    DigitsOfNatToString(required);
  }

  /** `NumberCallAt` finds exactly the digit run the pattern forces. */
  lemma NumberCallAtIs(s: string, i: nat, call: string, e: nat)
    requires At(s, i, call)
    requires i + |call| < e < |s| && AllDigits(s[i + |call|..e]) && s[e] == ')'
    ensures NumberCallAt(s, i, call) == Some(NumberMatch(i + |call|, e))
  {
    ScanDigitsIs(s, i + |call|, e);
  }

  /** A reward written as a call with one number. */
  function RewardText(call: string, n: nat): string {
    call + NatToString(n) + ")"
  }

  lemma RewardTextMatches(call: string, n: nat)
    ensures NumberCallAt(RewardText(call, n), 0, call) == Some(NumberMatch(|call|, |call| + |NatToString(n)|))
    ensures StartsWith(RewardText(call, n), call)
  {
    var s := RewardText(call, n);
    var e := |call| + |NatToString(n)|;
    assert s[..|call|] == call;
    assert s[|call|..e] == NatToString(n);
    NumberCallAtIs(s, 0, call, e);
  }

  /** Both reward texts read back as the reward they were written for. */
  lemma RewardRoundTrip(n: nat)
    ensures ParseReward(RewardText(AddMaxHealthCall, n)) == AddMaxHealth(n)
    ensures ParseReward(RewardText(GiveItemCall, n)) == GiveItem(n)
  {
    DigitsOfNatToString(n);
    var a := RewardText(AddMaxHealthCall, n);
    RewardTextMatches(AddMaxHealthCall, n);
    FirstMatchHere(a, 0, AddMaxHealthAt);
    assert a[|AddMaxHealthCall|..|AddMaxHealthCall| + |NatToString(n)|] == NatToString(n);
    var g := RewardText(GiveItemCall, n);
    RewardTextMatches(GiveItemCall, n);
    FirstMatchHere(g, 0, GiveItemAt);
    assert g[|GiveItemCall|..|GiveItemCall| + |NatToString(n)|] == NatToString(n);
    assert g[14] == 'g' && AddMaxHealthCall[14] == 'a';
    assert !StartsWith(g, AddMaxHealthCall);
  }

  /** A text that starts with neither reward call is no reward. */
  lemma OtherRewardIgnored(p: Player, reward: string)
    requires !StartsWith(reward, AddMaxHealthCall) && !StartsWith(reward, GiveItemCall)
    ensures ApplyReward(p, ParseReward(reward)) == p
  {
  }
}

=== FILE: script_runner.dfy ===
/**
 * The line-command interpreter. A script is text; each line is stripped and
 * dispatched on its prefix. Only two commands exist: `$inventory.GiveItem`
 * and `$log.<colour>`. Every other line is ignored. Printed log lines are
 * returned as output instead of being written to the console.
 */
module ScriptRunner {
  import opened Wrappers
  import opened Text
  import Inventory

  const GiveItemPrefix: string := "$inventory.GiveItem"
  const GiveItemCall: string := "$inventory.GiveItem("
  const LogPrefix: string := "$log."

  /** The two quote characters a log message may be enclosed in. */
  const Quotes: string := "\"'"
  predicate IsQuote(c: char) { c in Quotes }

  /**
   * Where a `GiveItem` match sits in its line: `args` is the index just after
   * the opening parenthesis, `comma1` and `comma2` the two commas and `close`
   * the closing parenthesis.
   */
  datatype GiveItemMatch = GiveItemMatch(args: nat, comma1: nat, comma2: nat, close: nat)
  {
    predicate Fits(s: string) {
      args < comma1 && comma1 + 1 < comma2 && comma2 + 1 < close < |s|
    }
  }

  /** The text between the delimiters of a `GiveItem` match. */
  datatype GiveItemArgs = GiveItemArgs(name: string, idText: string, slotText: string)

  /**
   * The three groups of a match. Whatever `\s*` takes, the stripped second
   * and third groups are the stripped text between the delimiters, so that
   * text stands for them.
   */
  function Groups(s: string, m: GiveItemMatch): GiveItemArgs
    requires m.Fits(s)
  {
    GiveItemArgs(s[m.args..m.comma1], s[m.comma1 + 1..m.comma2], s[m.comma2 + 1..m.close])
  }

  /**
   * The end of a non-empty run of characters from `k` on that satisfy `p`,
   * when a character that does not satisfy `p` follows it.
   */
  function RunEnd(s: string, k: nat, p: CharClass): (r: Option<nat>)
    requires k <= |s|
    ensures r.Some? ==> k < r.value < |s| && !p.Has(s[r.value])
  {
    var e := Scan(s, k, p);
    if e == k || e >= |s| then None else Some(e)
  }

  lemma RunEndIs(s: string, k: nat, p: CharClass, e: nat)
    requires k < e < |s| && !p.Has(s[e])
    requires forall x :: k <= x < e ==> p.Has(s[x])
    ensures RunEnd(s, k, p) == Some(e)
  {
    ScanIs(s, k, p, e);
  }

  /**
   * The pattern `\$inventory\.GiveItem\(([^,]+),\s*([^,]+),\s*([^)]+)\)` at
   * index `i`. The first group runs to the first comma, the second to the
   * next comma and the third to the first `)` after that; each must be
   * non-empty.
   */
  function GiveItemAt(s: string, i: nat): (r: Option<GiveItemMatch>)
    ensures r.Some? ==> At(s, i, GiveItemCall) && r.value.args == i + |GiveItemCall| && r.value.Fits(s)
    ensures r.Some? ==> s[r.value.comma1] == ',' && s[r.value.comma2] == ',' && s[r.value.close] == ')'
  {
    if !At(s, i, GiveItemCall) then None
    else
      var j := i + |GiveItemCall|;
      match RunEnd(s, j, Except(','))
      case None => None
      case Some(c1) =>
        match RunEnd(s, c1 + 1, Except(','))
        case None => None
        case Some(c2) =>
          match RunEnd(s, c2 + 1, Except(')'))
          case None => None
          case Some(p) => Some(GiveItemMatch(j, c1, c2, p))
  }

  /**
   * Where a log match sits in its line: `color` is the index just after
   * `$log.`, `paren` the opening parenthesis and `quote` the closing quote.
   */
  datatype LogMatch = LogMatch(color: nat, paren: nat, quote: nat)
  {
    predicate Fits(s: string) {
      color < paren && paren + 2 < quote && quote + 1 < |s|
    }
  }

  /** The printed line of a log match: the colour upper-cased in brackets, then the message. */
  function LogLine(s: string, m: LogMatch): string
    requires m.Fits(s)
  {
    "[" + Upper(s[m.color..m.paren]) + "] " + s[m.paren + 2..m.quote]
  }

  /** The pattern `\$log\.(\w+)\(["']([^"']+)["']\)` at index `i`. */
  function LogAt(s: string, i: nat): (r: Option<LogMatch>)
    ensures r.Some? ==> At(s, i, LogPrefix) && r.value.color == i + |LogPrefix| && r.value.Fits(s)
    ensures r.Some? ==> s[r.value.paren] == '(' && IsQuote(s[r.value.paren + 1]) && IsQuote(s[r.value.quote]) && s[r.value.quote + 1] == ')'
  {
    if !At(s, i, LogPrefix) then None
    else
      var j := i + |LogPrefix|;
      match RunEnd(s, j, Word)
      case None => None
      case Some(k) =>
        if s[k] != '(' || k + 1 >= |s| || !IsQuote(s[k + 1]) then None
        else
          match RunEnd(s, k + 2, ExceptEither('"', '\''))
          case None => None
          case Some(e) =>
            if e + 1 >= |s| || s[e + 1] != ')' then None
            else Some(LogMatch(j, k, e))
  }

  /** What running one `GiveItem` line leads to: a new inventory, or an uncaught `ValueError`. */
  datatype Step = Done(inv: Inventory.Inventory) | Raised

  /** `re.search` of the `GiveItem` pattern: the groups of the leftmost match. */
  function SearchGiveItem(line: string): (r: Option<GiveItemArgs>)
    ensures r.Some? ==> exists i :: 0 <= i <= |line| && At(line, i, GiveItemCall)
    ensures r.Some? ==> r.value.name != [] && r.value.idText != [] && r.value.slotText != []
    ensures r.Some? ==> ',' in line && ')' in line
  {
    match FirstMatch(line, 0, GiveItemAt)
    case None => None
    case Some((_, m)) => Some(Groups(line, m))
  }

  /**
   * `execute_give_item`: the leftmost match, if any, gives the item; id and
   * slot go through `int()`, whose failure propagates.
   */
  function ExecuteGiveItem(inv: Inventory.Inventory, line: string): (r: Step)
    ensures SearchGiveItem(line).None? ==> r == Done(inv)
    ensures r.Raised? <==> (var m := SearchGiveItem(line);
                             m.Some? && (ParseInt(Strip(m.value.idText)).None? || ParseInt(Strip(m.value.slotText)).None?))
    ensures r.Done? ==> |r.inv.slots| == |inv.slots|
    ensures r.Done? ==> forall i, j :: 0 <= i < j < |inv.slots| ==> r.inv.slots[i] == inv.slots[i] || r.inv.slots[j] == inv.slots[j]
  {
    match SearchGiveItem(line)
    case None => Done(inv)
    case Some(args) =>
      match (ParseInt(Strip(args.idText)), ParseInt(Strip(args.slotText)))
      case (Some(id), Some(slot)) => Done(Inventory.GiveItem(inv, Strip(args.name), id, slot).0)
      case _ => Raised
  }

  /** `execute_log`: the printed line of the leftmost match, if there is one. */
  function ExecuteLog(line: string): (r: Option<string>)
    ensures r.Some? ==> exists i :: 0 <= i <= |line| && At(line, i, LogPrefix)
    ensures r.Some? ==> |r.value| >= 5 && r.value[0] == '['
  {
    match FirstMatch(line, 0, LogAt)
    case None => None
    case Some((_, m)) => Some(LogLine(line, m))
  }

  /** The state a script run ends in: the inventory, the printed lines, and whether an error escaped. */
  datatype Outcome = Outcome(inv: Inventory.Inventory, output: seq<string>, raised: bool)

  /** The lines starting with neither command prefix, after stripping. */
  predicate Inert(line: string) {
    !StartsWith(Strip(line), GiveItemPrefix) && !StartsWith(Strip(line), LogPrefix)
  }

  /**
   * The loop of `execute_commands` over lines, in order. A raised error ends
   * the run; what earlier lines did to the inventory stays done.
   */
  function ExecuteLines(lines: seq<string>, inv: Inventory.Inventory, out: seq<string>): (r: Outcome)
    ensures |r.inv.slots| == |inv.slots|
    ensures out <= r.output
    decreases |lines|
  {
    if lines == [] then Outcome(inv, out, false)
    else
      var line := Strip(lines[0]);
      if StartsWith(line, GiveItemPrefix) then
        match ExecuteGiveItem(inv, line)
        case Raised => Outcome(inv, out, true)
        case Done(inv') => ExecuteLines(lines[1..], inv', out)
      else if StartsWith(line, LogPrefix) then
        match ExecuteLog(line)
        case Some(msg) => ExecuteLines(lines[1..], inv, out + [msg])
        case None => ExecuteLines(lines[1..], inv, out)
      else ExecuteLines(lines[1..], inv, out)
  }

  /** `execute_commands`: split on `\n` and run the lines. */
  function ExecuteCommands(script: string, inv: Inventory.Inventory): (r: Outcome)
    ensures |r.inv.slots| == |inv.slots|
    ensures (forall k :: 0 <= k < |Split(script, '\n')| ==> Inert(Split(script, '\n')[k])) ==> r == Outcome(inv, [], false)
  {
    var lines := Split(script, '\n');
    assert (forall k :: 0 <= k < |lines| ==> Inert(lines[k])) ==> ExecuteLines(lines, inv, []) == Outcome(inv, [], false) by {
      if forall k :: 0 <= k < |lines| ==> Inert(lines[k]) {
        InertLines(lines, inv, []);
      }
    }
    ExecuteLines(lines, inv, [])
  }

  /** The `script` entry of a script file: text, a list of lines, or missing. */
  datatype ScriptContent = Text(text: string) | Lines(lines: seq<string>) | Missing

  /** A list is joined with `\n`; a missing entry is the empty script. */
  function ScriptText(c: ScriptContent): string {
    match c
    case Text(t) => t
    case Lines(ls) => Join(ls, '\n')
    case Missing => ""
  }

  /** `run_script` after the file has been read. */
  function RunScript(c: ScriptContent, inv: Inventory.Inventory): (r: Outcome)
    ensures |r.inv.slots| == |inv.slots|
    ensures c.Missing? ==> r == Outcome(inv, [], false)
  {
    if c.Missing? then EmptyScript(inv); ExecuteCommands("", inv)
    else ExecuteCommands(ScriptText(c), inv)
  }

  // ---------------------------------------------------------------------------
  // Properties
  // ---------------------------------------------------------------------------

  /** The empty script is one blank line, which does nothing. */
  lemma EmptyScript(inv: Inventory.Inventory)
    ensures ExecuteCommands("", inv) == Outcome(inv, [], false)
  {
    assert Split("", '\n') == [""];
    assert Strip("") == "";
    assert Inert("");
    InertLines([""], inv, []);
  }

  /** A script given as a list runs exactly its lines, in order. */
  lemma RunScriptLines(ls: seq<string>, inv: Inventory.Inventory)
    requires forall k :: 0 <= k < |ls| ==> '\n' !in ls[k]
    ensures ls != [] ==> RunScript(Lines(ls), inv) == ExecuteLines(ls, inv, [])
    ensures ls == [] ==> RunScript(Lines(ls), inv) == Outcome(inv, [], false)
  {
    if ls != [] {
      SplitJoin(ls, '\n');
    } else {
      EmptyScript(inv);
    }
  }

  /** A missing `script` entry does nothing. */
  lemma RunScriptMissing(inv: Inventory.Inventory)
    ensures RunScript(Missing, inv) == Outcome(inv, [], false)
  {
    EmptyScript(inv);
  }

  /** Lines are independent: the run of `a + b` is the run of `b` from where `a` left off, unless `a` raised. */
  lemma {:induction false} ExecuteLinesAppend(a: seq<string>, b: seq<string>, inv: Inventory.Inventory, out: seq<string>)
    ensures var ra := ExecuteLines(a, inv, out);
            ExecuteLines(a + b, inv, out) == if ra.raised then ra else ExecuteLines(b, ra.inv, ra.output)
    decreases |a|
  {
    if a == [] {
      assert a + b == b;
    } else {
      assert (a + b)[0] == a[0];
      assert (a + b)[1..] == a[1..] + b;
      var line := Strip(a[0]);
      if StartsWith(line, GiveItemPrefix) {
        match ExecuteGiveItem(inv, line)
        case Raised =>
        case Done(inv') => ExecuteLinesAppend(a[1..], b, inv', out);
      } else if StartsWith(line, LogPrefix) {
        match ExecuteLog(line)
        case Some(msg) => ExecuteLinesAppend(a[1..], b, inv, out + [msg]);
        case None => ExecuteLinesAppend(a[1..], b, inv, out);
      } else {
        ExecuteLinesAppend(a[1..], b, inv, out);
      }
    }
  }

  /** Lines that start with neither command prefix have no effect at all. */
  lemma {:induction false} InertLines(lines: seq<string>, inv: Inventory.Inventory, out: seq<string>)
    requires forall k :: 0 <= k < |lines| ==> Inert(lines[k])
    ensures ExecuteLines(lines, inv, out) == Outcome(inv, out, false)
    decreases |lines|
  {
    if lines != [] {
      InertLines(lines[1..], inv, out);
    }
  }

  /** A line with fewer than two commas never matches the `GiveItem` shape, so it does nothing. */
  lemma FewerThanTwoCommas(inv: Inventory.Inventory, line: string)
    requires forall p, q :: 0 <= p < q < |line| && line[p] == ',' ==> line[q] != ','
    ensures ExecuteGiveItem(inv, line) == Done(inv)
  {
    forall i | 0 <= i <= |line| ensures GiveItemAt(line, i).None? {
    }
    SearchGiveItemNone(line);
  }

  /** `GiveItemAt` finds exactly the delimiters the pattern forces. */
  lemma GiveItemAtIs(s: string, i: nat, c1: nat, c2: nat, p: nat)
    requires At(s, i, GiveItemCall)
    requires i + |GiveItemCall| < c1 && c1 + 1 < c2 && c2 + 1 < p < |s|
    requires ',' !in s[i + |GiveItemCall|..c1] && ',' !in s[c1 + 1..c2] && ')' !in s[c2 + 1..p]
    requires s[c1] == ',' && s[c2] == ',' && s[p] == ')'
    ensures GiveItemAt(s, i) == Some(GiveItemMatch(i + |GiveItemCall|, c1, c2, p))
  {
    var j := i + |GiveItemCall|;
    NotInSlice(s, j, c1, ',');
    NotInSlice(s, c1 + 1, c2, ',');
    NotInSlice(s, c2 + 1, p, ')');
    RunEndIs(s, j, Except(','), c1);
    RunEndIs(s, c1 + 1, Except(','), c2);
    RunEndIs(s, c2 + 1, Except(')'), p);
  }

  /** `LogAt` finds exactly the opening parenthesis and closing quote the pattern forces. */
  lemma LogAtIs(s: string, i: nat, k: nat, e: nat)
    requires At(s, i, LogPrefix)
    requires i + |LogPrefix| < k && k + 2 < e && e + 1 < |s|
    requires AllWord(s[i + |LogPrefix|..k])
    requires '"' !in s[k + 2..e] && '\'' !in s[k + 2..e]
    requires s[k] == '(' && IsQuote(s[k + 1]) && IsQuote(s[e]) && s[e + 1] == ')'
    ensures LogAt(s, i) == Some(LogMatch(i + |LogPrefix|, k, e))
  {
    var j := i + |LogPrefix|;
    forall x | j <= x < k ensures IsWordChar(s[x]) { assert s[x] == s[j..k][x - j]; }
    NotInSlice(s, k + 2, e, '"');
    NotInSlice(s, k + 2, e, '\'');
    RunEndIs(s, j, Word, k);
    RunEndIs(s, k + 2, ExceptEither('"', '\''), e);
  }

  /** A line that starts with a log call whose parenthesis and closing quote are where the pattern forces them. */
  lemma ExecuteLogIs(s: string, k: nat, e: nat)
    requires StartsWith(s, LogPrefix)
    requires |LogPrefix| < k && k + 2 < e && e + 1 < |s|
    requires AllWord(s[|LogPrefix|..k])
    requires '"' !in s[k + 2..e] && '\'' !in s[k + 2..e]
    requires s[k] == '(' && IsQuote(s[k + 1]) && IsQuote(s[e]) && s[e + 1] == ')'
    ensures ExecuteLog(s) == Some("[" + Upper(s[|LogPrefix|..k]) + "] " + s[k + 2..e])
  {
    var m := LogMatch(|LogPrefix|, k, e);
    LogAtIs(s, 0, k, e);
    FirstMatchHere(s, 0, LogAt);
    assert FirstMatch(s, 0, LogAt) == Some((0, m));
  }


  /** A line that starts with a `GiveItem` call whose delimiters are where the pattern forces them. */
  lemma SearchGiveItemIs(s: string, c1: nat, c2: nat, p: nat)
    requires StartsWith(s, GiveItemCall)
    requires |GiveItemCall| < c1 && c1 + 1 < c2 && c2 + 1 < p < |s|
    requires ',' !in s[|GiveItemCall|..c1] && ',' !in s[c1 + 1..c2] && ')' !in s[c2 + 1..p]
    requires s[c1] == ',' && s[c2] == ',' && s[p] == ')'
    ensures SearchGiveItem(s) == Some(GiveItemArgs(s[|GiveItemCall|..c1], s[c1 + 1..c2], s[c2 + 1..p]))
  {
    var m := GiveItemMatch(|GiveItemCall|, c1, c2, p);
    GiveItemAtIs(s, 0, c1, c2, p);
    FirstMatchHere(s, 0, GiveItemAt);
    assert FirstMatch(s, 0, GiveItemAt) == Some((0, m));
    assert Groups(s, m) == GiveItemArgs(s[|GiveItemCall|..c1], s[c1 + 1..c2], s[c2 + 1..p]);
  }

  /** A found `GiveItem` whose id and slot parse gives the item with the stripped name. */
  lemma ExecuteGiveItemFound(inv: Inventory.Inventory, line: string)
    ensures forall args, id, slot :: SearchGiveItem(line) == Some(args) && ParseInt(Strip(args.idText)) == Some(id) && ParseInt(Strip(args.slotText)) == Some(slot) ==>
              ExecuteGiveItem(inv, line) == Done(Inventory.GiveItem(inv, Strip(args.name), id, slot).0)
  {
  }

  /** `execute_give_item` finds nothing exactly when the pattern matches nowhere in the line. */
  lemma SearchGiveItemNone(line: string)
    ensures SearchGiveItem(line).None? <==> forall i :: 0 <= i <= |line| ==> GiveItemAt(line, i).None?
  {
    FirstMatchNone(line, 0, GiveItemAt);
  }

  /** `execute_log` prints nothing exactly when the pattern matches nowhere in the line. */
  lemma ExecuteLogNone(line: string)
    ensures ExecuteLog(line).None? <==> forall i :: 0 <= i <= |line| ==> LogAt(line, i).None?
  {
    FirstMatchNone(line, 0, LogAt);
  }

  /** A `GiveItem` call with the given texts between its delimiters. */
  function GiveItemText(name: string, idText: string, slotText: string): string {
    GiveItemCall + name + "," + idText + "," + slotText + ")"
  }

  /** The canonical text of a `GiveItem` command: each number behind one space. */
  function GiveItemCommand(name: string, id: int, slot: int): string {
    GiveItemText(name, " " + IntToString(id), " " + IntToString(slot))
  }

  lemma NoDelimitersInNumber(n: int)
    ensures ',' !in IntToString(n) && ')' !in IntToString(n)
    ensures !IsSpace(IntToString(n)[0]) && !IsSpace(IntToString(n)[|IntToString(n)| - 1])
  {
    var s := IntToString(n);
    var d := NatToString(if n < 0 then -n else n);
    assert forall k :: 0 <= k < |d| ==> IsDigit(d[k]);
    if n < 0 {
      assert forall k :: 1 <= k < |s| ==> s[k] == d[k - 1];
    }
  }

  /**
   * A call whose texts hold none of the delimiters that end them is matched
   * with exactly those texts as its groups; the last may contain commas.
   */
  lemma GiveItemTextMatches(name: string, idText: string, slotText: string)
    requires name != [] && idText != [] && slotText != []
    requires ',' !in name && ',' !in idText && ')' !in slotText
    ensures SearchGiveItem(GiveItemText(name, idText, slotText)) == Some(GiveItemArgs(name, idText, slotText))
  {
    var s := GiveItemText(name, idText, slotText);
    var j := |GiveItemCall|;
    var c1 := j + |name|;
    var c2 := c1 + 1 + |idText|;
    var p := c2 + 1 + |slotText|;
    assert s[..j] == GiveItemCall;
    assert s[j..c1] == name;
    assert s[c1 + 1..c2] == idText;
    assert s[c2 + 1..p] == slotText;
    SearchGiveItemIs(s, c1, c2, p);
  }

  /**
   * The canonical command gives the named item into the given slot: parsing
   * recovers the name, the id and the slot exactly.
   */
  lemma GiveItemCommandRoundTrip(inv: Inventory.Inventory, name: string, id: int, slot: int)
    requires name != [] && ',' !in name && !IsSpace(name[0]) && !IsSpace(name[|name| - 1])
    ensures ExecuteGiveItem(inv, GiveItemCommand(name, id, slot)) == Done(Inventory.GiveItem(inv, name, id, slot).0)
  {
    var ids := IntToString(id);
    var slots := IntToString(slot);
    NoDelimitersInNumber(id);
    NoDelimitersInNumber(slot);
    GiveItemTextMatches(name, " " + ids, " " + slots);
    StripUnpadded(name);
    StripSpaceCons(' ', ids);
    StripSpaceCons(' ', slots);
    StripUnpadded(ids);
    StripUnpadded(slots);
    IntRoundTrip(id);
    IntRoundTrip(slot);
    ExecuteGiveItemFound(inv, GiveItemCommand(name, id, slot));
  }

  /** The canonical text of a log command, with either quote kind at each end. */
  function LogCommand(color: string, open: char, msg: string, close: char): string {
    LogPrefix + color + "(" + [open] + msg + [close] + ")"
  }

  /** A log command prints its message behind the upper-cased colour. */
  lemma LogCommandRoundTrip(color: string, open: char, msg: string, close: char)
    requires color != [] && AllWord(color)
    requires msg != [] && '"' !in msg && '\'' !in msg
    requires IsQuote(open) && IsQuote(close)
    ensures ExecuteLog(LogCommand(color, open, msg, close)) == Some("[" + Upper(color) + "] " + msg)
  {
    var s := LogCommand(color, open, msg, close);
    var j := |LogPrefix|;
    var k := j + |color|;
    var e := k + 2 + |msg|;
    assert s == LogPrefix + color + "(" + [open] + msg + [close] + ")";
    assert s[..j] == LogPrefix;
    assert s[j..k] == color;
    assert s[k + 2..e] == msg;
    ExecuteLogIs(s, k, e);
  }

}

=== FILE: text.dfy ===
/**
 * The pieces of Python's string handling that the engine relies on:
 * `str.isspace`, `strip`, `split('\n')`, `'\n'.join`, `startswith`,
 * `replace`, `int(...)`, `str(int)` and the leftmost-match rule of `re.search`.
 * Character classes are ASCII (`\d` is 0-9, `\w` is letters, digits and `_`).
 */
module Text {
  import opened Wrappers

  /** The characters `str.isspace()` accepts; `strip()` and the regex class `\s` use the same set. */
  predicate IsSpace(c: char) {
    || c == ' '
    || ('\t' <= c <= '\r')
    || ('\U{1c}' <= c <= '\U{1f}')
    || c == '\U{85}' || c == '\U{a0}' || c == '\U{1680}'
    || ('\U{2000}' <= c <= '\U{200a}')
    || c == '\U{2028}' || c == '\U{2029}' || c == '\U{202f}' || c == '\U{205f}' || c == '\U{3000}'
  }

  predicate IsDigit(c: char) {
    '0' <= c <= '9'
  }

  /** The regex class `\w`. */
  predicate IsWordChar(c: char) {
    ('a' <= c <= 'z') || ('A' <= c <= 'Z') || IsDigit(c) || c == '_'
  }

  predicate AllDigits(s: string) {
    forall i :: 0 <= i < |s| ==> IsDigit(s[i])
  }

  predicate AllWord(s: string) {
    forall i :: 0 <= i < |s| ==> IsWordChar(s[i])
  }

  predicate AllSpace(s: string) {
    forall i :: 0 <= i < |s| ==> IsSpace(s[i])
  }

  /** `s.startswith(p)` */
  predicate StartsWith(s: string, p: string) {
    |p| <= |s| && s[..|p|] == p
  }

  /** The literal `p` occurs in `s` at index `i`. */
  predicate At(s: string, i: nat, p: string) {
    i + |p| <= |s| && s[i..i + |p|] == p
  }

  // ---------------------------------------------------------------------------
  // strip()
  // ---------------------------------------------------------------------------

  /** Number of leading white-space characters. */
  function LeadingSpace(s: string): (k: nat)
    ensures k <= |s|
    ensures AllSpace(s[..k])
    ensures k < |s| ==> !IsSpace(s[k])
    decreases |s|
  {
    if s != [] && IsSpace(s[0]) then
      var k := 1 + LeadingSpace(s[1..]);
      assert s[..k] == [s[0]] + s[1..][..k - 1];
      k
    else 0
  }

  /** Index where the trailing white-space run starts. */
  function TrailingStart(s: string): (k: nat)
    ensures k <= |s|
    ensures AllSpace(s[k..])
    ensures k > 0 ==> !IsSpace(s[k - 1])
    decreases |s|
  {
    if s != [] && IsSpace(s[|s| - 1]) then
      var k := TrailingStart(s[..|s| - 1]);
      assert s[k..] == s[..|s| - 1][k..] + [s[|s| - 1]];
      k
    else |s|
  }

  /** `s.strip()`: the text between the leading and the trailing white space. */
  function Strip(s: string): (r: string)
    ensures r == [] <==> AllSpace(s)
    ensures r != [] ==> !IsSpace(r[0]) && !IsSpace(r[|r| - 1])
    ensures LeadingSpace(s) + |r| <= |s| && r == s[LeadingSpace(s)..LeadingSpace(s) + |r|]
    ensures AllSpace(s[LeadingSpace(s) + |r|..])
  {
    var a := LeadingSpace(s);
    var e := a + TrailingStart(s[a..]);
    StripBounds(s, a, e);
    s[a..e]
  }

  /** The facts about the text between the leading and trailing white space that `Strip` promises. */
  lemma StripBounds(s: string, a: nat, e: nat)
    requires a == LeadingSpace(s) && e == a + TrailingStart(s[a..])
    ensures a <= e <= |s|
    ensures e == a <==> AllSpace(s)
    ensures a < e ==> !IsSpace(s[a]) && !IsSpace(s[e - 1])
    ensures AllSpace(s[e..])
  {
    var t := s[a..];
    assert s[e..] == t[e - a..];
    if a < e {
      assert s[e - 1] == t[e - a - 1];
      NotAllSpace(s, a);
    } else {
      AllSpaceWhenBlank(s, a);
    }
  }

  lemma NotAllSpace(s: string, i: nat)
    requires i < |s| && !IsSpace(s[i])
    ensures !AllSpace(s)
  {
  }

  /** When no text follows the leading white space, everything is white space. */
  lemma AllSpaceWhenBlank(s: string, a: nat)
    requires a == LeadingSpace(s) && TrailingStart(s[a..]) == 0
    ensures AllSpace(s)
  {
    var t := s[a..];
    assert t[0..] == t;
    assert s == s[..a] + t;
    AllSpaceConcat(s[..a], t);
  }

  lemma AllSpaceConcat(x: string, y: string)
    requires AllSpace(x) && AllSpace(y)
    ensures AllSpace(x + y)
  {
    forall i | 0 <= i < |x + y| ensures IsSpace((x + y)[i]) {
      if i < |x| {
        assert (x + y)[i] == x[i];
      } else {
        assert (x + y)[i] == y[i - |x|];
      }
    }
  }

  /** A leading white-space character does not change `strip()`. */
  lemma StripSpaceCons(c: char, x: string)
    requires IsSpace(c)
    ensures Strip([c] + x) == Strip(x)
  {
    var s := [c] + x;
    assert s[1..] == x;
    assert LeadingSpace(s) == 1 + LeadingSpace(x);
    assert s[LeadingSpace(s)..] == x[LeadingSpace(x)..];
  }

  /** Text that neither starts nor ends with white space is its own `strip()`. */
  lemma StripUnpadded(s: string)
    requires s != [] && !IsSpace(s[0]) && !IsSpace(s[|s| - 1])
    ensures Strip(s) == s
  {
    assert LeadingSpace(s) == 0;
    assert s[0..] == s;
    assert TrailingStart(s) == |s|;
  }

  // ---------------------------------------------------------------------------
  // split('\n') and '\n'.join
  // ---------------------------------------------------------------------------

  /** `s.split(d)` for a one-character separator: never empty, no piece contains `d`. */
  function Split(s: string, d: char): (r: seq<string>)
    ensures |r| >= 1
    ensures forall i :: 0 <= i < |r| ==> d !in r[i]
    decreases |s|
  {
    if s == [] then [[]]
    else
      var rest := Split(s[1..], d);
      if s[0] == d then [[]] + rest else [[s[0]] + rest[0]] + rest[1..]
  }

  /** `d.join(parts)` */
  function Join(parts: seq<string>, d: char): string
    decreases |parts|
  {
    if |parts| == 0 then []
    else if |parts| == 1 then parts[0]
    else parts[0] + [d] + Join(parts[1..], d)
  }

  /** Joining the pieces of a split gives back the text. */
  lemma {:induction false} JoinSplit(s: string, d: char)
    ensures Join(Split(s, d), d) == s
    decreases |s|
  {
    if s != [] {
      var rest := Split(s[1..], d);
      JoinSplit(s[1..], d);
      if |rest| > 1 {
        assert Join(rest, d) == rest[0] + [d] + Join(rest[1..], d);
      }
      if s[0] != d {
        var r := [[s[0]] + rest[0]] + rest[1..];
        assert r[1..] == rest[1..];
      } else {
        assert ([[]] + rest)[1..] == rest;
      }
    }
  }

  lemma {:induction false} SplitNoSeparator(x: string, d: char)
    requires d !in x
    ensures Split(x, d) == [x]
    decreases |x|
  {
    if x != [] {
      SplitNoSeparator(x[1..], d);
      assert [x[0]] + x[1..] == x;
    }
  }

  lemma {:induction false} SplitAtSeparator(x: string, d: char, y: string)
    requires d !in x
    ensures Split(x + [d] + y, d) == [x] + Split(y, d)
    decreases |x|
  {
    var s := x + [d] + y;
    if x == [] {
      assert s[1..] == y;
    } else {
      assert s[1..] == x[1..] + [d] + y;
      SplitAtSeparator(x[1..], d, y);
      assert [x[0]] + x[1..] == x;
    }
  }

  /** Splitting a join gives back the pieces, when no piece contains the separator. */
  lemma {:induction false} SplitJoin(parts: seq<string>, d: char)
    requires |parts| >= 1
    requires forall i :: 0 <= i < |parts| ==> d !in parts[i]
    ensures Split(Join(parts, d), d) == parts
    decreases |parts|
  {
    if |parts| == 1 {
      SplitNoSeparator(parts[0], d);
    } else {
      SplitAtSeparator(parts[0], d, Join(parts[1..], d));
      SplitJoin(parts[1..], d);
      assert [parts[0]] + parts[1..] == parts;
    }
  }

  // ---------------------------------------------------------------------------
  // int(...) and str(int)
  // ---------------------------------------------------------------------------

  function DigitValue(c: char): (v: nat)
    requires IsDigit(c)
    ensures v < 10
  {
    (c as int) - ('0' as int)
  }

  function DigitChar(v: nat): (c: char)
    requires v < 10
    ensures IsDigit(c) && DigitValue(c) == v
  {
    (('0' as int) + v) as char
  }

  /** The number a run of decimal digits denotes (leading zeros allowed). */
  function DigitsValue(s: string): nat
    requires AllDigits(s)
    decreases |s|
  {
    if s == [] then 0 else DigitsValue(s[..|s| - 1]) * 10 + DigitValue(s[|s| - 1])
  }

  /**
   * `int(s)`: surrounding white space, an optional sign, then one or more
   * decimal digits; anything else raises `ValueError`, modelled as `None`.
   */
  function ParseInt(s: string): (r: Option<int>)
    ensures r.Some? ==> Strip(s) != []
    ensures AllDigits(Strip(s)) && Strip(s) != [] ==> r == Some(DigitsValue(Strip(s)) as int)
  {
    var t := Strip(s);
    if t == [] then None
    else if t[0] == '+' || t[0] == '-' then
      var body := t[1..];
      if body != [] && AllDigits(body) then
        Some(if t[0] == '-' then -(DigitsValue(body) as int) else DigitsValue(body) as int)
      else None
    else if AllDigits(t) then Some(DigitsValue(t) as int)
    else None
  }

  /** `str(n)` for a natural number. */
  function NatToString(n: nat): (r: string)
    ensures r != [] && AllDigits(r)
    decreases n
  {
    if n < 10 then [DigitChar(n)] else NatToString(n / 10) + [DigitChar(n % 10)]
  }

  /** `str(n)` for an integer: a minus sign before the digits of a negative number. */
  function IntToString(n: int): (r: string)
    ensures r != []
  {
    if n < 0 then "-" + NatToString(-n) else NatToString(n)
  }

  lemma {:induction false} DigitsOfNatToString(n: nat)
    ensures DigitsValue(NatToString(n)) == n
    decreases n
  {
    if n >= 10 {
      var s := NatToString(n);
      DigitsOfNatToString(n / 10);
      assert s[..|s| - 1] == NatToString(n / 10);
    }
  }

  /** `int(str(n)) == n`: the decimal text of a number reads back as that number. */
  lemma IntRoundTrip(n: int)
    ensures ParseInt(IntToString(n)) == Some(n)
  {
    var s := IntToString(n);
    var m := if n < 0 then -n else n;
    DigitsOfNatToString(m);
    var digits := NatToString(m);
    StripUnpadded(s);
    if n < 0 {
      assert s[1..] == digits;
    }
  }

  // ---------------------------------------------------------------------------
  // upper(), replace()
  // ---------------------------------------------------------------------------

  function UpperChar(c: char): (u: char)
    ensures !('a' <= u <= 'z')
    ensures !('a' <= c <= 'z') ==> u == c
  {
    if 'a' <= c <= 'z' then (c as int - 32) as char else c
  }

  /** `s.upper()` on ASCII text. */
  function Upper(s: string): (r: string)
    ensures |r| == |s|
    ensures forall i :: 0 <= i < |s| ==> r[i] == UpperChar(s[i])
  {
    seq(|s|, i requires 0 <= i < |s| => UpperChar(s[i]))
  }

  /** `s.replace(pat, rep)`: occurrences are replaced left to right without overlapping. */
  function ReplaceAll(s: string, pat: string, rep: string): string
    requires pat != []
    decreases |s|
  {
    if |s| < |pat| then s
    else if s[..|pat|] == pat then rep + ReplaceAll(s[|pat|..], pat, rep)
    else [s[0]] + ReplaceAll(s[1..], pat, rep)
  }

  /** Text in which the pattern never occurs is left unchanged by `replace`. */
  lemma {:induction false} ReplaceAbsent(s: string, pat: string, rep: string)
    requires pat != []
    requires forall i :: 0 <= i < |s| ==> !At(s, i, pat)
    ensures ReplaceAll(s, pat, rep) == s
    decreases |s|
  {
    if |s| >= |pat| {
      assert !At(s, 0, pat);
      forall i | 0 <= i < |s| - 1 ensures !At(s[1..], i, pat) {
        assert !At(s, i + 1, pat);
        if i + |pat| <= |s| - 1 { assert s[1..][i..i + |pat|] == s[i + 1..i + 1 + |pat|]; }
      }
      ReplaceAbsent(s[1..], pat, rep);
      assert [s[0]] + s[1..] == s;
    }
  }

  // ---------------------------------------------------------------------------
  // Regular-expression matching helpers
  // ---------------------------------------------------------------------------

  /** A character absent from a slice is absent from every position the slice covers. */
  lemma NotInSlice(s: string, a: nat, b: nat, c: char)
    requires a <= b <= |s| && c !in s[a..b]
    ensures forall k :: a <= k < b ==> s[k] != c
  {
    forall k | a <= k < b ensures s[k] != c {
      assert s[k] == s[a..b][k - a];
    }
  }

  /** The character classes the engine's patterns repeat: `\d`, `\w`, `\s`, `[^c]` and `[^cd]`. */
  datatype CharClass = Digit | Word | Space | Except(c: char) | ExceptEither(c: char, d: char)
  {
    predicate Has(x: char) {
      match this
      case Digit => IsDigit(x)
      case Word => IsWordChar(x)
      case Space => IsSpace(x)
      case Except(c) => x != c
      case ExceptEither(c, d) => x != c && x != d
    }
  }

  /**
   * Where the longest run of characters of class `p` starting at `i` ends:
   * a greedy `p*` from `i` takes exactly `s[i..Scan(s, i, p)]`.
   */
  function Scan(s: string, i: nat, p: CharClass): (e: nat)
    requires i <= |s|
    ensures i <= e <= |s|
    ensures e < |s| ==> !p.Has(s[e])
    decreases |s| - i
  {
    if i < |s| && p.Has(s[i]) then Scan(s, i + 1, p) else i
  }

  /** Every character the scan passes is of its class. */
  lemma {:induction false} ScanHas(s: string, i: nat, p: CharClass)
    requires i <= |s|
    ensures forall k :: i <= k < Scan(s, i, p) ==> p.Has(s[k])
    decreases |s| - i
  {
    if i < |s| && p.Has(s[i]) {
      ScanHas(s, i + 1, p);
    }
  }

  /** A run of class `p` from `i` to `e`, followed by a character outside it (or the end), is what the scan finds. */
  lemma {:induction false} ScanIs(s: string, i: nat, p: CharClass, e: nat)
    requires i <= e <= |s|
    requires forall k :: i <= k < e ==> p.Has(s[k])
    requires e < |s| ==> !p.Has(s[e])
    ensures Scan(s, i, p) == e
    decreases e - i
  {
    if i < e {
      ScanIs(s, i + 1, p, e);
    }
  }

  /** Dropping the first character moves every scan one place to the left. */
  lemma {:induction false} ScanShift(s: string, i: nat, p: CharClass)
    requires 1 <= i <= |s|
    ensures Scan(s, i, p) == Scan(s[1..], i - 1, p) + 1
    decreases |s| - i
  {
    if i < |s| {
      assert s[1..][i - 1] == s[i];
      if p.Has(s[i]) {
        ScanShift(s, i + 1, p);
      }
    }
  }

  /** A scan over `\d` from `a` ends at `b` when `s[a..b]` is all digits and no digit follows. */
  lemma ScanDigitsIs(s: string, a: nat, b: nat)
    requires a <= b <= |s| && AllDigits(s[a..b]) && (b < |s| ==> !IsDigit(s[b]))
    ensures Scan(s, a, Digit) == b
  {
    forall k | a <= k < b ensures IsDigit(s[k]) { assert s[k] == s[a..b][k - a]; }
    ScanIs(s, a, Digit, b);
  }

  /** A scan over `\s` from `a` ends at `b` when `s[a..b]` is all white space and none follows. */
  lemma ScanSpaceIs(s: string, a: nat, b: nat)
    requires a <= b <= |s| && AllSpace(s[a..b]) && (b < |s| ==> !IsSpace(s[b]))
    ensures Scan(s, a, Space) == b
  {
    forall k | a <= k < b ensures IsSpace(s[k]) { assert s[k] == s[a..b][k - a]; }
    ScanIs(s, a, Space, b);
  }

  /** What a scan over `\d` passes is a run of digits. */
  lemma ScanDigits(s: string, a: nat)
    requires a <= |s|
    ensures AllDigits(s[a..Scan(s, a, Digit)])
  {
    ScanHas(s, a, Digit);
    var b := Scan(s, a, Digit);
    forall k | 0 <= k < b - a ensures IsDigit(s[a..b][k]) { assert s[a..b][k] == s[a + k]; }
  }

  /**
   * `re.search`: the leftmost position from `from` on where the pattern
   * matches, with what it matched, given the matcher `m` of the pattern at
   * one position.
   */
  function FirstMatch<T>(s: string, from: nat, m: (string, nat) -> Option<T>): (r: Option<(nat, T)>)
    ensures r.Some? ==> from <= r.value.0 <= |s| && m(s, r.value.0) == Some(r.value.1)
    decreases |s| + 1 - from
  {
    if from > |s| then None
    else if m(s, from).Some? then Some((from, m(s, from).value))
    else FirstMatch(s, from + 1, m)
  }

  /** The search fails exactly when the pattern matches nowhere. */
  lemma {:induction false} FirstMatchNone<T>(s: string, from: nat, m: (string, nat) -> Option<T>)
    ensures FirstMatch(s, from, m).None? <==> forall i :: from <= i <= |s| ==> m(s, i).None?
    decreases |s| + 1 - from
  {
    if from <= |s| && m(s, from).None? {
      FirstMatchNone(s, from + 1, m);
    }
  }

  /** The position found is the leftmost: the pattern matches at no earlier one. */
  lemma {:induction false} FirstMatchLeftmost<T>(s: string, from: nat, m: (string, nat) -> Option<T>)
    requires FirstMatch(s, from, m).Some?
    ensures forall i :: from <= i < FirstMatch(s, from, m).value.0 ==> m(s, i).None?
    decreases |s| + 1 - from
  {
    if m(s, from).None? {
      FirstMatchLeftmost(s, from + 1, m);
    }
  }

  /** `re.search` takes a match at the position it starts from. */
  lemma FirstMatchHere<T>(s: string, from: nat, m: (string, nat) -> Option<T>)
    requires from <= |s| && m(s, from).Some?
    ensures FirstMatch(s, from, m) == Some((from, m(s, from).value))
  {
  }
}

=== FILE: value_system.dfy ===
/**
 * The value store: numeric slots, each with an inclusive lower and upper
 * bound, addressed by integer id, plus the `%N.v` substitution used in menu
 * text. Loading and saving the table through the cache manager is I/O and
 * is not modelled; a table is just a map from id to slot.
 */
module ValueSystem {
  import opened Wrappers
  import opened Text

  datatype Slot = Slot(value: int, min: int, max: int)

  type Table = map<int, Slot>

  /** The result of a mutation: the new table and the boolean the source returns. */
  datatype Update = Update(table: Table, ok: bool)

  /** `max(lo, min(hi, x))`; when the bounds are crossed the lower one wins. */
  function Clamp(lo: int, hi: int, x: int): (r: int)
    ensures lo <= hi ==> lo <= r <= hi
    ensures lo <= x <= hi ==> r == x
    ensures lo <= hi && x < lo ==> r == lo
    ensures lo <= hi && hi < x ==> r == hi
    ensures hi < lo ==> r == lo
  {
    var m := if hi < x then hi else x;
    if lo > m then lo else m
  }

  /** `get_value`: the stored value, or 0 for an id the table does not know. */
  function Get(t: Table, id: int): (v: int)
    ensures id in t ==> v == t[id].value
    ensures id !in t ==> v == 0
  {
    if id in t then t[id].value else 0
  }

  /** Replace the value of a known slot; nothing else in the table changes. */
  function Store(t: Table, id: int, v: int): (t': Table)
    requires id in t
    ensures t'.Keys == t.Keys
    ensures t'[id] == Slot(v, t[id].min, t[id].max)
    ensures forall j :: j in t && j != id ==> t'[j] == t[j]
  {
    t[id := t[id].(value := v)]
  }

  /** `set_value`: store the amount clamped into the slot's bounds. */
  function Set(t: Table, id: int, amount: int): (r: Update)
    ensures r.ok <==> id in t
    ensures !r.ok ==> r.table == t
    ensures r.ok ==> r.table == Store(t, id, Clamp(t[id].min, t[id].max, amount))
  {
    if id in t then Update(Store(t, id, Clamp(t[id].min, t[id].max, amount)), true)
    else Update(t, false)
  }

  /** `add_value`: store the clamp of the old value plus the amount. */
  function Add(t: Table, id: int, amount: int): (r: Update)
    ensures r.ok <==> id in t
    ensures !r.ok ==> r.table == t
    ensures r.ok ==> r.table == Store(t, id, Clamp(t[id].min, t[id].max, t[id].value + amount))
  {
    if id in t then Update(Store(t, id, Clamp(t[id].min, t[id].max, t[id].value + amount)), true)
    else Update(t, false)
  }

  /** `subtract_value`, which the source writes as adding the negated amount. */
  function Subtract(t: Table, id: int, amount: int): (r: Update)
    ensures r.ok <==> id in t
    ensures !r.ok ==> r.table == t
    ensures r.ok ==> r.table == Store(t, id, Clamp(t[id].min, t[id].max, t[id].value - amount))
  {
    Add(t, id, -amount)
  }

  /** A well-bounded slot keeps its value inside its bounds. */
  predicate InBounds(s: Slot) {
    s.min <= s.value <= s.max
  }

  /** Reading back a set value gives the amount clamped into the bounds, and the bounds hold afterwards. */
  lemma GetAfterSet(t: Table, id: int, amount: int)
    requires id in t && t[id].min <= t[id].max
    ensures t[id].min <= Get(Set(t, id, amount).table, id) <= t[id].max
    ensures t[id].min <= amount <= t[id].max ==> Get(Set(t, id, amount).table, id) == amount
    ensures InBounds(Set(t, id, amount).table[id])
  {
  }

  /** Setting the same amount twice leaves the same table as setting it once. */
  lemma SetIdempotent(t: Table, id: int, amount: int)
    ensures Set(Set(t, id, amount).table, id, amount) == Set(t, id, amount)
  {
    if id in t {
      var t1 := Set(t, id, amount).table;
      assert t1[id := t1[id]] == t1;
    }
  }

  /** Apply a sequence of subtractions to one slot. */
  function SubtractAll(t: Table, id: int, amounts: seq<int>): Table
    decreases |amounts|
  {
    if amounts == [] then t else SubtractAll(Subtract(t, id, amounts[0]).table, id, amounts[1..])
  }

  /**
   * However large the amounts, any run of subtractions leaves a slot whose
   * bounds are ordered within those bounds, and keeps its bounds and its
   * presence in the table.
   */
  lemma {:induction false} SubtractionsStayInBounds(t: Table, id: int, amounts: seq<int>)
    requires id in t && t[id].min <= t[id].max
    ensures id in SubtractAll(t, id, amounts)
    ensures SubtractAll(t, id, amounts)[id].min == t[id].min
    ensures SubtractAll(t, id, amounts)[id].max == t[id].max
    ensures amounts != [] ==> InBounds(SubtractAll(t, id, amounts)[id])
    decreases |amounts|
  {
    if amounts != [] {
      var t1 := Subtract(t, id, amounts[0]).table;
      SubtractionsStayInBounds(t1, id, amounts[1..]);
    }
  }

  // ---------------------------------------------------------------------------
  // format_value_text
  // ---------------------------------------------------------------------------

  /** A `%<digits>.v` placeholder at index `i`: the value id and the length of the match. */
  function PlaceholderAt(s: string, i: nat): (r: Option<(nat, nat)>)
    ensures r.Some? ==> 3 < r.value.1 && i + r.value.1 <= |s|
    ensures r.Some? ==> s[i] == '%'
  {
    if i < |s| && s[i] == '%' then
      var e := Scan(s, i + 1, Digit);
      if i + 1 < e && e + 1 < |s| && s[e] == '.' && s[e + 1] == 'v' then
        var digits := s[i + 1..e];
        assert AllDigits(digits) by {
          ScanHas(s, i + 1, Digit);
          forall j | 0 <= j < |digits| ensures IsDigit(digits[j]) {
            assert digits[j] == s[i + 1 + j];
          }
        }
        Some((DigitsValue(digits), e + 2 - i))
      else None
    else None
  }

  /**
   * `format_value_text`: scanning left to right, each `%<digits>.v` is
   * replaced by the decimal text of the value with that id; every other
   * character is copied.
   */
  function Format(t: Table, s: string): (r: string)
    ensures '%' !in s ==> r == s
    ensures s != [] && s[0] != '%' ==> r != [] && r[0] == s[0]
    decreases |s|
  {
    if s == [] then []
    else
      match PlaceholderAt(s, 0)
      case Some((id, len)) => IntToString(Get(t, id)) + Format(t, s[len..])
      case None => [s[0]] + Format(t, s[1..])
  }

  /** Text without a `%` comes back unchanged, and a `%`-free prefix is copied through. */
  lemma {:induction false} FormatPlainPrefix(t: Table, a: string, b: string)
    requires '%' !in a
    ensures Format(t, a + b) == a + Format(t, b)
    decreases |a|
  {
    if a != [] {
      var s := a + b;
      assert s[0] == a[0];
      assert PlaceholderAt(s, 0).None?;
      assert s[1..] == a[1..] + b;
      assert Format(t, s) == [s[0]] + Format(t, s[1..]);
      FormatPlainPrefix(t, a[1..], b);
      assert [a[0]] + a[1..] == a;
      assert [a[0]] + (a[1..] + Format(t, b)) == a + Format(t, b);
    } else {
      assert a + b == b;
    }
  }

  /** No `%<digits>.v` placeholder starts anywhere in `s`. */
  predicate NoPlaceholder(s: string) {
    forall i :: 0 <= i < |s| ==> PlaceholderAt(s, i).None?
  }

  /** Dropping the first character moves every placeholder one place to the left. */
  lemma PlaceholderShift(s: string, i: nat)
    requires 1 <= i <= |s|
    ensures PlaceholderAt(s, i) == PlaceholderAt(s[1..], i - 1)
  {
    if i < |s| && s[i] == '%' {
      var u := s[1..];
      assert u[i - 1] == s[i];
      ScanShift(s, i + 1, Digit);
      var e := Scan(s, i + 1, Digit);
      if i + 1 < e && e + 1 < |s| {
        assert u[e - 1] == s[e] && u[e] == s[e + 1];
        assert u[i..e - 1] == s[i + 1..e];
      }
    }
  }

  /**
   * Text in which no placeholder starts comes back unchanged, whatever `%`
   * signs it holds (`"50% off"`, `"100%"`, `"%x.v"`).
   */
  lemma {:induction false} FormatPlain(t: Table, s: string)
    requires NoPlaceholder(s)
    ensures Format(t, s) == s
    decreases |s|
  {
    if s != [] {
      assert PlaceholderAt(s, 0).None?;
      forall i | 0 <= i < |s[1..]| ensures PlaceholderAt(s[1..], i).None? {
        PlaceholderShift(s, i + 1);
      }
      FormatPlain(t, s[1..]);
      assert [s[0]] + s[1..] == s;
    }
  }

  /** A `%` that starts no placeholder is copied like any other character. */
  lemma FormatStrayPercent(t: Table)
    ensures Format(t, "50% off") == "50% off"
    ensures Format(t, "100%") == "100%"
  {
    var a, b := "50% off", "100%";
    forall i | 0 <= i < |a| ensures PlaceholderAt(a, i).None? {
      if i == 2 { assert Scan(a, 3, Digit) == 3; }
    }
    FormatPlain(t, a);
    FormatPlain(t, b);
  }

  /** A text without `%` holds no placeholder. */
  lemma PercentFreeIsPlain(s: string)
    requires '%' !in s
    ensures NoPlaceholder(s)
  {
    forall i | 0 <= i < |s| ensures PlaceholderAt(s, i).None? {
      assert s[i] in s;
    }
  }

  /** The text of a placeholder for value `id`. */
  function Placeholder(id: nat): string {
    "%" + NatToString(id) + ".v"
  }

  /**
   * A placeholder with any non-empty run of digits, leading zeros included,
   * is replaced by the decimal text of the value whose id `int()` reads from
   * the digits (so `"0"` for an unknown id), and the scan carries on after it.
   */
  lemma FormatPlaceholder(t: Table, digits: string, rest: string)
    requires digits != [] && AllDigits(digits)
    ensures Format(t, "%" + digits + ".v" + rest) == IntToString(Get(t, DigitsValue(digits))) + Format(t, rest)
    ensures DigitsValue(digits) !in t ==> Format(t, "%" + digits + ".v" + rest) == "0" + Format(t, rest)
  {
    var s := "%" + digits + ".v" + rest;
    var n := |digits|;
    assert s[1..1 + n] == digits;
    assert s[n + 1] == '.' && s[n + 2] == 'v';
    ScanOverDigits(s, digits);
    assert PlaceholderAt(s, 0) == Some((DigitsValue(digits), n + 3));
    assert s[n + 3..] == rest;
    if DigitsValue(digits) !in t {
      assert IntToString(0) == "0";
    }
  }

  /** In particular the canonical text of an id is replaced by that id's value. */
  lemma FormatPlaceholderId(t: Table, id: nat, rest: string)
    ensures Format(t, Placeholder(id) + rest) == IntToString(Get(t, id)) + Format(t, rest)
  {
    DigitsOfNatToString(id);
    FormatPlaceholder(t, NatToString(id), rest);
  }

  lemma ScanOverDigits(s: string, digits: string)
    requires AllDigits(digits) && 1 + |digits| < |s| && s[1..1 + |digits|] == digits && !IsDigit(s[1 + |digits|])
    ensures Scan(s, 1, Digit) == 1 + |digits|
  {
    forall j | 1 <= j < 1 + |digits| ensures IsDigit(s[j]) {
      assert s[j] == digits[j - 1];
    }
    ScanIs(s, 1, Digit, 1 + |digits|);
  }
}

=== FILE: wrappers.dfy ===
/** The optional value used wherever the engine returns `None` or a lookup may miss. */
module Wrappers {

  datatype Option<+T> = None | Some(value: T) {

    /** The contained value, or `default` when there is none (Python's `d.get(k, default)`). */
    function GetOr(default: T): T {
      match this
      case Some(v) => v
      case None => default
    }
  }
}
